=== FILE: README.md ===
# IPTV playlist builder: a Dafny model

This project models the core of the M3U8 builder of the `iptv` repository.

Each scraper (roxie, pixel, tvapp and many others) fills a `urls` map that takes
an event key such as `[NBA] Lakers vs Celtics (ROXIE)` to a channel entry. The
entry holds the stream URL, the logo, the site, a timestamp, the channel id and
the event page.

The scrapers share three helpers:
- `Cache` (caching.py): JSON cache files that are reused while their entries
  are fresh.
- `Time` and `Leagues` (config.py): the clock rounding, and the table of
  league ids and logos.
- `Network` (webwork.py): HTTP requests, mirror choice, guarded tasks, the
  browser scopes, and the rule that picks the captured `.m3u8` request.

`fetch.py` reads the base playlist and finds its highest `tvg-chno` number. It
merges the scrapers' maps, sorts them by key, and numbers the events after the
base. It writes two playlists: the combined one (base plus events) and the
events-only one.

All I/O is replaced by values. A file read becomes a `Disk` value: missing,
malformed, or the decoded mapping. An HTTP reply becomes a `Reply`. A parsed
page becomes a list of rows. A browser visit becomes the requests it saw. A
task becomes how it ended: returned, timed out, or failed. The clock becomes the
readings of one run. Python dicts are ordered maps (`Dicts.Dict`): a key list
plus a map.

Modules:
- `Wrappers`: `Option` and `Result`.
- `Strings`: the str operations the code uses.
- `Order`: Python's string order and `sorted`.
- `Dicts`: ordered dicts, `|`, and comprehensions.
- `Clock`: `Time.clean`.
- `Caching`: `Cache`.
- `Records`: the entry.
- `Leagues`: the `Leagues` class.
- `Webwork`: `Network`, without its scopes.
- `Scopes`: the context managers.
- `Urls`: `urlparse` and `urljoin`.
- `Harvest`: the map-filling loop every scraper ends with.
- `Roxie`, `Pixel`, `TvApp`: the three scrapers.
- `Fetch`: `load_base` and `main`.

## Model

| member | source | states |
|---|---|---|
| Clock.Clean | M3U8/scrapers/utils/config.py:40-44 | the cleaned time is the start of its minute: a multiple of 60, at most the time and less than 60 seconds before it |
| Clock.CleanGreatest | M3U8/scrapers/utils/config.py:40-44 | no later whole minute lies at or before the time, so cleaning truncates rather than rounds |
| Clock.CleanIdempotent | M3U8/scrapers/utils/config.py:40-44 | cleaning a cleaned time changes nothing, so `load`'s double cleaning in whole-file mode is harmless |
| Clock.CleanMonotone | M3U8/scrapers/utils/config.py:40-44 | cleaning keeps the order of times |
| Caching.IsFresh | M3U8/scrapers/utils/caching.py:15-20 | an entry that is fresh is stamped less than `exp` seconds before the run; any stamp at least one minute inside the lifetime is fresh; a missing stamp counts as 08:00 of the day |
| Caching.MissingStampIsDefault | M3U8/scrapers/utils/caching.py:16 | an entry without a `timestamp` is judged exactly as one stamped 08:00 |
| Caching.StaleAtExactAge | M3U8/scrapers/utils/caching.py:20 | a whole-minute stamp exactly `exp` seconds old is no longer fresh, because the comparison is strict |
| Caching.FreshMonotone | M3U8/scrapers/utils/caching.py:15-20 | a later stamp than a fresh one is fresh as well |
| Caching.FreshWithinRun | M3U8/scrapers/utils/caching.py:8-20 | a stamp taken during the run is fresh for a cache whose lifetime is at least a minute, cleaned or not |
| Caching.Load | M3U8/scrapers/utils/caching.py:34-46 | a missing file or one that is not JSON gives `{}`; otherwise exactly the fresh entries of the file, each unchanged |
| Caching.LoadWhole | M3U8/scrapers/utils/caching.py:48-56 | in whole-file mode the file is all or nothing; a file without a top-level `timestamp` is judged by 08:00; a `timestamp` that is not a number raises |
| Caching.WholeCleansOnce | M3U8/scrapers/utils/caching.py:52-56 | cleaning the top-level stamp before `is_fresh` cleans it again gives the same verdict as `is_fresh` on the stamp alone |
| Caching.LoadAfterWrite | M3U8/scrapers/utils/caching.py:22-46 | loading a written map whose entries are all fresh gives back the same map, keys in the same order |
| Dicts.Put | M3U8/scrapers/roxie.py:238 | `d[k] = v` replaces the value of an existing key in place and appends a new key at the end |
| Dicts.Union | M3U8/fetch.py:102-124 | `a \| b` holds the values of `b` over those of `a`; it keeps the key order of `a` and appends the new keys of `b` in their order |
| Dicts.UnionAll | M3U8/fetch.py:102-124 | a chain of `\|` has a key exactly when some operand has it, with the value from the last operand that has it |
| Dicts.Filter | M3U8/scrapers/utils/caching.py:46 | a dict comprehension with a condition keeps exactly the entries that pass it, unchanged and in order |
| Dicts.FilterAll | M3U8/scrapers/utils/caching.py:46 | a filter that every entry passes gives back the same dict |
| Dicts.Select | M3U8/scrapers/roxie.py:171-178 | the list comprehension gives the values of the filtered dict in its key order: each listed value belongs to an entry that passes, and the value of every passing entry is listed |
| Dicts.FreshIgnores | M3U8/fetch.py:102-124 | marking as seen a key the operand does not have leaves its new keys unchanged |
| Dicts.FreshOfNothing | M3U8/fetch.py:102-124 | with nothing seen, every key of the operand is new |
| Order.BelowIrreflexive | M3U8/fetch.py:130 | no key sorts before itself under Python's code-point order of strings |
| Order.BelowTransitive | M3U8/fetch.py:130 | Python's string order is transitive |
| Order.BelowTotal | M3U8/fetch.py:130 | of two different keys, one sorts before the other |
| Order.Insert | M3U8/fetch.py:130 | inserting into an ascending list keeps it ascending and adds exactly the new key, once |
| Order.Sort | M3U8/fetch.py:130 | `sorted` returns an ascending list with exactly the given keys |
| Order.SortDistinct | M3U8/fetch.py:130 | sorting distinct keys loses none of them |
| Strings.Strip | M3U8/scrapers/utils/config.py:156 | `str.strip()` gives the text between the leading and trailing whitespace, and nothing when the text is all whitespace |
| Strings.Lower | M3U8/scrapers/utils/config.py:158 | `str.lower()` keeps the length and leaves no capital; a capital becomes the small letter that `upper` turns back into it, and every other character stays |
| Strings.LowerIdempotent | M3U8/scrapers/utils/config.py:158 | lower-casing twice is lower-casing once, and lower-casing an upper-cased text gives the lower-cased text |
| Strings.Upper | M3U8/scrapers/utils/config.py:127 | `str.upper()` keeps the length and leaves no small letter; a small letter becomes the capital that `lower` turns back into it, and every other character stays |
| Strings.Fold | M3U8/scrapers/utils/webwork.py:228-231 | the form `re.IGNORECASE` compares: no capital is left, and it agrees with `lower` except on the long s, the Kelvin sign and the two dotted and dotless i |
| Strings.FoldCaseBlind | M3U8/scrapers/utils/config.py:151 | a case-insensitive pattern sees a text, its upper-case form and its lower-case form alike |
| Strings.IndexOf | M3U8/scrapers/tvapp.py:46 | the first position of a character, or the length when it does not occur |
| Strings.LastIndexOf | M3U8/scrapers/roxie.py:58 | the last position of a character, or -1 when it does not occur |
| Strings.BeforeFirst | M3U8/scrapers/tvapp.py:46 | `split(c, 1)[0]`: the prefix before the first `c`, or the whole text |
| Strings.AfterFirst | M3U8/scrapers/tvapp.py:23 | `split(c, 1)[-1]`: the text splits as the part before the first `c`, then `c`, then the result; with no `c`, the whole text |
| Strings.BeforeLast | M3U8/scrapers/roxie.py:58 | `rsplit(c, 1)[0]`: the prefix before the last `c`, or the whole text |
| Strings.ReplaceAbsent | M3U8/scrapers/tvapp.py:25 | `replace` leaves a text without the pattern unchanged |
| Strings.JoinAppend | M3U8/fetch.py:155-158 | joining two lists is joining each one and putting the separator between them |
| Strings.JoinSplitOn | M3U8/fetch.py:50 | `sep.join(s.split(sep)) == s` for a one-character separator, which gives the lines of `splitlines` back their text |
| Strings.NatStrRoundTrip | M3U8/fetch.py:48 | `int` of the decimal text of a channel number is that number |
| Records.IdOr | M3U8/scrapers/roxie.py:234 | `tvg_id or "Live.Event.us"`: a non-empty id, the league id when there is one |
| Leagues.Teams | M3U8/scrapers/utils/config.py:123-124 | the team list of a league, or `[]` for an unknown league |
| Leagues.FirstMatch | M3U8/scrapers/utils/config.py:129-138 | `next(...)` over the flattened table: the first row that matches the name, and none before it |
| Leagues.LogoOr | M3U8/scrapers/utils/config.py:141 | `logo or live_img`: the league logo when it is present and not empty |
| Leagues.Info | M3U8/scrapers/utils/config.py:126-143 | with the name upper-cased, the id and logo of the first matching league; no id and the live image exactly when no row matches |
| Leagues.SepEnd | M3U8/scrapers/utils/config.py:151 | a match of the separator pattern starts and ends on whitespace and takes the whole whitespace run after its word, as the greedy `\s+` does |
| Leagues.SplitWeave | M3U8/scrapers/utils/config.py:154 | the parts and separators that `re.split` finds put back together give the text |
| Leagues.Split | M3U8/scrapers/utils/config.py:153-154 | `re.split` splits into parts and separators that rebuild the text, and there are two or more parts exactly when `pattern.search` succeeds |
| Leagues.IsValidAsWritten | M3U8/scrapers/utils/config.py:145-164 | `is_valid` as written: it raises exactly when the title has more than one separator; otherwise it compares the two stripped sides with the team list, or the lower-cased title with the fixed names |
| Leagues.TwoSeparatorsRaise | M3U8/scrapers/utils/config.py:154 | the title "a - b - c" makes the unpacking into two names raise |
| Leagues.IsValid | M3U8/scrapers/utils/config.py:145-164 | `is_valid` as intended: true exactly when some stripped side is a team of the league, or, with no separator, when the lower-cased title is a fixed name |
| Leagues.IsValidAgrees | M3U8/scrapers/utils/config.py:145-164 | wherever the code as written returns, it returns the same verdict as the intended check |
| Leagues.GetTvgInfo | M3U8/scrapers/utils/config.py:166-197 | `get_tvg_info` as intended, the corrected half of the config.py:154 finding, which Leagues.GetTvgInfoAgrees ties to the code as written: the sport decides the league tried first and the fallback (NFL then NCAA; NBA, then WNBA, then Basketball; NHL then Hockey); any other sport is looked up by name; the logo is never empty |
| Leagues.GetTvgInfoAsWritten | M3U8/scrapers/utils/config.py:145-197 | `get_tvg_info` as written raises exactly when the sport is one it checks and the title has more than one separator; any other sport is looked up by name |
| Leagues.GetTvgInfoAgrees | M3U8/scrapers/utils/config.py:145-197 | wherever the lookup as written returns, it returns the id and logo of the intended lookup |
| Leagues.GameTitleRaises | M3U8/scrapers/utils/config.py:154 | a basketball title "a - b - c" makes the lookup as written raise |
| Webwork.FirstLine | M3U8/scrapers/utils/webwork.py:229 | under `^` and `.`, the pattern sees the URL up to its first newline |
| Webwork.SearchPattern | M3U8/scrapers/utils/webwork.py:224-233 | one pass over the folded first line finds exactly the URLs that contain `.m3u8` and none of amazonaws, knitcdn or jwpltx, all ignoring case |
| Webwork.BlockedFound | M3U8/scrapers/utils/webwork.py:224-229 | a blocked name starts at some position exactly when the line contains one of the three |
| Webwork.CaptureReq | M3U8/scrapers/utils/webwork.py:233-235 | a wanted request is appended and sets `got_one`; any other request changes nothing |
| Webwork.WantedOf | M3U8/scrapers/utils/webwork.py:233-235 | the captured list holds exactly the wanted requests |
| Webwork.FirstWanted | M3U8/scrapers/utils/webwork.py:285-288 | the first wanted request, with no wanted one before it; none exactly when no request is wanted |
| Webwork.ObserveCollects | M3U8/scrapers/utils/webwork.py:248-258 | after a sequence of requests the list holds the earlier captures plus the wanted requests in order, and the event is set exactly when one was wanted |
| Webwork.WantedOfHead | M3U8/scrapers/utils/webwork.py:285-288 | `captured[0]` is the first wanted request |
| Webwork.ProcessEvent | M3U8/scrapers/utils/webwork.py:237-300 | a failed navigation gives None; otherwise the first wanted request seen before the wait ends, a URL that was requested and wanted |
| Webwork.Request | M3U8/scrapers/utils/webwork.py:39-57 | a response comes back exactly for a reply with a 2xx status; a transport error or another status gives the falsy "" |
| Webwork.GetBase | M3U8/scrapers/utils/webwork.py:59-69 | the first mirror that answers 200 in the order tried, and no earlier one answered; None exactly when no mirror does |
| Webwork.SafeProcess | M3U8/scrapers/utils/webwork.py:71-107 | the task's value when it returns; None after a timeout or an `Exception`; only a `BaseException` escapes |
| Webwork.UrlOf | M3U8/scrapers/roxie.py:211-216 | the URL a guarded visit left, when both the guard and the visit produced one |
| Scopes.EventContextAsWritten | M3U8/scrapers/utils/webwork.py:109-196 | `event_context` as written: it raises exactly when a step raised; nothing is opened when the first `new_context` fails |
| Scopes.ContextLeaksWithoutStealth | M3U8/scrapers/utils/webwork.py:189-196 | without stealth, the first context is never closed |
| Scopes.EventContext | M3U8/scrapers/utils/webwork.py:109-196 | the intended `event_context`: one context, closed on every exit once it was created; it raises exactly when a step raised |
| Scopes.Guarded | M3U8/scrapers/utils/webwork.py:198-207 | a resource acquired in a `try` with a closing `finally` is closed exactly once on every path, and opened exactly when acquiring succeeded |
| Scopes.EventPage | M3U8/scrapers/utils/webwork.py:198-207 | `event_page` closes the page it opened, whatever the body does |
| Scopes.ListenerScope | M3U8/scrapers/utils/webwork.py:258-300 | the request listener of `process_event` is removed on every exit path |
| Urls.NetlocEnd | M3U8/scrapers/tvapp.py:21 | the network location runs up to the first `/`, `?` or `#` |
| Urls.SchemePart | M3U8/scrapers/tvapp.py:21 | a URL with a scheme splits at its first `:` and the scheme is lower-cased; otherwise the default scheme is used |
| Urls.NetlocPart | M3U8/scrapers/tvapp.py:21 | after `//` the netloc is split off, holding no `/`, `?` or `#`; without `//` there is none |
| Urls.UrlSplit | M3U8/scrapers/tvapp.py:21 | `urlsplit` parts: the netloc and the path hold no delimiter that ends them |
| Urls.SplitParams | M3U8/scrapers/tvapp.py:21 | `;params` are split off the last path segment only when present |
| Urls.UrlParse | M3U8/scrapers/tvapp.py:21 | `urlparse` agrees with `urlsplit` on scheme and netloc, and has no params without a `;` |
| Urls.ParseOriginPath | M3U8/scrapers/tvapp.py:21-23 | parsing `scheme://host/path` gives back the scheme, the host and the path |
| Urls.ResolveNoDots | M3U8/scrapers/tvapp.py:25 | resolving segments that hold no `.` or `..` keeps every segment |
| Urls.ResolvedPlainPath | M3U8/scrapers/tvapp.py:25 | `urljoin` leaves an absolute path without dot segments unchanged |
| Urls.ResolvedSegment | M3U8/scrapers/roxie.py:149 | `urljoin` resolves a single relative segment to `/segment` |
| Urls.JoinForeignScheme | M3U8/scrapers/tvapp.py:55 | `urljoin` returns a URL unchanged when its scheme differs from the base's |
| Urls.JoinOriginPath | M3U8/scrapers/tvapp.py:25 | joining an absolute path without dots onto `scheme://host` appends it |
| Urls.JoinOriginSegment | M3U8/scrapers/roxie.py:149 | joining a plain segment onto `scheme://host` gives `scheme://host/segment` |
| Urls.WebOrigin | M3U8/scrapers/tvapp.py:25 | `http` and `https` hosts are origins that `urljoin` resolves relative paths against |
| Harvest.LastFor | M3U8/scrapers/roxie.py:238 | the position of the last item filed under a key, with no later one filed under it |
| Harvest.LastForFound | M3U8/scrapers/roxie.py:238 | some item is filed under a key exactly when a last one is |
| Harvest.Collect | M3U8/scrapers/roxie.py:202-243 | the filling loop keeps every key it started with; any key no item files keeps its value; every other key holds the entry of the last item filed under it |
| Harvest.CollectKeepsOrder | M3U8/scrapers/roxie.py:238 | the keys the map started with keep their order at the front |
| Harvest.Hits | M3U8/scrapers/roxie.py:240-241 | the number of items that produce a key, 0 exactly when none does |
| Harvest.CollectGrowth | M3U8/scrapers/roxie.py:240-245 | the loop adds no more keys than items producing one |
| Roxie.SportUrlOf | M3U8/scrapers/roxie.py:149 | each sport page is `https://roxiestreams.info/<sport>` |
| Roxie.SportUrls | M3U8/scrapers/roxie.py:22-30 | the pages of all five enabled sports, in dict order |
| Roxie.RefreshHtml | M3U8/scrapers/roxie.py:33-74 | a failed request gives `{}`; a row with a linked `href` and a countdown but no `data-start` raises `KeyError`; otherwise exactly the accepted rows are listed under their own key, with the sport and the run's stamp, and the event under a key is that of the last row with the key: its title, its `href` as the link, and its `data-start` cut at the last ':' and parsed as the start |
| Roxie.HarvestSelfKeyed | M3U8/scrapers/roxie.py:46-72 | every listed event sits under the key built from its sport and title |
| Roxie.RefreshAll | M3U8/scrapers/roxie.py:151-160 | `gather` over the sport pages yields one result per page, and raises exactly when a page's refresh raises |
| Roxie.Refreshed | M3U8/scrapers/roxie.py:149-162 | raises when a page did; otherwise the merged HTML listing is keyed by its own events and stamped with the run's time, holds exactly the keys of the per-page listings, and takes each event from the last page that lists its key |
| Roxie.Live | M3U8/scrapers/roxie.py:166-180 | the live events are exactly the listed events that are not cached and that start from an hour before to five minutes after the run |
| Roxie.GetEvents | M3U8/scrapers/roxie.py:143-180 | a fresh HTML cache is used as it is; otherwise the pages are refreshed and written, then the live events are selected |
| Roxie.LiveIsNew | M3U8/scrapers/roxie.py:171-178 | a live event is never among the cached keys and always starts within the window |
| Roxie.MakeEntry | M3U8/scrapers/roxie.py:218-236 | the entry of a visited event records whatever the visit gave as its URL, the event's start as its timestamp, the site and the event page; when `get_tvg_info` returns, its id (or the default) and logo |
| Roxie.Valid | M3U8/scrapers/roxie.py:186 | the cached entries with a truthy URL, unchanged |
| Roxie.RecordAll | M3U8/scrapers/roxie.py:184-238 | the cache keeps every cached key and records every visited event, with or without a URL; the last visit of a key wins |
| Roxie.RecordUrls | M3U8/scrapers/roxie.py:186-243 | `urls` holds the valid cached entries and the visits that gave a URL, and every entry in it has a URL |
| Roxie.Scrape | M3U8/scrapers/roxie.py:183-251 | a run raises exactly when the listing does or `get_tvg_info` raises on the title of a visited event, and then writes no URL cache; otherwise it writes the recorded cache, fills `urls`, and counts the captures |
| Roxie.FailedNotRetried | M3U8/scrapers/roxie.py:172-173 | a fresh cached entry without a URL is not visited again: it stays cached as it was and stays out of `urls` |
| Roxie.NewCountBound | M3U8/scrapers/roxie.py:241-245 | the logged count of new events bounds how much `urls` grew over the valid cache |
| Roxie.HtmlAfter | M3U8/scrapers/roxie.py:143-164 | the HTML cache a run leaves on every path: the old file while it has a fresh event or when a refresh raised, otherwise the merged listing written |
| Roxie.ScrapeLeavesHtml | M3U8/scrapers/roxie.py:164-225 | a returning run carries that HTML cache; a run that refreshed the listing and then raises in `get_tvg_info` still leaves the refreshed listing written |
| Roxie.ScrapeReloads | M3U8/scrapers/roxie.py:251 | a reload in the same run gives back the URL cache just written |
| Roxie.AllFresh | M3U8/scrapers/roxie.py:168-169 | fresh cached entries plus events within the window leave only fresh entries |
| Pixel.SlotKeysDiffer | M3U8/scrapers/pixel.py:58-62 | the three stream slots of one event get three different keys |
| Pixel.CandidatesOfDay | M3U8/scrapers/pixel.py:44-60 | the links visited are exactly slots 1 to 3 of the events of the current day |
| Pixel.MakeEntry | M3U8/scrapers/pixel.py:64-72 | a link's entry has the link as its URL, the run's time as its timestamp, this site, and no event page; when `get_tvg_info` returns, its id (or the default) and logo |
| Pixel.GetEvents | M3U8/scrapers/pixel.py:37-74 | the result of a `get_events` that does not raise: keys exist exactly for the used links of the day's events; the entry under a key is that of the last link filed under it, so its URL is the slot link the key names, stamped with the run's time |
| Pixel.EventsOfTheDay | M3U8/scrapers/pixel.py:45-62 | every used link of a current-day event gets its key; events of other days are skipped |
| Pixel.Scrape | M3U8/scrapers/pixel.py:77-102 | a fresh cache is used as it is and not rewritten; otherwise a guarded read gives the events, or none after a timeout, an `Exception`, or a `get_tvg_info` that raises on the title of a used link, and the map is written; only a `BaseException` escapes |
| Pixel.ScrapeReloads | M3U8/scrapers/pixel.py:98-100 | a reload in the same run gives back the map just written |
| TvApp.OriginHost | M3U8/scrapers/tvapp.py:23 | the origin host holds no URL delimiter when the stream host holds none |
| TvApp.FixUrlOfStream | M3U8/scrapers/tvapp.py:20-25 | `fix_url` puts the stream's path, with `tracks-v1a1/` removed, on `http://origin.<host without its first label>` |
| TvApp.RowEventsFrom | M3U8/scrapers/tvapp.py:45-57 | a row yields exactly one event per link with a non-empty `href`, titled up to the first `:` |
| TvApp.PageEventsYield | M3U8/scrapers/tvapp.py:36-57 | the page yields exactly the events of the rows with a heading other than "Live TV Channels" |
| TvApp.GetEvents | M3U8/scrapers/tvapp.py:28-59 | a failed request gives no events; otherwise exactly the events of the followed links of the listed rows |
| TvApp.RowEventsAppend | M3U8/scrapers/tvapp.py:45-57 | the links of a row are read in order: the events of two runs of links are those of the first run followed by those of the second |
| TvApp.PageEventsAppend | M3U8/scrapers/tvapp.py:36-57 | the rows are read in page order: the events of two runs of rows are those of the first followed by those of the second |
| TvApp.GetEventsOrder | M3U8/scrapers/tvapp.py:28-59 | the events keep the order of the rows and, within a row, of its links, each link listed once, so a title met twice is listed twice in order |
| TvApp.Harvested | M3U8/scrapers/tvapp.py:80-117 | the loop's map when `get_tvg_info` returns for every captured event (TvApp.Scrape gives the raising case): an event has an entry exactly when its visit gave a URL, under its key; the last such event wins; every entry is stamped with the run's time |
| TvApp.Scrape | M3U8/scrapers/tvapp.py:62-121 | a fresh cache is used as it is and not rewritten; otherwise the run raises exactly when `get_tvg_info` raises on the title of an event whose visit gave a URL, and else the harvested map is written |
| TvApp.EntryAgrees | M3U8/scrapers/tvapp.py:104-115 | where `get_tvg_info` returns for an event, the entry carries its id (or the default) and logo |
| TvApp.ScrapeAgrees | M3U8/scrapers/tvapp.py:97-117 | after a run that does not raise, each harvested entry comes from an event on whose title `get_tvg_info` returns, and carries its logo |
| TvApp.ScrapeReloads | M3U8/scrapers/tvapp.py:117-121 | a reload in the same run gives back the map just written |
| Fetch.NumbersComplete | M3U8/fetch.py:46-48 | `findall` never skips a `tvg-chno="<digits>"` match, because a match holds no `t` after its first character |
| Fetch.NumbersSound | M3U8/fetch.py:46-48 | every number `findall` yields is the value of a match in the text |
| Fetch.Max | M3U8/fetch.py:48 | `max(..., default=0)`: an upper bound on the list that belongs to it, or 0 for an empty list |
| Fetch.LastChannel | M3U8/fetch.py:46-48 | the channel offset is at least every channel number in the base, and is one of them unless it is 0 |
| Fetch.WrittenNumberFound | M3U8/fetch.py:46-48 | a number written as `tvg-chno="<n>"` anywhere in a text is read back, and the offset is at least `n` |
| Fetch.Lines | M3U8/fetch.py:50 | `splitlines` gives no lines exactly for the empty text |
| Fetch.LinesSplit | M3U8/fetch.py:50 | on text whose only line break is "\n", `splitlines` is `split("\n")` without the empty piece after a final "\n" |
| Fetch.LinesRoundTrip | M3U8/fetch.py:50 | joining the lines of such a text with "\n" gives the text back, less one final "\n" |
| Fetch.LoadBase | M3U8/fetch.py:41-50 | `load_base` gives the lines of the base and its channel offset |
| Fetch.Channels | M3U8/fetch.py:130-153 | five elements per event; the i-th block is the `#EXTINF` line numbered `offset + i + 1` after a blank line, then the referrer, the origin, the user agent and the stream URL |
| Fetch.SortedKeys | M3U8/fetch.py:130 | the merged keys in ascending order, each exactly once |
| Fetch.Publish | M3U8/fetch.py:102-166 | `main` raises exactly when a merged entry has no URL; otherwise the combined playlist is the base lines plus the blocks numbered after the base, and the events playlist is the header plus the blocks numbered from 1 |
| Fetch.ExtInfInjective | M3U8/fetch.py:134-142 | two `#EXTINF` lines for the same event are equal only when their channel numbers are |
| Fetch.LiveMatchesCombined | M3U8/fetch.py:134-153 | for each event the two playlists carry the same four option lines, and `#EXTINF` lines that differ exactly when the base offset is not 0 |
| Fetch.HeadsAgree | M3U8/fetch.py:134-142 | the combined and the live `#EXTINF` lines of an event agree exactly when the offset is 0 |
| Fetch.BlockAt | M3U8/fetch.py:151-153 | the head of the i-th block is its `#EXTINF` line, and the rest are its option lines |
| Fetch.ExtInfNumberRead | M3U8/fetch.py:134-137 | the `tvg-chno` pattern of `load_base` finds the number of an `#EXTINF` line built as at fetch.py:134-137 |
| Fetch.CombinedKeepsBase | M3U8/fetch.py:155-158 | the combined playlist starts with the base text unmodified (less a final "\n"), then "\n" and the joined channel list |
| Fetch.NumbersAboveBase | M3U8/fetch.py:130-137 | every event in the combined playlist is numbered above every channel number of the base |

## Left out

- File, HTTP and browser I/O are replaced by values: file contents, replies, parsed rows, the requests a visit saw, and task outcomes. Each model says which value stands for which call.
- Concurrency is left out: the semaphores `HTTP_S` and `PW_S`, `asyncio.gather` and task cancellation. Tasks are modelled one after another, in their result order.
- `random.shuffle` in `get_base` is left out. The mirrors arrive in the order tried.
- Logging (logger.py) is left out, and so is the list of scrapers `main` starts. The maps of the scrapers other than roxie, pixel and tvapp are inputs to `Fetch.Publish`. tvapp and streamhub are commented out of `main`, so their maps are empty there.
- The stealth init script and the context options are left out; they only shape the browser. `Network.browser` is left out too.
- `Time.from_str` with its format list, time zones and pytz is an oracle function. So are `Time.now` and `default_8` (the clock readings of one run). pixel's date comparison is an oracle as well.
- Case mapping is ASCII-only. Python maps all of Unicode in `lower`, `upper` and `re.IGNORECASE`.
- `\d` and `\s` are ASCII digits and the `str.isspace` set. Python's `\d` also matches other Unicode digits.
- `urlparse` and `urljoin` are modelled for the URL shapes these files pass them. Left out: IPv6 brackets, NFKC checks, ports, and a base with its own path, query or dot segments. Also left out are URLs holding the characters `urlsplit` strips before parsing: leading or trailing C0 control characters and spaces, and a tab, CR or LF anywhere.
- `load(index=...)` is left out; no caller of the core uses it.
- Malformed JSON in pixel's feed, and missing keys in its records, are left out. Under `safe_process` they end the task like any other `Exception`, which `Webwork.TaskOutcome` covers.
- HTML parsing is replaced by parsed rows. The selectors of roxie and tvapp are taken as already applied.
- roxie's `process_event` differs from the shared one only in its "Stream 1" click and in timeouts. Both are left out: the visit is its sequence of observed requests.
- Leagues.NextSep: its contract states the bounds and that a separator starts at the result. That the result is the leftmost separator holds only through its body.
- Caching.Load: a cache file that is not valid UTF-8 makes `read_text` raise `UnicodeDecodeError` at caching.py:41, which the `except` at caching.py:42 does not catch. A cache file whose top level is not an object, or that has an entry that is not an object or a `timestamp` that is not a number, makes the comprehension at caching.py:46 raise. The model's files hold the typed entries that `write` stores, so these raises are not represented.
- Timestamps are whole seconds. `Cache.now_ts` and `event_ts` are floats in the code. Cleaning floors to the minute, and the strict `<` of `is_fresh` compares with a whole `exp`, so a fraction of a second changes neither. It would matter at the `<= end_ts` end of roxie's window, so sub-second starts are left out.
- A failure of `event_context` or `event_page` themselves is not wired into the roxie, pixel and tvapp scrapes. `Scopes` models those managers on their own.
- In roxie and tvapp the outcome of each guarded visit is the function `capture`. So a `BaseException` out of `safe_process` during a visit cannot escape there. Pixel.Scrape does model that escape for its one task.
- TvApp.FixUrl: its contract covers a URL left with no path; TvApp.FixUrlOfStream covers `scheme://host/path` with a plain path. A path starting with "//", or holding dot segments, a query or a fragment, is left out with the rest of `urljoin`.
- Caching.LoadWhole: an entry with a missing `timestamp` uses 08:00 of the run; `default_8` taken again later in the run is not modelled.

## Findings

| source | as written | input that shows it | evidently intended | confidence | as-written member | corrected member |
|---|---|---|---|---|---|---|
| M3U8/scrapers/utils/config.py:154 | `t1, t2 = re.split(pattern, event)` unpacks the split into exactly two names | the title "a - b - c" (two separators) splits into three parts and raises `ValueError`. `get_tvg_info` raises it for football, basketball and hockey. The roxie and tvapp scrapes end with it, and pixel's feed task fails and keeps no entry | compare every side of the title with the team list | not executed | Leagues.TwoSeparatorsRaise | Leagues.IsValid |
| M3U8/scrapers/utils/webwork.py:189-190 | the non-stealth branch calls `new_context()` a second time and overwrites `context` | `event_context(browser, stealth=False)` | one context, closed in the `finally` on every path | not executed | Scopes.ContextLeaksWithoutStealth | Scopes.EventContext |

=== FILE: caching.dfy ===
/** The JSON cache file of a scraper (`Cache`): entries younger than the cache's
    lifetime are reused on the next run. The file system is replaced by the
    value a read of the file yields, and the clock by the two readings one run
    takes. */
module Caching {
  import opened Wrappers
  import opened Dicts
  import Clock

  /** The clock readings of one run. `nowTs` is taken once, when the cache
      class is first loaded, and is not rounded; `default8` is 08:00 New York
      time on the day of the run, the stand-in for an entry without a
      timestamp. */
  datatype RunClock = RunClock(nowTs: int, default8: int)

  /** A cache file and its lifetime `exp` in seconds. */
  datatype Cache = Cache(name: string, exp: int)

  /** What reading the cache file gives: no file, a file that is not JSON, or
      the decoded mapping. */
  datatype Disk<T> = Missing | Malformed | Stored(data: T)

  /** `is_fresh` on an entry whose `timestamp` field is `stamp` (None when the
      entry has none): the start of the entry's minute is less than `exp`
      seconds before the run's reference time. */
  function IsFresh(c: Cache, clock: RunClock, stamp: Option<int>): (young: bool)
    ensures young ==> stamp.GetOr(clock.default8) > clock.nowTs - c.exp
    ensures stamp.GetOr(clock.default8) >= clock.nowTs - c.exp + 60 ==> young
  {
    clock.nowTs - Clock.Clean(stamp.GetOr(clock.default8)) < c.exp
  }

  /** An entry without a timestamp is judged as if stamped at `default8`. */
  lemma MissingStampIsDefault(c: Cache, clock: RunClock)
    ensures IsFresh(c, clock, None) == IsFresh(c, clock, Some(clock.default8))
  {
  }

  /** The comparison is strict: an entry whose minute started exactly `exp`
      seconds before the reference time is stale. */
  lemma StaleAtExactAge(c: Cache, clock: RunClock, t: int)
    requires t % 60 == 0 && clock.nowTs - t == c.exp
    ensures !IsFresh(c, clock, Some(t))
  {
    Clock.CleanIdempotent(t);
    assert Clock.Clean(t) == t;
  }

  /** With the reference time fixed for the run, a later timestamp is never
      less fresh than an earlier one. */
  lemma FreshMonotone(c: Cache, clock: RunClock, t: int, u: int)
    requires t <= u && IsFresh(c, clock, Some(t))
    ensures IsFresh(c, clock, Some(u))
  {
    Clock.CleanMonotone(t, u);
  }

  /** An entry stamped at or after the reference time, and cleaned or not, is
      fresh in a cache that lives at least a minute. */
  lemma FreshWithinRun(c: Cache, clock: RunClock, t: int)
    requires c.exp >= 60 && t >= clock.nowTs
    ensures IsFresh(c, clock, Some(t))
    ensures IsFresh(c, clock, Some(Clock.Clean(t)))
  {
    Clock.CleanIdempotent(t);
  }

  /** `load()` in its default per-entry mode. `stamp` reads an entry's
      `timestamp` field. A missing file or one that is not JSON gives the
      empty map;
      otherwise exactly the fresh entries are kept, unchanged and in file
      order. */
  function Load<V>(c: Cache, clock: RunClock, file: Disk<Dict<V>>, stamp: V -> Option<int>): (r: Dict<V>)
    ensures !file.Stored? ==> r.keys == [] && r.vals == map[]
    ensures file.Stored? ==> forall k :: k in r.vals <==> k in file.data.vals && IsFresh(c, clock, stamp(file.data.vals[k]))
    ensures file.Stored? ==> forall k :: k in r.vals ==> r.vals[k] == file.data.vals[k]
  {
    match file
    case Stored(d) => Filter(d, (k: string, v: V) => IsFresh(c, clock, stamp(v)))
    case _ => Empty()
  }

  /** `load(per_entry=False)`: the whole mapping is judged by its top-level
      `timestamp` entry (or `default8` when there is none), cleaned, and then
      judged by `is_fresh`, which cleans it once more. `asStamp` reads a value
      as a number; a `timestamp` entry that is not one makes the conversion
      raise. */
  function LoadWhole<V>(c: Cache, clock: RunClock, file: Disk<Dict<V>>, asStamp: V -> Option<int>): (r: Result<Dict<V>>)
    ensures !file.Stored? ==> r.Ok? && r.value.keys == []
    ensures r.Ok? ==> (file.Stored? && r.value == file.data) || r.value.keys == []
    ensures file.Stored? && "timestamp" !in file.data.vals ==>
      r.Ok? && (r.value == file.data <==> IsFresh(c, clock, None) || file.data.keys == [])
    ensures r.Raise? <==> file.Stored? && "timestamp" in file.data.vals && asStamp(file.data.vals["timestamp"]).None?
  {
    match file
    case Stored(d) =>
      var ts := if "timestamp" in d.vals then asStamp(d.vals["timestamp"]) else Some(clock.default8);
      if ts.None? then Raise("TypeError")
      else
        var cleaned := Clock.Clean(ts.value);
        Clock.CleanIdempotent(ts.value);
        if IsFresh(c, clock, Some(cleaned)) then Ok(d) else Ok(Empty())
    case _ => Ok(Empty())
  }

  /** Cleaning the top-level timestamp before `is_fresh` cleans it again
      gives the verdict of a single cleaning. */
  lemma {:induction false} WholeCleansOnce<V>(c: Cache, clock: RunClock, d: Dict<V>, asStamp: V -> Option<int>, t: int)
    requires "timestamp" in d.vals && asStamp(d.vals["timestamp"]) == Some(t) && |d.keys| > 0
    ensures LoadWhole(c, clock, Stored(d), asStamp) == (if IsFresh(c, clock, Some(t)) then Ok(d) else Ok(Empty()))
  {
    Clock.CleanIdempotent(t);
    if !IsFresh(c, clock, Some(t)) {
      assert d != Empty<V>();
    }
  }

  /** `write(data)`: the file afterwards decodes to `data`. */
  function Write<V>(data: Dict<V>): (file: Disk<Dict<V>>)
    ensures file.Stored? && file.data == data
  {
    Stored(data)
  }

  /** Writing a mapping whose entries are all fresh and loading it again in
      the same run gives the mapping back. */
  lemma LoadAfterWrite<V>(c: Cache, clock: RunClock, d: Dict<V>, stamp: V -> Option<int>)
    requires forall k :: k in d.vals ==> IsFresh(c, clock, stamp(d.vals[k]))
    ensures Load(c, clock, Write(d), stamp) == d
  {
    FilterAll(d, (k: string, v: V) => IsFresh(c, clock, stamp(v)));
  }
}

=== FILE: clock.dfy ===
/** Timestamps of the scrapers, as whole seconds since the epoch. */
module Clock {

  /** `Time.clean`: the start of the minute holding `ts` (seconds and
      microseconds set to zero). Every zone the program uses is offset from UTC
      by whole hours, so the minute boundaries are the multiples of 60. */
  function Clean(ts: int): (r: int)
    ensures r <= ts < r + 60
    ensures r % 60 == 0
  {
    ts - ts % 60
  }

  /** No multiple of 60 lies strictly between `Clean(ts)` and `ts`. */
  lemma CleanGreatest(ts: int, m: int)
    requires m % 60 == 0 && m <= ts
    ensures m <= Clean(ts)
  {
    assert m == 60 * (m / 60) && Clean(ts) == 60 * (Clean(ts) / 60);
  }

  /** A cleaned timestamp is its own minute. */
  lemma CleanIdempotent(ts: int)
    ensures Clean(Clean(ts)) == Clean(ts)
  {
    CleanGreatest(Clean(ts), Clean(ts));
  }

  /** A later instant never lies in an earlier minute. */
  lemma CleanMonotone(a: int, b: int)
    requires a <= b
    ensures Clean(a) <= Clean(b)
  {
    CleanGreatest(b, Clean(a));
  }
}

=== FILE: dicts.dfy ===
/** Python's `dict` with `str` keys: a mapping that remembers the order in which
    its keys were first inserted. `keys` is that order, `vals` the mapping. */
module Dicts {
  import opened Wrappers

  predicate Distinct(s: seq<string>) {
    forall i, j :: 0 <= i < j < |s| ==> s[i] != s[j]
  }

  datatype RawDict<V> = RawDict(keys: seq<string>, vals: map<string, V>)

  predicate WellFormed<V>(d: RawDict<V>) {
    && Distinct(d.keys)
    && (forall k :: k in d.keys ==> k in d.vals)
    && (forall k :: k in d.vals ==> k in d.keys)
  }

  type Dict<V> = d: RawDict<V> | WellFormed(d) witness RawDict([], map[])

  function Empty<V>(): (r: Dict<V>)
    ensures r.vals == map[] && r.keys == []
  {
    RawDict([], map[])
  }

  /** Python's truth value of a dict: false exactly when it has no entry. */
  predicate IsEmpty<V>(d: Dict<V>) {
    |d.keys| == 0
  }

  lemma EmptyHasNoEntry<V>(d: Dict<V>)
    ensures IsEmpty(d) <==> d.vals == map[]
  {
    if !IsEmpty(d) {
      assert d.keys[0] in d.vals;
    }
  }

  /** `d.get(k)`. */
  function Get<V>(d: Dict<V>, k: string): Option<V> {
    if k in d.vals then Some(d.vals[k]) else None
  }

  /** `d[k] = v`: an existing key keeps its place, a new key goes last. */
  function Put<V>(d: Dict<V>, k: string, v: V): (r: Dict<V>)
    ensures r.vals == d.vals[k := v]
    ensures k in d.vals ==> r.keys == d.keys
    ensures k !in d.vals ==> r.keys == d.keys + [k]
  {
    if k in d.vals then RawDict(d.keys, d.vals[k := v])
    else
      assert k !in d.keys;
      RawDict(d.keys + [k], d.vals[k := v])
  }

  /** The keys of `ks` not in `seen`, in their order. */
  function Fresh(ks: seq<string>, seen: set<string>): (r: seq<string>)
    ensures forall k :: k in r <==> k in ks && k !in seen
    ensures Distinct(ks) ==> Distinct(r)
  {
    if |ks| == 0 then []
    else if ks[0] in seen then Fresh(ks[1..], seen)
    else
      var t := Fresh(ks[1..], seen);
      assert Distinct(ks) ==> ks[0] !in ks[1..];
      [ks[0]] + t
  }

  lemma {:induction false} FreshIgnores(ks: seq<string>, seen: set<string>, k: string)
    requires k !in ks
    ensures Fresh(ks, seen + {k}) == Fresh(ks, seen)
  {
    if |ks| > 0 {
      FreshIgnores(ks[1..], seen, k);
    }
  }

  lemma {:induction false} FreshOfNothing(ks: seq<string>)
    ensures Fresh(ks, {}) == ks
  {
    if |ks| > 0 {
      FreshOfNothing(ks[1..]);
    }
  }

  lemma DistinctConcat(x: seq<string>, y: seq<string>)
    requires Distinct(x) && Distinct(y) && forall k :: k in x ==> k !in y
    ensures Distinct(x + y)
  {
    forall i, j | 0 <= i < j < |x + y| ensures (x + y)[i] != (x + y)[j] {
      if j >= |x| && i < |x| {
        assert (x + y)[i] in x && (x + y)[j] in y;
      }
    }
  }

  /** `a | b` (equally `a.update(b)` on a copy of `a`): every key of either;
      the value of `b` wins on a key in both; the keys of `a` keep their
      order and the keys new in `b` follow in `b`'s order. */
  function Union<V>(a: Dict<V>, b: Dict<V>): (r: Dict<V>)
    ensures r.vals == a.vals + b.vals
    ensures r.keys == a.keys + Fresh(b.keys, a.vals.Keys)
  {
    var f := Fresh(b.keys, a.vals.Keys);
    var ks := a.keys + f;
    DistinctConcat(a.keys, f);
    RawDict(ks, a.vals + b.vals)
  }

  /** The index of the right-most dict in `ds` holding `k`, or -1. */
  function LastHolder<V>(ds: seq<Dict<V>>, k: string): (i: int)
    ensures -1 <= i < |ds|
    ensures i >= 0 ==> k in ds[i].vals
    ensures forall j :: i < j < |ds| ==> k !in ds[j].vals
  {
    if |ds| == 0 then -1
    else if k in ds[|ds| - 1].vals then |ds| - 1
    else LastHolder(ds[..|ds| - 1], k)
  }

  /** `ds[0] | ds[1] | ... `: a key is present when some dict holds it, and
      takes its value from the right-most dict that holds it. */
  function UnionAll<V>(ds: seq<Dict<V>>): (r: Dict<V>)
    ensures forall k :: k in r.vals <==> LastHolder(ds, k) >= 0
    ensures forall k :: k in r.vals ==> r.vals[k] == ds[LastHolder(ds, k)].vals[k]
  {
    if |ds| == 0 then Empty()
    else
      var front := UnionAll(ds[..|ds| - 1]);
      assert forall k :: k !in ds[|ds| - 1].vals ==> LastHolder(ds, k) == LastHolder(ds[..|ds| - 1], k);
      Union(front, ds[|ds| - 1])
  }

  /** The keys of `ks` whose entries `keep` accepts, in their order. */
  function Kept<V>(ks: seq<string>, m: map<string, V>, keep: (string, V) -> bool): (r: seq<string>)
    requires forall k :: k in ks ==> k in m
    ensures forall k :: k in r <==> k in ks && keep(k, m[k])
    ensures Distinct(ks) ==> Distinct(r)
  {
    if |ks| == 0 then []
    else
      var t := Kept(ks[1..], m, keep);
      assert Distinct(ks) ==> ks[0] !in ks[1..];
      if keep(ks[0], m[ks[0]]) then [ks[0]] + t else t
  }

  /** `{k: v for k, v in d.items() if keep(k, v)}`. */
  function Filter<V>(d: Dict<V>, keep: (string, V) -> bool): (r: Dict<V>)
    ensures forall k :: k in r.vals <==> k in d.vals && keep(k, d.vals[k])
    ensures forall k :: k in r.vals ==> r.vals[k] == d.vals[k]
    ensures r.keys == Kept(d.keys, d.vals, keep)
  {
    var ks := Kept(d.keys, d.vals, keep);
    RawDict(ks, map k | k in ks :: d.vals[k])
  }

  lemma {:induction false} KeptAll<V>(ks: seq<string>, m: map<string, V>, keep: (string, V) -> bool)
    requires forall k :: k in ks ==> k in m && keep(k, m[k])
    ensures Kept(ks, m, keep) == ks
  {
    if |ks| > 0 {
      KeptAll(ks[1..], m, keep);
      assert [ks[0]] + ks[1..] == ks;
    }
  }

  /** A filter that accepts every entry gives back the same dict. */
  lemma FilterAll<V>(d: Dict<V>, keep: (string, V) -> bool)
    requires forall k :: k in d.vals ==> keep(k, d.vals[k])
    ensures Filter(d, keep) == d
  {
    KeptAll(d.keys, d.vals, keep);
    var r := Filter(d, keep);
    assert r.keys == d.keys;
    assert r.vals == d.vals;
  }

  /** `[v for k, v in d.items() if keep(k, v)]`: the values of the filtered
      dict in its key order, so a value is listed exactly when an entry
      holding it passes. */
  function Select<V>(d: Dict<V>, keep: (string, V) -> bool): (r: seq<V>)
    ensures |r| == |Filter(d, keep).keys|
    ensures forall i :: 0 <= i < |r| ==>
      var k := Filter(d, keep).keys[i]; k in d.vals && keep(k, d.vals[k]) && r[i] == d.vals[k]
    ensures forall k :: k in d.vals && keep(k, d.vals[k]) ==> d.vals[k] in r
  {
    var ks := Kept(d.keys, d.vals, keep);
    var r := seq(|ks|, i requires 0 <= i < |ks| => d.vals[ks[i]]);
    assert Filter(d, keep).keys == ks;
    forall k | k in d.vals && keep(k, d.vals[k]) ensures d.vals[k] in r {
      var i :| 0 <= i < |ks| && ks[i] == k;
      assert r[i] == d.vals[k];
    }
    r
  }
}

=== FILE: fetch.dfy ===
/** fetch.py: the run that reads the base playlist, merges the maps of all
    scrapers and writes the two playlists, the combined one (base channels
    followed by the live events, numbered after the base) and the events-only
    one (live events numbered from 1). */
module Fetch {
  import opened Wrappers
  import opened Strings
  import opened Dicts
  import Order
  import Records
  import Webwork

  // ---------------------------------------------------------------------
  // load_base: the highest `tvg-chno="(\d+)"` of the base playlist

  const ChnoOpen: string := "tvg-chno=\""

  /** The length of the run of digits starting at `j`. */
  function DigitRun(s: string, j: nat): (n: nat)
    requires j <= |s|
    ensures j + n <= |s|
    ensures forall k :: j <= k < j + n ==> IsDigit(s[k])
    ensures j + n < |s| ==> !IsDigit(s[j + n])
    decreases |s| - j
  {
    if j < |s| && IsDigit(s[j]) then 1 + DigitRun(s, j + 1) else 0
  }

  /** The pattern matches at `i`: the opening text, one or more digits, and
      the closing quote. The digits are greedy, so they run up to the quote. */
  predicate MatchAt(s: string, i: nat) {
    && OccursAt(s, ChnoOpen, i)
    && var j := i + |ChnoOpen|;
       var n := DigitRun(s, j);
       n > 0 && j + n < |s| && s[j + n] == '"'
  }

  /** The first index after a match. */
  function MatchEnd(s: string, i: nat): (e: nat)
    requires MatchAt(s, i)
    ensures i < e <= |s|
  {
    i + |ChnoOpen| + DigitRun(s, i + |ChnoOpen|) + 1
  }

  /** `int` of the captured digits. */
  function MatchValue(s: string, i: nat): nat
    requires MatchAt(s, i)
  {
    var j := i + |ChnoOpen|;
    DigitsValue(s[j .. j + DigitRun(s, j)])
  }

  /** `findall` from index `p`: try to match at `p`; on success take the
      value and go on after the match, otherwise go on at `p + 1`. */
  function Numbers(s: string, p: nat): seq<nat>
    requires p <= |s|
    decreases |s| - p
  {
    if p == |s| then []
    else if MatchAt(s, p) then [MatchValue(s, p)] + Numbers(s, MatchEnd(s, p))
    else Numbers(s, p + 1)
  }

  /** A match never contains the first letter of another one, so a scan
      that starts at or before a match never jumps over it. */
  lemma {:induction false} NumbersComplete(s: string, p: nat, i: nat)
    requires p <= i && MatchAt(s, i)
    ensures MatchValue(s, i) in Numbers(s, p)
    decreases |s| - p
  {
    if p < i {
      if MatchAt(s, p) {
        MatchesApart(s, p, i);
        NumbersComplete(s, MatchEnd(s, p), i);
      } else {
        NumbersComplete(s, p + 1, i);
      }
    }
  }

  /** A match ends before the next one begins: its only 't' is its first
      character. */
  lemma MatchesApart(s: string, p: nat, i: nat)
    requires p < i && MatchAt(s, p) && MatchAt(s, i)
    ensures MatchEnd(s, p) <= i
  {
    var e := MatchEnd(s, p);
    assert s[i] == 't' by {
      assert s[i..i + |ChnoOpen|] == ChnoOpen;
    }
    assert forall k :: p < k < e ==> s[k] != 't' by {
      assert s[p..p + |ChnoOpen|] == ChnoOpen;
      forall k | p < k < p + |ChnoOpen| ensures s[k] != 't' {
        assert s[k] == ChnoOpen[k - p];
      }
    }
  }

  /** Every value the scan yields is the value of a match at or after `p`. */
  lemma {:induction false} NumbersSound(s: string, p: nat, n: nat)
    requires p <= |s| && n in Numbers(s, p)
    ensures exists i :: p <= i && MatchAt(s, i) && MatchValue(s, i) == n
    decreases |s| - p
  {
    if MatchAt(s, p) && n != MatchValue(s, p) {
      NumbersSound(s, MatchEnd(s, p), n);
    } else if !MatchAt(s, p) {
      NumbersSound(s, p + 1, n);
    }
  }

  /** `max(xs, default=0)`. */
  function Max(xs: seq<nat>): (m: nat)
    ensures forall x :: x in xs ==> x <= m
    ensures |xs| == 0 ==> m == 0
    ensures |xs| > 0 ==> m in xs
  {
    if |xs| == 0 then 0
    else
      var rest := Max(xs[1..]);
      assert forall x :: x in xs ==> x == xs[0] || x in xs[1..];
      if |xs| > 1 && rest > xs[0] then rest else
        assert |xs| > 1 ==> rest in xs[1..];
        xs[0]
  }

  /** The channel offset: the highest number the pattern finds in the base
      text, or 0 when it finds none. */
  function LastChannel(data: string): (m: nat)
    ensures forall i :: MatchAt(data, i) ==> MatchValue(data, i) <= m
    ensures m == 0 || exists i :: MatchAt(data, i) && MatchValue(data, i) == m
  {
    ScanExact(data);
    Max(Numbers(data, 0))
  }

  /** The scan from the start yields exactly the values of the matches. */
  lemma ScanExact(data: string)
    ensures forall i :: MatchAt(data, i) ==> MatchValue(data, i) in Numbers(data, 0)
    ensures forall n :: n in Numbers(data, 0) ==> exists i :: MatchAt(data, i) && MatchValue(data, i) == n
  {
    forall i | MatchAt(data, i) ensures MatchValue(data, i) in Numbers(data, 0) {
      NumbersComplete(data, 0, i);
    }
    forall n | n in Numbers(data, 0) ensures exists i :: MatchAt(data, i) && MatchValue(data, i) == n {
      NumbersSound(data, 0, n);
    }
  }

  /** The digits of a run end where the first non-digit is. */
  lemma {:induction false} DigitRunOf(s: string, j: nat, m: nat)
    requires j + m <= |s|
    requires forall k :: j <= k < j + m ==> IsDigit(s[k])
    requires j + m < |s| && !IsDigit(s[j + m])
    ensures DigitRun(s, j) == m
    decreases m
  {
    if m > 0 {
      DigitRunOf(s, j + 1, m - 1);
    }
  }

  /** A number written as `tvg-chno="<n>"` anywhere in a text is found by
      the scan. */
  lemma WrittenNumberFound(pre: string, n: nat, post: string)
    ensures var s := pre + ChnoOpen + NatStr(n) + "\"" + post;
      n in Numbers(s, 0) && n <= LastChannel(s)
  {
    var s := pre + ChnoOpen + NatStr(n) + "\"" + post;
    var i := |pre|;
    var j := i + |ChnoOpen|;
    var d := NatStr(n);
    Layout(pre, d, post);
    DigitRunOf(s, j, |d|);
    assert MatchAt(s, i);
    NatStrRoundTrip(n);
    ValueOfMatch(s, i, d);
    NumbersComplete(s, 0, i);
  }

  /** Where the parts of a written channel number sit in the text. */
  lemma Layout(pre: string, d: string, post: string)
    ensures var s := pre + ChnoOpen + d + "\"" + post;
      var j := |pre| + |ChnoOpen|;
      && s[|pre|..j] == ChnoOpen && s[j..j + |d|] == d
      && j + |d| < |s| && s[j + |d|] == '"'
  {
    var s := pre + ChnoOpen + d + "\"" + post;
    var j := |pre| + |ChnoOpen|;
    assert s[|pre|..j] == (pre + ChnoOpen)[|pre|..];
    assert s[j..j + |d|] == (pre + ChnoOpen + d)[j..];
  }

  lemma ValueOfMatch(s: string, i: nat, d: string)
    requires MatchAt(s, i)
    requires var j := i + |ChnoOpen|; DigitRun(s, j) == |d| && s[j..j + |d|] == d
    ensures AllDigits(d) && MatchValue(s, i) == DigitsValue(d)
  {
  }

  // ---------------------------------------------------------------------
  // str.splitlines()

  /** The characters `str.splitlines` breaks at. */
  predicate LineBreak(c: char) {
    || c == '\n' || c == '\r' || c == '\U{0B}' || c == '\U{0C}'
    || c == '\U{1C}' || c == '\U{1D}' || c == '\U{1E}'
    || c == '\U{85}' || c == '\U{2028}' || c == '\U{2029}'
  }

  /** Index of the first line break, or `|s|`. */
  function BreakAt(s: string): (i: nat)
    ensures i <= |s| && forall j :: 0 <= j < i ==> !LineBreak(s[j])
    ensures i < |s| ==> LineBreak(s[i])
  {
    if |s| == 0 || LineBreak(s[0]) then 0 else BreakAt(s[1..]) + 1
  }

  /** `s.splitlines()`: the lines without their ends, "\r\n" counting as one
      end; a final line end opens no further line. */
  function Lines(s: string): (ls: seq<string>)
    ensures |ls| == 0 <==> |s| == 0
    decreases |s|
  {
    if |s| == 0 then []
    else
      var i := BreakAt(s);
      if i == |s| then [s]
      else
        var w := if s[i] == '\r' && i + 1 < |s| && s[i + 1] == '\n' then 2 else 1;
        [s[..i]] + Lines(s[i + w..])
  }

  /** A text whose only line break is "\n". */
  predicate UnixText(s: string) {
    forall k :: 0 <= k < |s| ==> (LineBreak(s[k]) ==> s[k] == '\n')
  }

  /** The text without one final "\n". */
  function Trimmed(s: string): string {
    if |s| > 0 && s[|s| - 1] == '\n' then s[..|s| - 1] else s
  }

  /** In a "\n"-only text the first line break is the first "\n". */
  lemma FirstBreak(s: string)
    requires UnixText(s)
    ensures BreakAt(s) == IndexOf(s, '\n')
  {
    var i := BreakAt(s);
    var j := IndexOf(s, '\n');
    if j < i {
      assert LineBreak(s[j]);
    }
  }

  lemma SplitAtFirst(t: string, i: nat)
    requires i < |t| && t[i] == '\n' && forall k :: 0 <= k < i ==> t[k] != '\n'
    ensures SplitOn(t, '\n') == [t[..i]] + SplitOn(t[i + 1..], '\n')
  {
    assert IndexOf(t, '\n') == i;
  }

  lemma SplitNone(t: string)
    requires '\n' !in t
    ensures SplitOn(t, '\n') == [t]
  {
  }

  lemma {:induction false} LinesSplit(s: string)
    requires |s| > 0 && UnixText(s)
    ensures Lines(s) == SplitOn(Trimmed(s), '\n')
    decreases |s|
  {
    var i := BreakAt(s);
    var t := Trimmed(s);
    FirstBreak(s);
    if i == |s| {
      SplitNone(s);
    } else {
      var rest := s[i + 1..];
      assert s[i] == '\n';
      assert Lines(s) == [s[..i]] + Lines(rest);
      if |rest| == 0 {
        assert t == s[..i];
        SplitNone(t);
      } else {
        assert UnixText(rest) by {
          forall k | 0 <= k < |rest| ensures LineBreak(rest[k]) ==> rest[k] == '\n' {
            assert rest[k] == s[i + 1 + k];
          }
        }
        LinesSplit(rest);
        RestTrimmed(s, i);
        SplitAtFirst(t, i);
      }
    }
  }

  lemma RestTrimmed(s: string, i: nat)
    requires i < |s| - 1 && s[i] == '\n'
    ensures var t := Trimmed(s);
      i < |t| && t[..i] == s[..i] && t[i] == '\n' && t[i + 1..] == Trimmed(s[i + 1..])
  {
  }

  /** Joining the lines of a "\n"-only text with "\n" gives the text back,
      less a final "\n". */
  lemma LinesRoundTrip(s: string)
    requires UnixText(s)
    ensures Join("\n", Lines(s)) == Trimmed(s)
  {
    if |s| > 0 {
      LinesSplit(s);
      JoinSplitOn(Trimmed(s), '\n');
    }
  }

  /** `load_base()`: the lines of the base playlist and its channel
      offset. */
  function LoadBase(data: string): (r: (seq<string>, nat))
    ensures r.0 == Lines(data)
    ensures r.1 == LastChannel(data)
  {
    (Lines(data), LastChannel(data))
  }

  // ---------------------------------------------------------------------
  // main: merge, order, number and render

  /** The `#EXTINF` line of an event: the channel number is the only part
      that is not taken from the key and the entry. */
  function ExtInf(chno: nat, key: string, e: Records.Entry): string {
    "#EXTINF:-1 " + ChnoOpen + NatStr(chno) + "\"" + ExtInfTail(key, e)
  }

  function ExtInfTail(key: string, e: Records.Entry): string {
    " tvg-id=\"" + e.id + "\" tvg-name=\"" + key + "\" tvg-logo=\"" + e.logo
      + "\" group-title=\"Live Events\"," + key
  }

  /** The four list elements after an event's `#EXTINF` line: the referrer
      and the origin (both the entry's site), the user agent of the client,
      and the stream URL. */
  function Vlc(e: Records.Entry): (v: seq<string>)
    requires e.url.Some?
  {
    [ "#EXTVLCOPT:http-referrer=" + e.base,
      "#EXTVLCOPT:http-origin=" + e.base,
      "#EXTVLCOPT:http-user-agent=" + Webwork.UA,
      e.url.value ]
  }

  /** The five list elements of one event: its `#EXTINF` line after a blank
      line, then the four option lines. */
  function Block(chno: nat, key: string, e: Records.Entry): (b: seq<string>)
    requires e.url.Some?
  {
    ["\n" + ExtInf(chno, key, e)] + Vlc(e)
  }

  /** Every key has an entry with a stream URL. */
  predicate Renderable(ks: seq<string>, vals: map<string, Records.Entry>) {
    forall k :: k in ks ==> k in vals && vals[k].url.Some?
  }

  /** The channel list of the loop over `ks`, the i-th key (from 0) numbered
      `offset + i + 1`. */
  function Channels(ks: seq<string>, vals: map<string, Records.Entry>, offset: nat): (r: seq<string>)
    requires Renderable(ks, vals)
    ensures |r| == 5 * |ks|
    ensures forall i :: 0 <= i < |ks| ==> r[5 * i .. 5 * i + 5] == Block(offset + i + 1, ks[i], vals[ks[i]])
  {
    if |ks| == 0 then []
    else
      var n := |ks| - 1;
      var front := Channels(ks[..n], vals, offset);
      var b := Block(offset + n + 1, ks[n], vals[ks[n]]);
      var r := front + b;
      assert forall i :: 0 <= i < |ks| ==> r[5 * i .. 5 * i + 5] == Block(offset + i + 1, ks[i], vals[ks[i]]) by {
        forall i | 0 <= i < |ks| ensures r[5 * i .. 5 * i + 5] == Block(offset + i + 1, ks[i], vals[ks[i]]) {
          if i < n {
            FrontSlice(front, b, 5 * i);
            assert ks[..n][i] == ks[i];
          } else {
            assert r[5 * i .. 5 * i + 5] == b;
          }
        }
      }
      r
  }

  lemma FrontSlice(front: seq<string>, b: seq<string>, j: nat)
    requires j + 5 <= |front|
    ensures (front + b)[j .. j + 5] == front[j .. j + 5]
  {
  }

  /** `sorted(additions.items())` by key: every key once, ascending. */
  function SortedKeys<V>(d: Dict<V>): (ks: seq<string>)
    ensures Order.Ascending(ks)
    ensures forall k :: k in ks <==> k in d.vals
    ensures |ks| == |d.keys|
  {
    Order.SortDistinct(d.keys);
    Order.Sort(d.keys)
  }

  const EventsHeader: string :=
    "#EXTM3U url-tvg=\"https://raw.githubusercontent.com/doms9/iptv/refs/heads/default/M3U8/TV.xml\""

  /** The texts of the two playlists. */
  datatype Output = Output(combined: string, events: string)

  /** Some merged entry has no stream URL. */
  predicate MissingUrl(d: Dict<Records.Entry>) {
    exists k :: k in d.vals && d.vals[k].url.None?
  }

  lemma SortedRenderable(d: Dict<Records.Entry>)
    requires !MissingUrl(d)
    ensures Renderable(SortedKeys(d), d.vals)
  {
  }

  /** `main()` after the scrapers ran: `sources` are their `urls` maps in
      the order of the union, `baseData` the base playlist. Joining a list
      that holds a missing URL raises, and then neither file is written. */
  function Publish(baseData: string, sources: seq<Dict<Records.Entry>>): (r: Result<Output>)
    ensures r.Raise? <==> MissingUrl(UnionAll(sources))
    ensures r.Ok? ==>
      var add := UnionAll(sources);
      var ks := SortedKeys(add);
      Renderable(ks, add.vals)
      && r.value.combined == Join("\n", LoadBase(baseData).0 + Channels(ks, add.vals, LoadBase(baseData).1))
      && r.value.events == EventsHeader + "\n" + Join("\n", Channels(ks, add.vals, 0))
  {
    var add := UnionAll(sources);
    if MissingUrl(add) then
      Raise("TypeError: sequence item: expected str instance, NoneType found")
    else
      var base := LoadBase(baseData);
      var ks := SortedKeys(add);
      SortedRenderable(add);
      Ok(Output(Join("\n", base.0 + Channels(ks, add.vals, base.1)),
                EventsHeader + "\n" + Join("\n", Channels(ks, add.vals, 0))))
  }

  // ---------------------------------------------------------------------
  // Properties of the rendering

  /** Two `#EXTINF` lines for the same event are equal only when their
      channel numbers are. */
  lemma ExtInfInjective(a: nat, b: nat, key: string, e: Records.Entry)
    requires ExtInf(a, key, e) == ExtInf(b, key, e)
    ensures a == b
  {
    var p := "#EXTINF:-1 " + ChnoOpen;
    var q := "\"" + ExtInfTail(key, e);
    ExtInfParts(a, key, e);
    ExtInfParts(b, key, e);
    Cancel(p, NatStr(a), NatStr(b), q);
    NatStrRoundTrip(a);
    NatStrRoundTrip(b);
  }

  lemma ExtInfParts(chno: nat, key: string, e: Records.Entry)
    ensures ExtInf(chno, key, e) == ("#EXTINF:-1 " + ChnoOpen) + NatStr(chno) + ("\"" + ExtInfTail(key, e))
  {
    Assoc("#EXTINF:-1 " + ChnoOpen + NatStr(chno), "\"", ExtInfTail(key, e));
  }

  lemma Assoc(a: string, b: string, c: string)
    ensures a + (b + c) == a + b + c
  {
  }

  lemma Cancel(p: string, x: string, y: string, q: string)
    requires p + x + q == p + y + q
    ensures x == y
  {
    assert x == (p + x + q)[|p| .. |p| + |x|];
  }

  /** The combined and the live list hold, for the same event, the same
      four option lines, and `#EXTINF` lines that differ exactly when the
      offset is not 0: they carry `offset + i + 1` and `i + 1`. */
  lemma LiveMatchesCombined(ks: seq<string>, vals: map<string, Records.Entry>, offset: nat, i: nat)
    requires Renderable(ks, vals) && i < |ks|
    ensures Channels(ks, vals, offset)[5 * i + 1 .. 5 * i + 5] == Channels(ks, vals, 0)[5 * i + 1 .. 5 * i + 5]
    ensures Channels(ks, vals, offset)[5 * i] == "\n" + ExtInf(offset + i + 1, ks[i], vals[ks[i]])
    ensures Channels(ks, vals, 0)[5 * i] == "\n" + ExtInf(i + 1, ks[i], vals[ks[i]])
    ensures Channels(ks, vals, offset)[5 * i] == Channels(ks, vals, 0)[5 * i] <==> offset == 0
  {
    BlockAt(ks, vals, offset, i);
    BlockAt(ks, vals, 0, i);
    HeadsAgree(offset, i, ks[i], vals[ks[i]]);
  }

  lemma HeadsAgree(offset: nat, i: nat, key: string, e: Records.Entry)
    ensures "\n" + ExtInf(offset + i + 1, key, e) == "\n" + ExtInf(i + 1, key, e) <==> offset == 0
  {
    var x := ExtInf(offset + i + 1, key, e);
    var y := ExtInf(i + 1, key, e);
    if "\n" + x == "\n" + y {
      NewlineCancel(x, y);
      ExtInfInjective(offset + i + 1, i + 1, key, e);
    }
  }

  lemma NewlineCancel(a: string, b: string)
    requires "\n" + a == "\n" + b
    ensures a == b
  {
    assert a == ("\n" + a)[1..];
  }

  /** The head and the rest of the i-th block of a channel list. */
  lemma BlockAt(ks: seq<string>, vals: map<string, Records.Entry>, offset: nat, i: nat)
    requires Renderable(ks, vals) && i < |ks|
    ensures Channels(ks, vals, offset)[5 * i] == "\n" + ExtInf(offset + i + 1, ks[i], vals[ks[i]])
    ensures Channels(ks, vals, offset)[5 * i + 1 .. 5 * i + 5] == Vlc(vals[ks[i]])
  {
    var c := Channels(ks, vals, offset);
    var bc := Block(offset + i + 1, ks[i], vals[ks[i]]);
    assert c[5 * i .. 5 * i + 5] == bc;
    assert c[5 * i] == bc[0];
    assert c[5 * i + 1 .. 5 * i + 5] == bc[1..];
  }

  /** The number on an `#EXTINF` line is the one the base scan would read
      from it. */
  lemma ExtInfNumberRead(chno: nat, key: string, e: Records.Entry)
    ensures chno in Numbers(ExtInf(chno, key, e), 0)
  {
    WrittenNumberFound("#EXTINF:-1 ", chno, ExtInfTail(key, e));
  }

  /** The combined playlist of a "\n"-only base is the base text (less a
      final "\n") followed by "\n" and the joined channel list: the base
      comes first, unmodified. */
  lemma CombinedKeepsBase(baseData: string, channels: seq<string>)
    requires UnixText(baseData) && |baseData| > 0 && |channels| > 0
    ensures Join("\n", Lines(baseData) + channels) == Trimmed(baseData) + "\n" + Join("\n", channels)
  {
    JoinAppend("\n", Lines(baseData), channels);
    LinesRoundTrip(baseData);
  }

  /** Every event of the combined playlist is numbered above every channel
      number of the base playlist. */
  lemma NumbersAboveBase(baseData: string, sources: seq<Dict<Records.Entry>>, i: nat, at: nat)
    requires Publish(baseData, sources).Ok?
    requires i < |UnionAll(sources).keys| && MatchAt(baseData, at)
    ensures var add := UnionAll(sources);
      var ks := SortedKeys(add);
      var c := Channels(ks, add.vals, LastChannel(baseData));
      && c[5 * i] == "\n" + ExtInf(LastChannel(baseData) + i + 1, ks[i], add.vals[ks[i]])
      && MatchValue(baseData, at) < LastChannel(baseData) + i + 1
  {
    var add := UnionAll(sources);
    var ks := SortedKeys(add);
    LiveMatchesCombined(ks, add.vals, LastChannel(baseData), i);
  }
}

=== FILE: harvest.dfy ===
/** The loop every scraper ends with: walk the events in order and, for each
    one that yields a key, store its entry under that key, a later event
    replacing the entry of an earlier one with the same key. */
module Harvest {
  import opened Wrappers
  import opened Dicts

  /** The position of the last item of `xs` filed under `k`, or -1. */
  function LastFor<E>(xs: seq<E>, key: E -> Option<string>, k: string): (i: int)
    ensures -1 <= i < |xs|
    ensures i >= 0 ==> key(xs[i]) == Some(k)
    ensures forall j :: i < j < |xs| ==> key(xs[j]) != Some(k)
  {
    if |xs| == 0 then -1
    else if key(xs[|xs| - 1]) == Some(k) then |xs| - 1
    else LastFor(xs[..|xs| - 1], key, k)
  }

  /** Some item is filed under `k` exactly when a last one is. */
  lemma LastForFound<E>(xs: seq<E>, key: E -> Option<string>, k: string)
    ensures LastFor(xs, key, k) >= 0 <==> exists x :: x in xs && key(x) == Some(k)
  {
    if LastFor(xs, key, k) < 0 {
      forall x | x in xs ensures key(x) != Some(k) {
        var j :| 0 <= j < |xs| && xs[j] == x;
      }
    }
  }

  /** `for x in xs: if key(x) is not None: d[key(x)] = val(x)`. Every key
      of `d` stays where it was; a key no item is filed under keeps its
      value; any other key holds the value of the last item filed under it. */
  function Collect<E, V>(d: Dict<V>, xs: seq<E>, key: E -> Option<string>, val: E -> V): (r: Dict<V>)
    ensures forall k :: k in r.vals <==> k in d.vals || LastFor(xs, key, k) >= 0
    ensures forall k :: k in r.vals && LastFor(xs, key, k) >= 0 ==> r.vals[k] == val(xs[LastFor(xs, key, k)])
    ensures forall k :: k in r.vals && LastFor(xs, key, k) < 0 ==> r.vals[k] == d.vals[k]
  {
    if |xs| == 0 then d
    else
      var front := Collect(d, xs[..|xs| - 1], key, val);
      var x := xs[|xs| - 1];
      LastForStep(xs, key);
      if key(x).Some? then Put(front, key(x).value, val(x)) else front
  }

  /** A key the last item is not filed under has its last item in the
      front. */
  lemma LastForStep<E>(xs: seq<E>, key: E -> Option<string>)
    requires |xs| > 0
    ensures forall k :: key(xs[|xs| - 1]) != Some(k) ==> LastFor(xs, key, k) == LastFor(xs[..|xs| - 1], key, k)
  {
  }

  /** The keys `d` had keep their order at the front. */
  lemma {:induction false} CollectKeepsOrder<E, V>(d: Dict<V>, xs: seq<E>, key: E -> Option<string>, val: E -> V)
    ensures |d.keys| <= |Collect(d, xs, key, val).keys|
    ensures Collect(d, xs, key, val).keys[..|d.keys|] == d.keys
  {
    if |xs| > 0 {
      CollectKeepsOrder(d, xs[..|xs| - 1], key, val);
    }
  }

  /** How many items of `xs` yield a key. */
  function Hits<E>(xs: seq<E>, key: E -> Option<string>): (n: nat)
    ensures n <= |xs|
    ensures n == 0 <==> forall j :: 0 <= j < |xs| ==> key(xs[j]).None?
  {
    if |xs| == 0 then 0
    else Hits(xs[..|xs| - 1], key) + (if key(xs[|xs| - 1]).Some? then 1 else 0)
  }

  /** Every key `Collect` adds to `d` is counted by some item, so the new
      keys are no more than the hits. */
  lemma {:induction false} CollectGrowth<E, V>(d: Dict<V>, xs: seq<E>, key: E -> Option<string>, val: E -> V)
    ensures |Collect(d, xs, key, val).keys| <= |d.keys| + Hits(xs, key)
  {
    if |xs| > 0 {
      CollectGrowth(d, xs[..|xs| - 1], key, val);
    }
  }
}

=== FILE: leagues.dfy ===
/** `Leagues` of config.py: the league table read from `leagues.json`, the
    lookup of a channel id and logo by league name, and the check that an
    event title names a team of a league. */
module Leagues {
  import opened Wrappers
  import opened Strings
  import opened Dicts
  import Records

  /** `Leagues.live_img`, the logo of last resort. */
  const LiveImg: string := "https://i.gyazo.com/4a5e9fa2525808ee4b65002b56d3450e.png"

  /** One league's record: its `logo` (possibly absent) and its other `names`
      (an absent list reads as empty). */
  datatype LeagueData = LeagueData(logo: Option<string>, names: seq<string>)

  /** The decoded `leagues.json`: team lists by league, and by channel id a
      list of objects that map league names to their records. */
  datatype Table = Table(teams: Dict<seq<string>>, leagues: Dict<seq<Dict<LeagueData>>>)

  /** A channel id and a logo, as `info` and `get_tvg_info` return them. */
  datatype Tvg = Tvg(id: Option<string>, logo: string)

  /** `teams(league)`: the league's team list, or the empty list. */
  function Teams(t: Table, league: string): (r: seq<string>)
    ensures league in t.teams.vals ==> r == t.teams.vals[league]
    ensures league !in t.teams.vals ==> r == []
  {
    Get(t.teams, league).GetOr([])
  }

  // ---------------------------------------------------------------------
  // info

  /** One step of the nested search of `info`: a channel id, a league name
      and its record. */
  datatype Row = Row(id: string, league: string, data: LeagueData)

  function EntryRows(id: string, entry: Dict<LeagueData>): (rows: seq<Row>)
    ensures |rows| == |entry.keys|
    ensures forall i :: 0 <= i < |rows| ==> rows[i] == Row(id, entry.keys[i], entry.vals[entry.keys[i]])
  {
    seq(|entry.keys|, i requires 0 <= i < |entry.keys| => Row(id, entry.keys[i], entry.vals[entry.keys[i]]))
  }

  function GroupRows(id: string, group: seq<Dict<LeagueData>>): seq<Row> {
    if |group| == 0 then [] else EntryRows(id, group[0]) + GroupRows(id, group[1..])
  }

  function IdRows(ids: seq<string>, m: map<string, seq<Dict<LeagueData>>>): seq<Row>
    requires forall k :: k in ids ==> k in m
  {
    if |ids| == 0 then [] else GroupRows(ids[0], m[ids[0]]) + IdRows(ids[1..], m)
  }

  /** The rows in the order the generator of `info` visits them: channel ids
      in table order, then each id's list in order, then each object's keys
      in order. */
  function Rows(t: Table): seq<Row> {
    IdRows(t.leagues.keys, t.leagues.vals)
  }

  predicate Matches(row: Row, name: string) {
    name == row.league || name in row.data.names
  }

  /** The index of the first row matching `name`, or `|rows|`. */
  function FirstMatch(rows: seq<Row>, name: string): (i: nat)
    ensures i <= |rows|
    ensures forall j :: 0 <= j < i ==> !Matches(rows[j], name)
    ensures i < |rows| ==> Matches(rows[i], name)
  {
    if |rows| == 0 then 0
    else if Matches(rows[0], name) then 0
    else FirstMatch(rows[1..], name) + 1
  }

  /** `logo or live_img`. */
  function LogoOr(logo: Option<string>): (r: string)
    ensures |r| > 0
    ensures Records.Truthy(logo) ==> r == logo.value
  {
    if Records.Truthy(logo) then logo.value else LiveImg
  }

  /** `info(name)`: the upper-cased name is looked up; the first row whose
      league name equals it or lists it among its names gives the channel id
      and its logo (`live_img` when the logo is missing or empty); with no
      such row the id is None and the logo is `live_img`. */
  function Info(t: Table, name: string): (r: Tvg)
    ensures |r.logo| > 0
    ensures r.id.None? <==> forall j :: 0 <= j < |Rows(t)| ==> !Matches(Rows(t)[j], Upper(name))
    ensures r.id.None? ==> r.logo == LiveImg
    ensures r.id.Some? ==>
      exists j :: (0 <= j < |Rows(t)| && Matches(Rows(t)[j], Upper(name))
        && (forall i :: 0 <= i < j ==> !Matches(Rows(t)[i], Upper(name)))
        && r == Tvg(Some(Rows(t)[j].id), LogoOr(Rows(t)[j].data.logo)))
  {
    var rows := Rows(t);
    var i := FirstMatch(rows, Upper(name));
    if i < |rows| then Tvg(Some(rows[i].id), LogoOr(rows[i].data.logo)) else Tvg(None, LiveImg)
  }

  // ---------------------------------------------------------------------
  // The separator pattern `\s+(?:-|vs\.?|at|@)\s+`, case-insensitive

  /** The index of the first non-whitespace character at or after `i`. */
  function RunEnd(s: string, i: nat): (e: nat)
    requires i <= |s|
    ensures i <= e <= |s|
    ensures forall j :: i <= j < e ==> IsSpace(s[j])
    ensures e < |s| ==> !IsSpace(s[e])
    decreases |s| - i
  {
    if i < |s| && IsSpace(s[i]) then RunEnd(s, i + 1) else i
  }

  /** The lower-case ASCII text `p` matches `s` at `i`, ignoring case. */
  predicate FoldedAt(s: string, p: string, i: nat) {
    i + |p| <= |s| && Fold(s[i..i + |p|]) == p
  }

  /** `p` matches at `e` and whitespace follows it. */
  predicate TokenFits(s: string, p: string, e: nat) {
    FoldedAt(s, p, e) && e + |p| < |s| && IsSpace(s[e + |p|])
  }

  /** The length of the first alternative, in the pattern's order, that
      matches at `e` and is followed by whitespace; 0 when none does. A `\s+`
      can only give back whitespace, and no alternative starts with it, so
      the alternative has to start where the leading run of whitespace ends. */
  function TokenLen(s: string, e: nat): (n: nat)
    ensures n <= 3
    ensures n > 0 ==> e + n < |s| && IsSpace(s[e + n]) && !IsSpace(s[e])
  {
    if TokenFits(s, "-", e) then FoldedHead(s, "-", e); 1
    else if TokenFits(s, "vs.", e) then FoldedHead(s, "vs.", e); 3
    else if TokenFits(s, "vs", e) then FoldedHead(s, "vs", e); 2
    else if TokenFits(s, "at", e) then FoldedHead(s, "at", e); 2
    else if TokenFits(s, "@", e) then FoldedHead(s, "@", e); 1
    else 0
  }

  /** No alternative starts with a character whitespace folds to. */
  lemma FoldedHead(s: string, p: string, e: nat)
    requires FoldedAt(s, p, e) && |p| > 0 && p[0] in {'-', 'v', 'a', '@'}
    ensures !IsSpace(s[e])
  {
    assert Fold(s[e..e + |p|])[0] == FoldChar(s[e]);
  }

  /** The end of the match of the pattern that starts at `i`, if one does:
      the whole whitespace run, an alternative, and the whole whitespace run
      after it. */
  function SepEnd(s: string, i: nat): (r: Option<nat>)
    ensures r.Some? ==> i < r.value <= |s|
    ensures r.Some? ==> IsSpace(s[i]) && IsSpace(s[r.value - 1])
    ensures r.Some? && r.value < |s| ==> !IsSpace(s[r.value])
  {
    if i < |s| && IsSpace(s[i]) then
      var e := RunEnd(s, i);
      var n := TokenLen(s, e);
      if n > 0 then Some(RunEnd(s, e + n)) else None
    else None
  }

  /** The leftmost position at or after `from` where the pattern matches, or
      `|s|`. */
  function NextSep(s: string, from: nat): (i: nat)
    requires from <= |s|
    ensures from <= i <= |s|
    ensures i < |s| ==> SepEnd(s, i).Some?
    decreases |s| - from
  {
    if from == |s| then from
    else if SepEnd(s, from).Some? then from
    else NextSep(s, from + 1)
  }

  /** `pattern.search(event)` finds a match. */
  predicate Found(s: string) {
    NextSep(s, 0) < |s|
  }

  /** The pieces between matches and the matched separators themselves. */
  datatype Pieces = Pieces(parts: seq<string>, seps: seq<string>)

  /** Putting the separators back between the parts. */
  function Weave(parts: seq<string>, seps: seq<string>): string
    requires |parts| == |seps| + 1
  {
    if |seps| == 0 then parts[0] else parts[0] + seps[0] + Weave(parts[1..], seps[1..])
  }

  lemma WeaveCons(part: string, sep: string, parts: seq<string>, seps: seq<string>)
    requires |parts| == |seps| + 1
    ensures Weave([part] + parts, [sep] + seps) == part + sep + Weave(parts, seps)
  {
    assert ([part] + parts)[1..] == parts && ([sep] + seps)[1..] == seps;
  }

  /** `re.split(pattern, s[from..])`: matches are found left to right, each
      search resuming where the previous match ended. */
  function SplitFrom(s: string, from: nat): (p: Pieces)
    requires from <= |s|
    ensures |p.parts| == |p.seps| + 1
    ensures NextSep(s, from) == |s| <==> |p.seps| == 0
    decreases |s| - from
  {
    var i := NextSep(s, from);
    if i == |s| then Pieces([s[from..]], [])
    else
      var j := SepEnd(s, i).value;
      var rest := SplitFrom(s, j);
      Pieces([s[from..i]] + rest.parts, [s[i..j]] + rest.seps)
  }

  lemma SliceThree(s: string, a: nat, b: nat, c: nat)
    requires a <= b <= c <= |s|
    ensures s[a..] == s[a..b] + s[b..c] + s[c..]
  {
  }

  /** Weaving the matched separators back between the parts gives the text
      that was split. */
  lemma {:induction false} SplitWeave(s: string, from: nat)
    requires from <= |s|
    ensures Weave(SplitFrom(s, from).parts, SplitFrom(s, from).seps) == s[from..]
    decreases |s| - from
  {
    var i := NextSep(s, from);
    if i < |s| {
      var j := SepEnd(s, i).value;
      var rest := SplitFrom(s, j);
      assert SplitFrom(s, from) == Pieces([s[from..i]] + rest.parts, [s[i..j]] + rest.seps);
      SplitWeave(s, j);
      WeaveCons(s[from..i], s[i..j], rest.parts, rest.seps);
      SliceThree(s, from, i, j);
    } else {
      assert SplitFrom(s, from) == Pieces([s[from..]], []);
    }
  }

  function Split(s: string): (p: Pieces)
    ensures |p.parts| == |p.seps| + 1
    ensures Weave(p.parts, p.seps) == s
    ensures Found(s) <==> |p.parts| >= 2
  {
    SplitWeave(s, 0);
    SplitFrom(s, 0)
  }

  /** The titles accepted without a separator, compared in lower case. */
  const FixedNames: set<string> := {"nfl redzone", "redzone", "red zone", "college gameday", "nfl honors"}

  /** `is_valid(event, league)` as written: the result of `re.split` is
      unpacked into exactly two names, so a title with two separators raises
      `ValueError`. */
  function IsValidAsWritten(t: Table, event: string, league: string): (r: Result<bool>)
    ensures r.Raise? <==> |Split(event).parts| > 2
    ensures Found(event) && r.Ok? ==>
      r.value == (Strip(Split(event).parts[0]) in Teams(t, league) || Strip(Split(event).parts[1]) in Teams(t, league))
    ensures !Found(event) ==> r == Ok(Lower(event) in FixedNames)
  {
    if Found(event) then
      var parts := Split(event).parts;
      if |parts| != 2 then Raise("ValueError")
      else Ok(Strip(parts[0]) in Teams(t, league) || Strip(parts[1]) in Teams(t, league))
    else Ok(Lower(event) in FixedNames)
  }

  /** A title with two separators makes the as-written check raise. */
  lemma TwoSeparatorsRaise(t: Table, league: string)
    ensures IsValidAsWritten(t, "a - b - c", league).Raise?
  {
    var s := "a - b - c";
    FirstDash(s);
    SecondDash(s);
    assert |SplitFrom(s, 8).parts| >= 1;
    assert |SplitFrom(s, 4).parts| >= 2;
  }

  lemma FirstDash(s: string)
    requires s == "a - b - c"
    ensures NextSep(s, 0) == 1 && SepEnd(s, 1) == Some(4)
  {
    assert SepEnd(s, 0).None?;
    assert RunEnd(s, 1) == 2;
    assert TokenFits(s, "-", 2);
    assert TokenLen(s, 2) == 1;
    assert RunEnd(s, 4) == 4;
  }

  lemma SecondDash(s: string)
    requires s == "a - b - c"
    ensures NextSep(s, 4) == 5 && SepEnd(s, 5) == Some(8)
  {
    assert SepEnd(s, 4).None?;
    assert RunEnd(s, 5) == 6;
    assert TokenFits(s, "-", 6);
    assert TokenLen(s, 6) == 1;
    assert RunEnd(s, 8) == 8;
  }

  /** `is_valid(event, league)` as evidently intended: when the title has
      separators, it is valid when any stripped part is one of the league's
      teams; otherwise it must be one of the fixed titles. */
  function IsValid(t: Table, event: string, league: string): (ok: bool)
    ensures Found(event) ==>
      (ok <==> exists i :: 0 <= i < |Split(event).parts| && Strip(Split(event).parts[i]) in Teams(t, league))
    ensures !Found(event) ==> (ok <==> Lower(event) in FixedNames)
  {
    if Found(event) then
      var parts := Split(event).parts;
      exists i | 0 <= i < |parts| :: Strip(parts[i]) in Teams(t, league)
    else Lower(event) in FixedNames
  }

  /** Wherever the as-written check returns, the intended check agrees. */
  lemma IsValidAgrees(t: Table, event: string, league: string)
    requires IsValidAsWritten(t, event, league).Ok?
    ensures IsValidAsWritten(t, event, league).value == IsValid(t, event, league)
  {
    if Found(event) {
      var parts := Split(event).parts;
      assert |parts| == 2;
      if IsValid(t, event, league) {
        var i :| 0 <= i < |parts| && Strip(parts[i]) in Teams(t, league);
        assert i == 0 || i == 1;
      }
    }
  }

  /** `get_tvg_info(sport, event)`: American football is looked up as NFL
      when the title names an NFL team (or is a fixed title) and as NCAA
      otherwise; basketball tries NBA, then WNBA, then plain Basketball;
      hockey tries NHL, then plain Hockey; any other sport is looked up by
      its own name. */
  function GetTvgInfo(t: Table, sport: string, event: string): (r: Tvg)
    ensures |r.logo| > 0
    ensures sport == "American Football" || sport == "NFL" ==>
      r == Info(t, if IsValid(t, event, "NFL") then "NFL" else "NCAA")
    ensures sport == "Basketball" || sport == "NBA" ==>
      r == Info(t, if IsValid(t, event, "NBA") then "NBA" else if IsValid(t, event, "WNBA") then "WNBA" else "Basketball")
    ensures sport == "Ice Hockey" || sport == "Hockey" ==>
      r == Info(t, if IsValid(t, event, "NHL") then "NHL" else "Hockey")
    ensures sport !in {"American Football", "NFL", "Basketball", "NBA", "Ice Hockey", "Hockey"} ==>
      r == Info(t, sport)
  {
    if sport == "American Football" || sport == "NFL" then
      if IsValid(t, event, "NFL") then Info(t, "NFL") else Info(t, "NCAA")
    else if sport == "Basketball" || sport == "NBA" then
      if IsValid(t, event, "NBA") then Info(t, "NBA")
      else if IsValid(t, event, "WNBA") then Info(t, "WNBA")
      else Info(t, "Basketball")
    else if sport == "Ice Hockey" || sport == "Hockey" then
      if IsValid(t, event, "NHL") then Info(t, "NHL") else Info(t, "Hockey")
    else Info(t, sport)
  }

  /** The sports whose lookup runs `is_valid` before it reads the table. */
  predicate Checked(sport: string) {
    sport in {"American Football", "NFL", "Basketball", "NBA", "Ice Hockey", "Hockey"}
  }

  /** `get_tvg_info(sport, event)` as written: it runs the as-written
      `is_valid`, so for the sports it checks, a title with two separators
      raises `ValueError` out of the first check; every other call returns
      what the intended lookup returns. */
  function GetTvgInfoAsWritten(t: Table, sport: string, event: string): (r: Result<Tvg>)
    ensures r.Raise? <==> Checked(sport) && |Split(event).parts| > 2
    ensures !Checked(sport) ==> r == Ok(Info(t, sport))
  {
    if sport == "American Football" || sport == "NFL" then
      match IsValidAsWritten(t, event, "NFL")
      case Raise(why) => Raise(why)
      case Ok(nfl) => Ok(if nfl then Info(t, "NFL") else Info(t, "NCAA"))
    else if sport == "Basketball" || sport == "NBA" then
      match IsValidAsWritten(t, event, "NBA")
      case Raise(why) => Raise(why)
      case Ok(nba) =>
        if nba then Ok(Info(t, "NBA"))
        else
          match IsValidAsWritten(t, event, "WNBA")
          case Raise(why) => Raise(why)
          case Ok(wnba) => Ok(if wnba then Info(t, "WNBA") else Info(t, "Basketball"))
    else if sport == "Ice Hockey" || sport == "Hockey" then
      match IsValidAsWritten(t, event, "NHL")
      case Raise(why) => Raise(why)
      case Ok(nhl) => Ok(if nhl then Info(t, "NHL") else Info(t, "Hockey"))
    else Ok(Info(t, sport))
  }

  /** Wherever the as-written lookup returns, the intended lookup gives the
      same channel id and logo. */
  lemma GetTvgInfoAgrees(t: Table, sport: string, event: string)
    requires GetTvgInfoAsWritten(t, sport, event).Ok?
    ensures GetTvgInfoAsWritten(t, sport, event).value == GetTvgInfo(t, sport, event)
  {
    if Checked(sport) {
      IsValidAgrees(t, event, "NFL");
      IsValidAgrees(t, event, "NBA");
      IsValidAgrees(t, event, "WNBA");
      IsValidAgrees(t, event, "NHL");
    }
  }

  /** A basketball title with two separators, such as "a - b - c", makes the
      as-written lookup raise. */
  lemma GameTitleRaises(t: Table)
    ensures GetTvgInfoAsWritten(t, "NBA", "a - b - c").Raise?
  {
    TwoSeparatorsRaise(t, "NBA");
  }
}

=== FILE: order.dfy ===
/** Python's ordering of `str` values (code point by code point, a proper
    prefix first) and `sorted` on a list of distinct strings. */
module Order {

  /** `a < b` on Python strings. */
  predicate Below(a: string, b: string)
    decreases |a|
  {
    if |a| == 0 then |b| > 0
    else if |b| == 0 then false
    else if a[0] != b[0] then a[0] < b[0]
    else Below(a[1..], b[1..])
  }

  lemma {:induction false} BelowIrreflexive(a: string)
    ensures !Below(a, a)
    decreases |a|
  {
    if |a| > 0 {
      BelowIrreflexive(a[1..]);
    }
  }

  lemma {:induction false} BelowTransitive(a: string, b: string, c: string)
    requires Below(a, b) && Below(b, c)
    ensures Below(a, c)
    decreases |a|
  {
    if |a| > 0 && a[0] == b[0] && b[0] == c[0] {
      BelowTransitive(a[1..], b[1..], c[1..]);
    }
  }

  /** Two different strings are ordered one way or the other. */
  lemma {:induction false} BelowTotal(a: string, b: string)
    requires a != b
    ensures Below(a, b) || Below(b, a)
    decreases |a|
  {
    if |a| > 0 && |b| > 0 && a[0] == b[0] {
      assert a == [a[0]] + a[1..] && b == [b[0]] + b[1..];
      BelowTotal(a[1..], b[1..]);
    }
  }

  predicate Ascending(s: seq<string>) {
    forall i, j :: 0 <= i < j < |s| ==> Below(s[i], s[j])
  }

  /** Inserting into an ascending list, keeping it ascending. */
  function Insert(x: string, s: seq<string>): (r: seq<string>)
    requires Ascending(s)
    ensures Ascending(r)
    ensures forall y :: y in r <==> y == x || y in s
    ensures x !in s ==> |r| == |s| + 1
    ensures x in s ==> r == s
  {
    if |s| == 0 then [x]
    else if x == s[0] then s
    else if Below(x, s[0]) then
      BelowAll(x, s);
      [x] + s
    else
      BelowTotal(x, s[0]);
      var t := Insert(x, s[1..]);
      HeadBelow(s, x, t);
      assert s == [s[0]] + s[1..];
      [s[0]] + t
  }

  /** Below the head of an ascending list is below all of it. */
  lemma BelowAll(x: string, s: seq<string>)
    requires Ascending(s) && |s| > 0 && Below(x, s[0])
    ensures Ascending([x] + s) && x !in s
  {
    forall j | 0 < j < |s| ensures Below(x, s[j]) {
      BelowTransitive(x, s[0], s[j]);
    }
    BelowIrreflexive(x);
  }

  /** The head of an ascending list stays below whatever is inserted into
      its tail, when it is below the new element. */
  lemma HeadBelow(s: seq<string>, x: string, t: seq<string>)
    requires Ascending(s) && |s| > 0 && Below(s[0], x) && Ascending(t)
    requires forall y :: y in t ==> y == x || y in s[1..]
    ensures Ascending([s[0]] + t)
  {
    forall j | 0 <= j < |t| ensures Below(s[0], t[j]) {
      if t[j] != x {
        assert t[j] in t;
        var k :| 0 <= k < |s| - 1 && s[1..][k] == t[j];
        assert Below(s[0], s[k + 1]);
      }
    }
    var r := [s[0]] + t;
    forall i, j | 0 <= i < j < |r| ensures Below(r[i], r[j]) {
      if i > 0 {
        assert r[i] == t[i - 1] && r[j] == t[j - 1];
      }
    }
  }

  /** `sorted(xs)`: the same strings, in ascending order. */
  function Sort(xs: seq<string>): (r: seq<string>)
    ensures Ascending(r)
    ensures forall y :: y in r <==> y in xs
    ensures |r| <= |xs|
  {
    if |xs| == 0 then [] else Insert(xs[|xs| - 1], Sort(xs[..|xs| - 1]))
  }

  /** Sorting distinct strings loses none of them. */
  lemma {:induction false} SortDistinct(xs: seq<string>)
    requires forall i, j :: 0 <= i < j < |xs| ==> xs[i] != xs[j]
    ensures |Sort(xs)| == |xs|
  {
    if |xs| > 0 {
      SortDistinct(xs[..|xs| - 1]);
      assert xs[|xs| - 1] !in xs[..|xs| - 1];
    }
  }
}

=== FILE: pixel.dfy ===
/** pixel.py: the event feed of pixelsport.tv, read once through the browser.
    Every event of the current day offers up to three stream links; each
    usable link becomes an entry of its own. The map is cached; while any of
    it is fresh, its fresh entries are reused. */
module Pixel {
  import opened Wrappers
  import opened Strings
  import opened Dicts
  import Clock
  import Caching
  import Records
  import Leagues
  import Harvest
  import Webwork

  const Tag: string := "PIXEL"

  const CacheFile: Caching.Cache := Caching.Cache(Tag, 19800)

  const BaseUrl: string := "https://pixelsport.tv"

  /** One record of the feed's `events` list: its `date` text, its
      `match_name`, the `name` of its channel's `TVCategory`, and the
      channel's `server1URL`, `server2URL` and `server3URL` (None when
      absent or null in the JSON). */
  datatype ApiEvent = ApiEvent(date: string, matchName: string, sport: string,
                               server1: Option<string>, server2: Option<string>, server3: Option<string>)

  /** `channel_info.get(f"server{z}URL")` for a slot number 1, 2 or 3. */
  function Slot(ev: ApiEvent, z: int): Option<string> {
    if z == 1 then ev.server1 else if z == 2 then ev.server2 else if z == 3 then ev.server3 else None
  }

  /** A link that is used: present, non-empty and not the text "null". */
  predicate Streams(link: Option<string>) {
    Records.Truthy(link) && link.value != "null"
  }

  /** `f"[{sport}] {event_name} {z} (PIXEL)"`. */
  function SlotKey(ev: ApiEvent, z: nat): string {
    "[" + ev.sport + "] " + ev.matchName + " " + NatStr(z) + " (" + Tag + ")"
  }

  /** The three slots of one event file under three different keys, so none
      of them replaces another. */
  lemma SlotKeysDiffer(ev: ApiEvent, y: nat, z: nat)
    requires 1 <= y <= 3 && 1 <= z <= 3 && y != z
    ensures SlotKey(ev, y) != SlotKey(ev, z)
  {
    var n := |"[" + ev.sport + "] " + ev.matchName + " "|;
    assert NatStr(y) == [DigitChar(y)] && NatStr(z) == [DigitChar(z)];
    assert SlotKey(ev, y)[n] == DigitChar(y);
    assert SlotKey(ev, z)[n] == DigitChar(z);
  }

  /** One link of one event, visited in feed order and then slot order. */
  datatype Candidate = Candidate(ev: ApiEvent, z: nat)

  /** The candidates of the events of the day: for each event whose date
      falls on `today`, its slots 1, 2 and 3. `dayOf` is the calendar day
      (in the run's zone) of `Time.from_str(date, timezone="UTC")`. */
  function Candidates(events: seq<ApiEvent>, today: int, dayOf: string -> int): seq<Candidate> {
    if |events| == 0 then []
    else
      var here := if dayOf(events[0].date) == today
        then [Candidate(events[0], 1), Candidate(events[0], 2), Candidate(events[0], 3)] else [];
      here + Candidates(events[1..], today, dayOf)
  }

  lemma {:induction false} CandidatesOfDay(events: seq<ApiEvent>, today: int, dayOf: string -> int, c: Candidate)
    ensures c in Candidates(events, today, dayOf) <==> c.ev in events && dayOf(c.ev.date) == today && 1 <= c.z <= 3
  {
    if |events| > 0 {
      CandidatesOfDay(events[1..], today, dayOf, c);
      if c.ev in events && c.ev != events[0] {
        assert c.ev in events[1..];
      }
    }
  }

  function CandKey(c: Candidate): Option<string> {
    if Streams(Slot(c.ev, c.z)) then Some(SlotKey(c.ev, c.z)) else None
  }

  /** `get_tvg_info` raises on the title of the link's event. */
  predicate TitleRaises(t: Leagues.Table, c: Candidate) {
    Leagues.GetTvgInfoAsWritten(t, c.ev.sport, c.ev.matchName).Raise?
  }

  /** The entry of a link: the link itself, the event's channel id and logo,
      this site and the run's cleaned time; it records no event page. The id
      and logo come from the intended lookup; wherever the lookup as written
      returns, they are the ones it returns. */
  function MakeEntry(t: Leagues.Table, stamp: int, c: Candidate): (e: Records.Entry)
    ensures e.url == Slot(c.ev, c.z) && e.timestamp == stamp && e.link.None? && e.base == BaseUrl
    ensures !TitleRaises(t, c) ==>
      var tvg := Leagues.GetTvgInfoAsWritten(t, c.ev.sport, c.ev.matchName).value;
      e.logo == tvg.logo && e.id == Records.IdOr(tvg.id)
  {
    var tvg := Leagues.GetTvgInfo(t, c.ev.sport, c.ev.matchName);
    var e := Records.Entry(Slot(c.ev, c.z), tvg.logo, BaseUrl, stamp, Records.IdOr(tvg.id), None);
    if TitleRaises(t, c) then e
    else
      Leagues.GetTvgInfoAgrees(t, c.ev.sport, c.ev.matchName);
      e
  }

  function EntryAt(t: Leagues.Table, stamp: int): Candidate -> Records.Entry {
    (c: Candidate) => MakeEntry(t, stamp, c)
  }

  /** `get_events()` once the feed is read: `events` is the feed's `events`
      list (empty when the page or the list is missing). A link gets an
      entry when its event is of the day and the link is used. */
  function GetEvents(events: seq<ApiEvent>, today: int, dayOf: string -> int, t: Leagues.Table, stamp: int):
    (r: Dict<Records.Entry>)
    ensures forall k :: k in r.vals <==>
      exists c :: c in Candidates(events, today, dayOf) && CandKey(c) == Some(k)
    ensures forall k :: k in r.vals ==> Streams(r.vals[k].url) && r.vals[k].timestamp == stamp
    ensures forall k :: k in r.vals ==>
      var cs := Candidates(events, today, dayOf);
      var i := Harvest.LastFor(cs, CandKey, k);
      && 0 <= i < |cs|
      && k == SlotKey(cs[i].ev, cs[i].z)
      && r.vals[k].url == Slot(cs[i].ev, cs[i].z)
      && r.vals[k] == MakeEntry(t, stamp, cs[i])
  {
    var cands := Candidates(events, today, dayOf);
    var r := Harvest.Collect(Empty(), cands, CandKey, EntryAt(t, stamp));
    forall k | k in r.vals ensures Streams(r.vals[k].url) && r.vals[k].timestamp == stamp {
      var i := Harvest.LastFor(cands, CandKey, k);
      assert CandKey(cands[i]) == Some(k);
    }
    forall k ensures k in r.vals <==> exists c :: c in cands && CandKey(c) == Some(k) {
      Harvest.LastForFound(cands, CandKey, k);
    }
    r
  }

  /** A used link of an event of the day always has an entry under its
      key; the links of an event of another day are not visited at all. */
  lemma EventsOfTheDay(events: seq<ApiEvent>, today: int, dayOf: string -> int, t: Leagues.Table, stamp: int,
                       ev: ApiEvent, z: nat)
    requires ev in events && 1 <= z <= 3
    ensures dayOf(ev.date) == today && Streams(Slot(ev, z)) ==>
      SlotKey(ev, z) in GetEvents(events, today, dayOf, t, stamp).vals
    ensures dayOf(ev.date) != today ==> Candidate(ev, z) !in Candidates(events, today, dayOf)
  {
    CandidatesOfDay(events, today, dayOf, Candidate(ev, z));
  }

  /** The loop of `get_events` raises: some used link of an event of the
      day has a title on which `get_tvg_info` raises. */
  predicate FeedRaises(events: seq<ApiEvent>, today: int, dayOf: string -> int, t: Leagues.Table) {
    exists c :: c in Candidates(events, today, dayOf) && CandKey(c).Some? && TitleRaises(t, c)
  }

  // ---------------------------------------------------------------------
  // scrape

  /** The module's `urls` after a run and the cache file left behind. */
  datatype Run = Run(urls: Dict<Records.Entry>, file: Caching.Disk<Dict<Records.Entry>>)

  /** `scrape()`, starting from an empty `urls`. While any cached entry is
      fresh, the fresh entries are the result and nothing is written.
      Otherwise the feed is read under `safe_process`: `outcome` is how the
      reading of the feed ended, its value being the feed's events. A
      time-out or an `Exception` gives no entries (`events or {}`), and the
      map, possibly empty, is written; only a `BaseException` escapes. The
      lookup of a link's channel runs inside the same guarded task, so a
      title on which it raises fails the task with an `Exception`, and the
      run keeps no entry at all. */
  function Scrape(file: Caching.Disk<Dict<Records.Entry>>, clock: Caching.RunClock, nowRaw: int,
                  today: int, dayOf: string -> int, t: Leagues.Table,
                  outcome: Webwork.TaskOutcome<seq<ApiEvent>>): (r: Result<Run>)
    ensures !IsEmpty(Caching.Load(CacheFile, clock, file, Records.Stamp)) ==>
      r == Ok(Run(Caching.Load(CacheFile, clock, file, Records.Stamp), file))
    ensures IsEmpty(Caching.Load(CacheFile, clock, file, Records.Stamp)) ==>
      && (r.Raise? <==> outcome.Failed? && !outcome.isException)
      && (r.Ok? ==> r.value.file == Caching.Write(r.value.urls))
      && (r.Ok? && !outcome.Returned? ==> IsEmpty(r.value.urls))
      && (outcome.Returned? && FeedRaises(outcome.value, today, dayOf, t) ==> r == Ok(Run(Empty(), Caching.Write(Empty()))))
      && (outcome.Returned? && !FeedRaises(outcome.value, today, dayOf, t) ==>
            r == Ok(Run(GetEvents(outcome.value, today, dayOf, t, Clock.Clean(nowRaw)),
                        Caching.Write(GetEvents(outcome.value, today, dayOf, t, Clock.Clean(nowRaw))))))
  {
    var cached := Caching.Load(CacheFile, clock, file, Records.Stamp);
    if !IsEmpty(cached) then Ok(Run(cached, file))
    else
      var task := match outcome
        case Returned(events) =>
          if FeedRaises(events, today, dayOf, t) then Webwork.Failed(true) else outcome
        case _ => outcome;
      match Webwork.SafeProcess(task)
      case Raise(why) => Raise(why)
      case Ok(events) =>
        var urls := if events.Some? then GetEvents(events.value, today, dayOf, t, Clock.Clean(nowRaw)) else Empty();
        Ok(Run(urls, Caching.Write(urls)))
  }

  /** Every entry of `urls` has a used link, whichever branch produced it. */
  lemma UrlsAreStreams(file: Caching.Disk<Dict<Records.Entry>>, clock: Caching.RunClock, nowRaw: int,
                       today: int, dayOf: string -> int, t: Leagues.Table,
                       outcome: Webwork.TaskOutcome<seq<ApiEvent>>)
    requires file.Stored? ==> forall k :: k in file.data.vals ==> Streams(file.data.vals[k].url)
    requires Scrape(file, clock, nowRaw, today, dayOf, t, outcome).Ok?
    ensures var urls := Scrape(file, clock, nowRaw, today, dayOf, t, outcome).value.urls;
      forall k :: k in urls.vals ==> Streams(urls.vals[k].url)
  {
  }

  /** Within the run that wrote it, the cache file loads back whole. */
  lemma ScrapeReloads(file: Caching.Disk<Dict<Records.Entry>>, clock: Caching.RunClock, nowRaw: int,
                      today: int, dayOf: string -> int, t: Leagues.Table,
                      outcome: Webwork.TaskOutcome<seq<ApiEvent>>)
    requires nowRaw >= clock.nowTs
    requires Scrape(file, clock, nowRaw, today, dayOf, t, outcome).Ok?
    ensures var r := Scrape(file, clock, nowRaw, today, dayOf, t, outcome).value;
      Caching.Load(CacheFile, clock, r.file, Records.Stamp) == r.urls
  {
    var r := Scrape(file, clock, nowRaw, today, dayOf, t, outcome).value;
    if IsEmpty(Caching.Load(CacheFile, clock, file, Records.Stamp)) {
      forall k | k in r.urls.vals
        ensures Caching.IsFresh(CacheFile, clock, Records.Stamp(r.urls.vals[k]))
      {
        Caching.FreshWithinRun(CacheFile, clock, nowRaw);
      }
      Caching.LoadAfterWrite(CacheFile, clock, r.urls, Records.Stamp);
    }
  }
}

=== FILE: records.dfy ===
/** The channel entry every scraper puts into its `urls` map and its URL
    cache, and the Python truth tests applied to its fields. */
module Records {
  import opened Wrappers

  /** `{"url", "logo", "base", "timestamp", "id", "link"}`. A failed capture
      leaves `url` as None; `link` is absent from the entries of some sources. */
  datatype Entry = Entry(
    url: Option<string>,
    logo: string,
    base: string,
    timestamp: int,
    id: string,
    link: Option<string>)

  /** Python's truth value of a `str | None`. */
  predicate Truthy(s: Option<string>) {
    s.Some? && |s.value| > 0
  }

  /** The channel id used when the league table knows none. */
  const LiveEventId: string := "Live.Event.us"

  /** `tvg_id or "Live.Event.us"`. */
  function IdOr(tvgId: Option<string>): (id: string)
    ensures |id| > 0
    ensures Truthy(tvgId) ==> id == tvgId.value
    ensures !Truthy(tvgId) ==> id == LiveEventId
  {
    if Truthy(tvgId) then tvgId.value else LiveEventId
  }

  /** The `timestamp` field, which every entry written by a scraper has. */
  function Stamp(e: Entry): Option<int> {
    Some(e.timestamp)
  }
}

=== FILE: roxie.dfy ===
/** roxie.py: the event tables of roxiestreams.info, kept in an HTML-side
    cache of listed events, the choice of the events that are live now and
    not yet cached, and the bookkeeping of one scrape: every visited event
    is cached (with or without a URL), and only events with a URL reach
    `urls`. */
module Roxie {
  import opened Wrappers
  import opened Strings
  import opened Dicts
  import opened Urls
  import Clock
  import Caching
  import Records
  import Leagues
  import Harvest

  const Tag: string := "ROXIE"

  const CacheFile: Caching.Cache := Caching.Cache(Tag, 10800)

  const HtmlCache: Caching.Cache := Caching.Cache(Tag + "-html", 19800)

  const BaseUrl: string := "https://roxiestreams.info"

  /** `SPORT_ENDPOINTS` in its order: the path of a sport's table and the
      sport name its events are filed under. */
  const Endpoints: seq<(string, string)> :=
    [("fighting", "Fighting"), ("motorsports", "Racing"), ("nba", "NBA"), ("nhl", "NHL"), ("soccer", "Soccer")]

  /** The page of a sport's table: `urljoin(BASE_URL, sport)`. */
  function SportUrl(path: string): string {
    UrlJoin(BaseUrl, path)
  }

  /** A sport's table lives at the site followed by '/' and its path. */
  lemma SportUrlOf(path: string)
    requires Segment(path)
    ensures SportUrl(path) == BaseUrl + "/" + path
  {
    var host := "roxiestreams.info";
    WebOrigin("https", host);
    BaseText();
    JoinOriginSegment("https", host, path);
  }

  lemma BaseText()
    ensures BaseUrl == "https" + "://" + "roxiestreams.info"
  {
  }

  /** Every endpoint path is a bare segment, so each table is fetched from
      the site followed by '/' and the path. */
  lemma SportUrls()
    ensures forall i :: 0 <= i < |Endpoints| ==> SportUrl(Endpoints[i].0) == BaseUrl + "/" + Endpoints[i].0
  {
    forall i | 0 <= i < |Endpoints|
      ensures SportUrl(Endpoints[i].0) == BaseUrl + "/" + Endpoints[i].0
    {
      SportUrlOf(Endpoints[i].0);
    }
  }

  // ---------------------------------------------------------------------
  // refresh_html_cache

  /** The first link of a table row: its text (stripped) and its `href`. */
  datatype Link = Link(text: string, href: Option<string>)

  /** The countdown `span` of a row and its `data-start` attribute. */
  datatype Countdown = Countdown(dataStart: Option<string>)

  /** A row of `#eventsTable`: its first `td a`, when it has one, and its
      countdown span, when it has one. */
  datatype TableRow = TableRow(link: Option<Link>, countdown: Option<Countdown>)

  /** An event of the HTML cache: sport, title, page, start time and the
      time the table was read. */
  datatype Listed = Listed(sport: string, event: string, link: string, eventTs: int, timestamp: int)

  /** A row that is read: it has a link with a non-empty `href` and a
      countdown span. */
  predicate Accepted(row: TableRow) {
    row.link.Some? && Records.Truthy(row.link.value.href) && row.countdown.Some?
  }

  /** `f"[{sport}] {event} (ROXIE)"`, the key of an event in both caches. */
  function ListedKey(sport: string, event: string): string {
    "[" + sport + "] " + event + " (" + Tag + ")"
  }

  /** Every event of `d` sits under its own key. */
  predicate SelfKeyed(d: Dict<Listed>) {
    forall k :: k in d.vals ==> ListedKey(d.vals[k].sport, d.vals[k].event) == k
  }

  function RowKey(sport: string): TableRow -> Option<string> {
    (row: TableRow) => if Accepted(row) then Some(ListedKey(sport, row.link.value.text)) else None
  }

  /** The event of an accepted row with a start attribute. `parse` is
      `Time.from_str` in the PST zone, already total there: a text in no
      known format reads as the day's 08:00. */
  function RowListed(sport: string, nowTs: int, parse: string -> int): TableRow -> Listed {
    (row: TableRow) =>
      if Accepted(row) && row.countdown.value.dataStart.Some? then
        Listed(sport, row.link.value.text, row.link.value.href.value, parse(BeforeLast(row.countdown.value.dataStart.value, ':')), nowTs)
      else Listed(sport, "", "", 0, nowTs)
  }

  /** A row whose start cannot be read: `span.attributes["data-start"]`
      raises KeyError. */
  predicate Broken(row: TableRow) {
    Accepted(row) && row.countdown.value.dataStart.None?
  }

  /** `refresh_html_cache(url, sport, now_ts)` on the parsed page (None when
      the request failed). A row without a link, an `href` or a countdown is
      skipped; an accepted row without a start attribute makes the call
      raise; every other row files its event under its key, a later row
      replacing an earlier one with the same key. */
  function RefreshHtml(page: Option<seq<TableRow>>, sport: string, nowTs: int, parse: string -> int): (r: Result<Dict<Listed>>)
    ensures page.None? ==> r == Ok(Empty())
    ensures r.Raise? <==> page.Some? && exists row :: row in page.value && Broken(row)
    ensures r.Ok? ==> SelfKeyed(r.value)
    ensures r.Ok? ==> forall k :: k in r.value.vals ==> r.value.vals[k].sport == sport && r.value.vals[k].timestamp == nowTs
    ensures r.Ok? && page.Some? ==> forall k :: k in r.value.vals <==>
      exists row :: row in page.value && Accepted(row) && ListedKey(sport, row.link.value.text) == k
    ensures r.Ok? && page.Some? ==> forall k :: k in r.value.vals ==> FiledFrom(page.value, sport, nowTs, parse, k, r.value.vals[k])
  {
    match page
    case None => Ok(Empty())
    case Some(rows) =>
      if exists row :: row in rows && Broken(row) then Raise("KeyError")
      else
        var d := Harvest.Collect(Empty(), rows, RowKey(sport), RowListed(sport, nowTs, parse));
        assert forall k :: k in d.vals <==> exists row :: row in rows && Accepted(row) && ListedKey(sport, row.link.value.text) == k by {
          forall k ensures k in d.vals <==> exists row :: row in rows && Accepted(row) && ListedKey(sport, row.link.value.text) == k {
            Harvest.LastForFound(rows, RowKey(sport), k);
          }
        }
        HarvestSelfKeyed(rows, sport, nowTs, parse);
        Ok(d)
  }

  /** `v` is the event the last row filed under `k` gives: that row's title
      and `href`, and its `data-start` cut at the last ':' and read by
      `parse`. */
  predicate FiledFrom(rows: seq<TableRow>, sport: string, nowTs: int, parse: string -> int, k: string, v: Listed) {
    var i := Harvest.LastFor(rows, RowKey(sport), k);
    && 0 <= i < |rows|
    && Accepted(rows[i]) && rows[i].countdown.value.dataStart.Some?
    && v == Listed(sport, rows[i].link.value.text, rows[i].link.value.href.value,
                   parse(BeforeLast(rows[i].countdown.value.dataStart.value, ':')), nowTs)
  }

  /** Rows none of which is broken file each event under its own key, with
      the sport and time of the call. */
  lemma HarvestSelfKeyed(rows: seq<TableRow>, sport: string, nowTs: int, parse: string -> int)
    requires forall row :: row in rows ==> !Broken(row)
    ensures var d := Harvest.Collect(Empty(), rows, RowKey(sport), RowListed(sport, nowTs, parse));
      SelfKeyed(d) && forall k :: k in d.vals ==> d.vals[k].sport == sport && d.vals[k].timestamp == nowTs
    ensures var d := Harvest.Collect(Empty(), rows, RowKey(sport), RowListed(sport, nowTs, parse));
      forall k :: k in d.vals ==> FiledFrom(rows, sport, nowTs, parse, k, d.vals[k])
  {
    var d := Harvest.Collect(Empty(), rows, RowKey(sport), RowListed(sport, nowTs, parse));
    forall k | k in d.vals
      ensures ListedKey(d.vals[k].sport, d.vals[k].event) == k
      ensures d.vals[k].sport == sport && d.vals[k].timestamp == nowTs
      ensures FiledFrom(rows, sport, nowTs, parse, k, d.vals[k])
    {
      var i := Harvest.LastFor(rows, RowKey(sport), k);
      assert rows[i] in rows;
      assert Accepted(rows[i]) && !Broken(rows[i]);
      assert d.vals[k] == RowListed(sport, nowTs, parse)(rows[i]);
    }
  }

  // ---------------------------------------------------------------------
  // get_events

  /** The refresh of every endpoint, in order; the first failure is the
      failure of the gathered tasks. */
  function RefreshAll(eps: seq<(string, string)>, pages: string -> Option<seq<TableRow>>, nowTs: int, parse: string -> int): (r: Result<seq<Dict<Listed>>>)
    ensures r.Raise? <==> exists i :: 0 <= i < |eps| && PageRaises(eps[i], pages, nowTs, parse)
    ensures r.Ok? ==> |r.value| == |eps| && forall i :: 0 <= i < |eps| ==>
      RefreshHtml(pages(eps[i].0), eps[i].1, nowTs, parse) == Ok(r.value[i])
  {
    if |eps| == 0 then Ok([])
    else
      var first := RefreshHtml(pages(eps[0].0), eps[0].1, nowTs, parse);
      var rest := RefreshAll(eps[1..], pages, nowTs, parse);
      RaisesSplit(eps, pages, nowTs, parse);
      if first.Raise? then Raise(first.why)
      else if rest.Raise? then Raise(rest.why)
      else
        assert forall i :: 0 < i < |eps| ==> eps[i] == eps[1..][i - 1];
        Ok([first.value] + rest.value)
  }

  predicate PageRaises(ep: (string, string), pages: string -> Option<seq<TableRow>>, nowTs: int, parse: string -> int) {
    RefreshHtml(pages(ep.0), ep.1, nowTs, parse).Raise?
  }

  /** The refresh of endpoint `ep` succeeds and lists key `k`. */
  predicate PageLists(ep: (string, string), pages: string -> Option<seq<TableRow>>, nowTs: int, parse: string -> int, k: string) {
    var p := RefreshHtml(pages(ep.0), ep.1, nowTs, parse);
    p.Ok? && k in p.value.vals
  }

  /** Some endpoint's refresh raises exactly when the first one's does or
      one of the rest does. */
  lemma RaisesSplit(eps: seq<(string, string)>, pages: string -> Option<seq<TableRow>>, nowTs: int, parse: string -> int)
    requires |eps| > 0
    ensures (exists i :: 0 <= i < |eps| && PageRaises(eps[i], pages, nowTs, parse)) <==>
      PageRaises(eps[0], pages, nowTs, parse) || exists i :: 0 <= i < |eps[1..]| && PageRaises(eps[1..][i], pages, nowTs, parse)
  {
    if exists i :: 0 <= i < |eps| && PageRaises(eps[i], pages, nowTs, parse) {
      var i :| 0 <= i < |eps| && PageRaises(eps[i], pages, nowTs, parse);
      if i > 0 {
        assert eps[1..][i - 1] == eps[i];
      }
    }
    if exists i :: 0 <= i < |eps[1..]| && PageRaises(eps[1..][i], pages, nowTs, parse) {
      var i :| 0 <= i < |eps[1..]| && PageRaises(eps[1..][i], pages, nowTs, parse);
      assert eps[1..][i] == eps[i + 1];
    }
  }

  /** Merging self-keyed maps gives a self-keyed map. */
  lemma UnionAllSelfKeyed(ds: seq<Dict<Listed>>)
    requires forall i :: 0 <= i < |ds| ==> SelfKeyed(ds[i])
    ensures SelfKeyed(UnionAll(ds))
  {
  }

  /** The events of the site, fetched afresh: `{k: v for data in results
      for k, v in data.items()}` over the endpoints, each stamped with the
      cleaned time of the run. */
  function Refreshed(pages: string -> Option<seq<TableRow>>, nowTs: int, parse: string -> int): (r: Result<Dict<Listed>>)
    ensures r.Raise? <==> exists i :: 0 <= i < |Endpoints| && PageRaises(Endpoints[i], pages, nowTs, parse)
    ensures r.Ok? ==> SelfKeyed(r.value)
    ensures r.Ok? ==> forall k :: k in r.value.vals ==> r.value.vals[k].timestamp == nowTs
    ensures r.Ok? ==> forall k :: k in r.value.vals <==> exists i :: 0 <= i < |Endpoints| && PageLists(Endpoints[i], pages, nowTs, parse, k)
    ensures r.Ok? ==> forall k :: k in r.value.vals ==> exists i :: LastLister(Endpoints, i, pages, nowTs, parse, k, r.value.vals[k])
  {
    var all := RefreshAll(Endpoints, pages, nowTs, parse);
    if all.Raise? then Raise(all.why)
    else
      UnionAllSelfKeyed(all.value);
      MergedListing(Endpoints, all.value, pages, nowTs, parse);
      Ok(UnionAll(all.value))
  }

  /** Endpoint `i` of `eps` is the last one whose listing holds `k`, and
      holds `v` there. */
  predicate LastLister(eps: seq<(string, string)>, i: int, pages: string -> Option<seq<TableRow>>, nowTs: int,
                       parse: string -> int, k: string, v: Listed) {
    && 0 <= i < |eps|
    && PageLists(eps[i], pages, nowTs, parse, k)
    && RefreshHtml(pages(eps[i].0), eps[i].1, nowTs, parse).value.vals[k] == v
    && forall j :: i < j < |eps| ==> !PageLists(eps[j], pages, nowTs, parse, k)
  }

  /** The merged listing holds exactly the keys of the per-page listings,
      each with its value from the last page that lists it. */
  lemma MergedListing(eps: seq<(string, string)>, all: seq<Dict<Listed>>, pages: string -> Option<seq<TableRow>>,
                      nowTs: int, parse: string -> int)
    requires RefreshAll(eps, pages, nowTs, parse) == Ok(all)
    ensures forall k :: k in UnionAll(all).vals <==> exists i :: 0 <= i < |eps| && PageLists(eps[i], pages, nowTs, parse, k)
    ensures forall k :: k in UnionAll(all).vals ==> LastLister(eps, LastHolder(all, k), pages, nowTs, parse, k, UnionAll(all).vals[k])
  {
    forall k
      ensures k in UnionAll(all).vals <==> exists i :: 0 <= i < |eps| && PageLists(eps[i], pages, nowTs, parse, k)
      ensures k in UnionAll(all).vals ==> LastLister(eps, LastHolder(all, k), pages, nowTs, parse, k, UnionAll(all).vals[k])
    {
      ListsIffHolds(eps, all, pages, nowTs, parse, k);
    }
  }

  /** Page `i` lists `k` exactly when the `i`-th gathered dict holds it. */
  lemma ListsIffHolds(eps: seq<(string, string)>, all: seq<Dict<Listed>>, pages: string -> Option<seq<TableRow>>,
                      nowTs: int, parse: string -> int, k: string)
    requires RefreshAll(eps, pages, nowTs, parse) == Ok(all)
    ensures |all| == |eps|
    ensures forall i :: 0 <= i < |eps| ==> (PageLists(eps[i], pages, nowTs, parse, k) <==> k in all[i].vals)
    ensures forall i :: 0 <= i < |eps| && k in all[i].vals ==> RefreshHtml(pages(eps[i].0), eps[i].1, nowTs, parse).value == all[i]
  {
  }

  /** From one hour before `now` to five minutes after it. */
  predicate InWindow(now: int, ts: int) {
    now - 3600 <= ts <= now + 300
  }

  function Keep(cachedKeys: set<string>, now: int): (string, Listed) -> bool {
    (k: string, v: Listed) => k !in cachedKeys && InWindow(now, v.eventTs)
  }

  /** `v` is the event of some key of `events` that is not cached. */
  predicate UncachedEvent(events: Dict<Listed>, cachedKeys: set<string>, v: Listed) {
    exists k :: k in events.vals && k !in cachedKeys && events.vals[k] == v
  }

  /** The loop of `get_events` over the HTML events: in map order, those
      whose key is not among the cached keys and whose start is in the
      window. */
  function Live(events: Dict<Listed>, cachedKeys: set<string>, now: int): (live: seq<Listed>)
    ensures forall i :: 0 <= i < |live| ==> InWindow(now, live[i].eventTs)
    ensures forall i :: 0 <= i < |live| ==> UncachedEvent(events, cachedKeys, live[i])
    ensures forall k :: k in events.vals && k !in cachedKeys && InWindow(now, events.vals[k].eventTs) ==> events.vals[k] in live
  {
    var keep := Keep(cachedKeys, now);
    var live := Select(events, keep);
    forall i | 0 <= i < |live| ensures UncachedEvent(events, cachedKeys, live[i]) {
      var k := Filter(events, keep).keys[i];
      assert k in events.vals && keep(k, events.vals[k]);
    }
    live
  }

  /** What `get_events` hands back: the live events, and the HTML cache file
      afterwards. */
  datatype Listing = Listing(live: seq<Listed>, htmlFile: Caching.Disk<Dict<Listed>>)

  function HtmlStamp(v: Listed): Option<int> {
    Some(v.timestamp)
  }

  /** `get_events(cached_keys)`. The HTML cache is reloaded; only when it has
      no fresh event are the tables read again, merged and written back,
      each event stamped with the cleaned time of the run. A failed refresh
      fails the call and writes nothing. */
  function GetEvents(htmlFile: Caching.Disk<Dict<Listed>>, clock: Caching.RunClock, nowRaw: int,
                     pages: string -> Option<seq<TableRow>>, parse: string -> int, cachedKeys: set<string>): (r: Result<Listing>)
    ensures var loaded := Caching.Load(HtmlCache, clock, htmlFile, HtmlStamp);
      !IsEmpty(loaded) ==> r == Ok(Listing(Live(loaded, cachedKeys, Clock.Clean(nowRaw)), htmlFile))
    ensures var loaded := Caching.Load(HtmlCache, clock, htmlFile, HtmlStamp);
      var fetched := Refreshed(pages, Clock.Clean(nowRaw), parse);
      IsEmpty(loaded) ==> (r.Raise? <==> fetched.Raise?) && (r.Ok? ==>
        r.value == Listing(Live(fetched.value, cachedKeys, Clock.Clean(nowRaw)), Caching.Write(fetched.value)))
  {
    var now := Clock.Clean(nowRaw);
    var loaded := Caching.Load(HtmlCache, clock, htmlFile, HtmlStamp);
    if !IsEmpty(loaded) then Ok(Listing(Live(loaded, cachedKeys, now), htmlFile))
    else
      match Refreshed(pages, now, parse)
      case Raise(why) => Raise(why)
      case Ok(events) => Ok(Listing(Live(events, cachedKeys, now), Caching.Write(events)))
  }

  /** The events `get_events` returns are in the window and, when the HTML
      cache file was written by this module, none of them carries a cached
      key. */
  lemma LiveIsNew(htmlFile: Caching.Disk<Dict<Listed>>, clock: Caching.RunClock, nowRaw: int,
                  pages: string -> Option<seq<TableRow>>, parse: string -> int, cachedKeys: set<string>)
    requires htmlFile.Stored? ==> SelfKeyed(htmlFile.data)
    requires GetEvents(htmlFile, clock, nowRaw, pages, parse, cachedKeys).Ok?
    ensures var live := GetEvents(htmlFile, clock, nowRaw, pages, parse, cachedKeys).value.live;
      forall i :: 0 <= i < |live| ==>
        ListedKey(live[i].sport, live[i].event) !in cachedKeys && InWindow(Clock.Clean(nowRaw), live[i].eventTs)
  {
    var loaded := Caching.Load(HtmlCache, clock, htmlFile, HtmlStamp);
    var src := if !IsEmpty(loaded) then loaded else Refreshed(pages, Clock.Clean(nowRaw), parse).value;
    assert SelfKeyed(src);
  }

  // ---------------------------------------------------------------------
  // scrape

  /** The module's `urls`, the two cache files after a run, and the number
      of new events the run logs. */
  datatype Run = Run(urls: Dict<Records.Entry>, cacheFile: Caching.Disk<Dict<Records.Entry>>,
                     htmlFile: Caching.Disk<Dict<Listed>>, newCount: int)

  function EventKey(ev: Listed): Option<string> {
    Some(ListedKey(ev.sport, ev.event))
  }

  function CapturedKey(capture: Listed -> Option<string>): Listed -> Option<string> {
    (ev: Listed) => if Records.Truthy(capture(ev)) then EventKey(ev) else None
  }

  /** `get_tvg_info` raises on the title of `ev`. */
  predicate TitleRaises(t: Leagues.Table, ev: Listed) {
    Leagues.GetTvgInfoAsWritten(t, ev.sport, ev.event).Raise?
  }

  /** The entry of a visited event: whatever the visit gave as its URL, the
      channel id and logo of the event, this site, the event's start as its
      timestamp, and the event page. The id and logo come from the intended
      lookup; wherever the lookup as written returns, they are the ones it
      returns. */
  function MakeEntry(t: Leagues.Table, capture: Listed -> Option<string>, ev: Listed): (e: Records.Entry)
    ensures e.url == capture(ev) && e.timestamp == ev.eventTs && e.base == BaseUrl && e.link == Some(ev.link)
    ensures !TitleRaises(t, ev) ==>
      var tvg := Leagues.GetTvgInfoAsWritten(t, ev.sport, ev.event).value;
      e.logo == tvg.logo && e.id == Records.IdOr(tvg.id)
  {
    var tvg := Leagues.GetTvgInfo(t, ev.sport, ev.event);
    var e := Records.Entry(capture(ev), tvg.logo, BaseUrl, ev.eventTs, Records.IdOr(tvg.id), Some(ev.link));
    if TitleRaises(t, ev) then e
    else
      Leagues.GetTvgInfoAgrees(t, ev.sport, ev.event);
      e
  }

  function EntryOf(t: Leagues.Table, capture: Listed -> Option<string>): Listed -> Records.Entry {
    (ev: Listed) => MakeEntry(t, capture, ev)
  }

  /** The cached entries that have a URL. */
  function Valid(cached: Dict<Records.Entry>): (valid: Dict<Records.Entry>)
    ensures forall k :: k in valid.vals <==> k in cached.vals && Records.Truthy(cached.vals[k].url)
    ensures forall k :: k in valid.vals ==> valid.vals[k] == cached.vals[k]
  {
    Filter(cached, (k: string, v: Records.Entry) => Records.Truthy(v.url))
  }

  /** The cache side of the loop of `scrape` over the live events: every
      visited event is recorded under its key, with or without a URL, and
      the other cached entries are kept. */
  function RecordAll(cached: Dict<Records.Entry>, live: seq<Listed>, t: Leagues.Table, capture: Listed -> Option<string>):
    (all: Dict<Records.Entry>)
    ensures forall k :: k in cached.vals ==> k in all.vals
    ensures forall i :: 0 <= i < |live| ==> ListedKey(live[i].sport, live[i].event) in all.vals
    ensures forall k :: k in cached.vals && Harvest.LastFor(live, EventKey, k) < 0 ==> all.vals[k] == cached.vals[k]
    ensures forall k :: k in all.vals && Harvest.LastFor(live, EventKey, k) >= 0 ==>
      all.vals[k] == EntryOf(t, capture)(live[Harvest.LastFor(live, EventKey, k)])
  {
    var all := Harvest.Collect(cached, live, EventKey, EntryOf(t, capture));
    assert forall i :: 0 <= i < |live| ==> Harvest.LastFor(live, EventKey, ListedKey(live[i].sport, live[i].event)) >= 0 by {
      forall i | 0 <= i < |live| ensures Harvest.LastFor(live, EventKey, ListedKey(live[i].sport, live[i].event)) >= 0 {
        Harvest.LastForFound(live, EventKey, ListedKey(live[i].sport, live[i].event));
      }
    }
    all
  }

  /** The `urls` side of the same loop: the valid cached entries, and every
      visited event whose visit gave a URL. */
  function RecordUrls(cached: Dict<Records.Entry>, live: seq<Listed>, t: Leagues.Table, capture: Listed -> Option<string>):
    (urls: Dict<Records.Entry>)
    ensures forall k :: k in urls.vals ==> Records.Truthy(urls.vals[k].url)
    ensures forall k :: k in urls.vals <==> (k in Valid(cached).vals ||
      exists ev :: ev in live && Records.Truthy(capture(ev)) && EventKey(ev) == Some(k))
    ensures forall k :: k in Valid(cached).vals && Harvest.LastFor(live, CapturedKey(capture), k) < 0 ==> urls.vals[k] == cached.vals[k]
    ensures forall k :: k in urls.vals && Harvest.LastFor(live, CapturedKey(capture), k) >= 0 ==>
      urls.vals[k] == EntryOf(t, capture)(live[Harvest.LastFor(live, CapturedKey(capture), k)])
  {
    var urls := Harvest.Collect(Valid(cached), live, CapturedKey(capture), EntryOf(t, capture));
    forall k | k in urls.vals ensures Records.Truthy(urls.vals[k].url) {
      var i := Harvest.LastFor(live, CapturedKey(capture), k);
      if i >= 0 {
        assert CapturedKey(capture)(live[i]) == Some(k);
        assert urls.vals[k].url == capture(live[i]);
      }
    }
    forall k ensures k in urls.vals <==> (k in Valid(cached).vals ||
      exists ev :: ev in live && Records.Truthy(capture(ev)) && EventKey(ev) == Some(k)) {
      Harvest.LastForFound(live, CapturedKey(capture), k);
    }
    urls
  }

  /** `scrape()`, starting from an empty `urls`. The fresh cached entries
      with a URL are reused; the live events not cached are visited
      (`capture` is what the guarded visit gave); every visited event is
      cached, with or without a URL, and the cache is written. The lookup of
      a visited event's channel runs outside the guard: a title on which it
      raises ends the scrape with that error, and the URL cache is not
      written. The HTML cache that `get_events` refreshed is on disk by
      then whatever the visits do; `HtmlAfter` gives it on every path. */
  function Scrape(cacheFile: Caching.Disk<Dict<Records.Entry>>, htmlFile: Caching.Disk<Dict<Listed>>,
                  clock: Caching.RunClock, nowRaw: int, pages: string -> Option<seq<TableRow>>,
                  parse: string -> int, t: Leagues.Table, capture: Listed -> Option<string>): (r: Result<Run>)
    ensures var cached := Caching.Load(CacheFile, clock, cacheFile, Records.Stamp);
      var listing := GetEvents(htmlFile, clock, nowRaw, pages, parse, cached.vals.Keys);
      && (r.Raise? <==> (listing.Raise? || (listing.Ok? && exists i :: 0 <= i < |listing.value.live| && TitleRaises(t, listing.value.live[i]))))
      && (r.Ok? ==>
        && r.value.cacheFile == Caching.Write(RecordAll(cached, listing.value.live, t, capture))
        && r.value.urls == RecordUrls(cached, listing.value.live, t, capture)
        && r.value.htmlFile == listing.value.htmlFile
        && r.value.newCount == Harvest.Hits(listing.value.live, CapturedKey(capture)))
  {
    var cached := Caching.Load(CacheFile, clock, cacheFile, Records.Stamp);
    match GetEvents(htmlFile, clock, nowRaw, pages, parse, cached.vals.Keys)
    case Raise(why) => Raise(why)
    case Ok(listing) =>
      if exists i :: 0 <= i < |listing.live| && TitleRaises(t, listing.live[i]) then Raise("ValueError")
      else
        var all := RecordAll(cached, listing.live, t, capture);
        var urls := RecordUrls(cached, listing.live, t, capture);
        Ok(Run(urls, Caching.Write(all), listing.htmlFile, Harvest.Hits(listing.live, CapturedKey(capture))))
  }

  /** The HTML cache file after a run, whether the run returns or raises:
      reused while it has a fresh event; otherwise written with the merged
      listing before any event is visited, or left as it was when a page's
      refresh raised. */
  function HtmlAfter(cacheFile: Caching.Disk<Dict<Records.Entry>>, htmlFile: Caching.Disk<Dict<Listed>>,
                     clock: Caching.RunClock, nowRaw: int, pages: string -> Option<seq<TableRow>>,
                     parse: string -> int): (h: Caching.Disk<Dict<Listed>>)
    ensures var loaded := Caching.Load(HtmlCache, clock, htmlFile, HtmlStamp);
      !IsEmpty(loaded) ==> h == htmlFile
    ensures var loaded := Caching.Load(HtmlCache, clock, htmlFile, HtmlStamp);
      var fetched := Refreshed(pages, Clock.Clean(nowRaw), parse);
      && (IsEmpty(loaded) && fetched.Raise? ==> h == htmlFile)
      && (IsEmpty(loaded) && fetched.Ok? ==> h == Caching.Write(fetched.value))
  {
    var cached := Caching.Load(CacheFile, clock, cacheFile, Records.Stamp);
    match GetEvents(htmlFile, clock, nowRaw, pages, parse, cached.vals.Keys)
    case Raise(_) => htmlFile
    case Ok(listing) => listing.htmlFile
  }

  /** The HTML cache a run leaves is the one `get_events` produced, and a run
      that ends with a lookup error after a refresh leaves the refreshed
      listing written: the next run reuses it while it is fresh. */
  lemma ScrapeLeavesHtml(cacheFile: Caching.Disk<Dict<Records.Entry>>, htmlFile: Caching.Disk<Dict<Listed>>,
                         clock: Caching.RunClock, nowRaw: int, pages: string -> Option<seq<TableRow>>,
                         parse: string -> int, t: Leagues.Table, capture: Listed -> Option<string>)
    ensures var r := Scrape(cacheFile, htmlFile, clock, nowRaw, pages, parse, t, capture);
      r.Ok? ==> r.value.htmlFile == HtmlAfter(cacheFile, htmlFile, clock, nowRaw, pages, parse)
    ensures var cached := Caching.Load(CacheFile, clock, cacheFile, Records.Stamp);
      var listing := GetEvents(htmlFile, clock, nowRaw, pages, parse, cached.vals.Keys);
      var fetched := Refreshed(pages, Clock.Clean(nowRaw), parse);
      IsEmpty(Caching.Load(HtmlCache, clock, htmlFile, HtmlStamp)) && listing.Ok? &&
        (exists i :: 0 <= i < |listing.value.live| && TitleRaises(t, listing.value.live[i])) ==>
        && Scrape(cacheFile, htmlFile, clock, nowRaw, pages, parse, t, capture).Raise?
        && fetched.Ok?
        && HtmlAfter(cacheFile, htmlFile, clock, nowRaw, pages, parse) == Caching.Write(fetched.value)
  {
  }

  /** `urls` only ever holds entries with a URL. */
  lemma UrlsHaveUrls(cacheFile: Caching.Disk<Dict<Records.Entry>>, htmlFile: Caching.Disk<Dict<Listed>>,
                     clock: Caching.RunClock, nowRaw: int, pages: string -> Option<seq<TableRow>>,
                     parse: string -> int, t: Leagues.Table, capture: Listed -> Option<string>)
    requires Scrape(cacheFile, htmlFile, clock, nowRaw, pages, parse, t, capture).Ok?
    ensures var urls := Scrape(cacheFile, htmlFile, clock, nowRaw, pages, parse, t, capture).value.urls;
      forall k :: k in urls.vals ==> Records.Truthy(urls.vals[k].url)
  {
  }

  /** An event whose visit found no URL stays cached without one, and is not
      visited again while its entry is fresh: it is kept as it is and does
      not reach `urls`. */
  lemma FailedNotRetried(cacheFile: Caching.Disk<Dict<Records.Entry>>, htmlFile: Caching.Disk<Dict<Listed>>,
                         clock: Caching.RunClock, nowRaw: int, pages: string -> Option<seq<TableRow>>,
                         parse: string -> int, t: Leagues.Table, capture: Listed -> Option<string>, k: string)
    requires htmlFile.Stored? ==> SelfKeyed(htmlFile.data)
    requires Scrape(cacheFile, htmlFile, clock, nowRaw, pages, parse, t, capture).Ok?
    requires var cached := Caching.Load(CacheFile, clock, cacheFile, Records.Stamp);
      k in cached.vals && !Records.Truthy(cached.vals[k].url)
    ensures var r := Scrape(cacheFile, htmlFile, clock, nowRaw, pages, parse, t, capture).value;
      var cached := Caching.Load(CacheFile, clock, cacheFile, Records.Stamp);
      k !in r.urls.vals && k in r.cacheFile.data.vals && r.cacheFile.data.vals[k] == cached.vals[k]
  {
    var cached := Caching.Load(CacheFile, clock, cacheFile, Records.Stamp);
    var live := GetEvents(htmlFile, clock, nowRaw, pages, parse, cached.vals.Keys).value.live;
    LiveIsNew(htmlFile, clock, nowRaw, pages, parse, cached.vals.Keys);
    UnvisitedKept(cached, live, t, capture, k);
  }

  /** A cached entry without a URL whose event is not visited again is kept
      as it is in the file and stays out of `urls`. */
  lemma UnvisitedKept(cached: Dict<Records.Entry>, live: seq<Listed>, t: Leagues.Table,
                      capture: Listed -> Option<string>, k: string)
    requires k in cached.vals && !Records.Truthy(cached.vals[k].url)
    requires forall i :: 0 <= i < |live| ==> ListedKey(live[i].sport, live[i].event) != k
    ensures k !in RecordUrls(cached, live, t, capture).vals
    ensures k in RecordAll(cached, live, t, capture).vals && RecordAll(cached, live, t, capture).vals[k] == cached.vals[k]
  {
    assert forall ev :: ev in live ==> EventKey(ev) != Some(k);
    Harvest.LastForFound(live, EventKey, k);
    Harvest.LastForFound(live, CapturedKey(capture), k);
  }

  /** The logged count of new events bounds the growth of `urls` over the
      valid cached entries; it can exceed it when two live events share a
      key. */
  lemma NewCountBound(cached: Dict<Records.Entry>, live: seq<Listed>, t: Leagues.Table, capture: Listed -> Option<string>)
    ensures |RecordUrls(cached, live, t, capture).keys| <= |Valid(cached).keys| + Harvest.Hits(live, CapturedKey(capture))
  {
    Harvest.CollectGrowth(Valid(cached), live, CapturedKey(capture), EntryOf(t, capture));
  }

  /** Within the run that wrote it, the URL cache file loads back whole:
      the reused entries were fresh, and a new entry carries a start at most
      an hour before the run. */
  lemma ScrapeReloads(cacheFile: Caching.Disk<Dict<Records.Entry>>, htmlFile: Caching.Disk<Dict<Listed>>,
                      clock: Caching.RunClock, nowRaw: int, pages: string -> Option<seq<TableRow>>,
                      parse: string -> int, t: Leagues.Table, capture: Listed -> Option<string>)
    requires nowRaw >= clock.nowTs
    requires Scrape(cacheFile, htmlFile, clock, nowRaw, pages, parse, t, capture).Ok?
    ensures var r := Scrape(cacheFile, htmlFile, clock, nowRaw, pages, parse, t, capture).value;
      Caching.Load(CacheFile, clock, r.cacheFile, Records.Stamp) == r.cacheFile.data
  {
    var cached := Caching.Load(CacheFile, clock, cacheFile, Records.Stamp);
    var live := GetEvents(htmlFile, clock, nowRaw, pages, parse, cached.vals.Keys).value.live;
    LiveIsNewWindow(htmlFile, clock, nowRaw, pages, parse, cached.vals.Keys);
    AllFresh(cached, live, t, capture, clock, nowRaw);
    Caching.LoadAfterWrite(CacheFile, clock, RecordAll(cached, live, t, capture), Records.Stamp);
  }

  /** Fresh cached entries and events that start within the window give a
      map whose every entry is fresh. */
  lemma AllFresh(cached: Dict<Records.Entry>, live: seq<Listed>, t: Leagues.Table, capture: Listed -> Option<string>,
                 clock: Caching.RunClock, nowRaw: int)
    requires forall k :: k in cached.vals ==> Caching.IsFresh(CacheFile, clock, Records.Stamp(cached.vals[k]))
    requires forall i :: 0 <= i < |live| ==> InWindow(Clock.Clean(nowRaw), live[i].eventTs)
    requires nowRaw >= clock.nowTs
    ensures var all := RecordAll(cached, live, t, capture);
      forall k :: k in all.vals ==> Caching.IsFresh(CacheFile, clock, Records.Stamp(all.vals[k]))
  {
    var all := RecordAll(cached, live, t, capture);
    forall k | k in all.vals
      ensures Caching.IsFresh(CacheFile, clock, Records.Stamp(all.vals[k]))
    {
      var i := Harvest.LastFor(live, EventKey, k);
      if i >= 0 {
        var ts := live[i].eventTs;
        assert all.vals[k].timestamp == ts;
        WindowFresh(clock, nowRaw, ts);
      }
    }
  }

  /** An event that starts within the window of this run is fresh. */
  lemma WindowFresh(clock: Caching.RunClock, nowRaw: int, ts: int)
    requires nowRaw >= clock.nowTs && InWindow(Clock.Clean(nowRaw), ts)
    ensures Caching.IsFresh(CacheFile, clock, Some(ts))
  {
  }

  /** Every live event starts within the window, whatever wrote the HTML
      cache. */
  lemma LiveIsNewWindow(htmlFile: Caching.Disk<Dict<Listed>>, clock: Caching.RunClock, nowRaw: int,
                        pages: string -> Option<seq<TableRow>>, parse: string -> int, cachedKeys: set<string>)
    requires GetEvents(htmlFile, clock, nowRaw, pages, parse, cachedKeys).Ok?
    ensures var live := GetEvents(htmlFile, clock, nowRaw, pages, parse, cachedKeys).value.live;
      forall i :: 0 <= i < |live| ==> InWindow(Clock.Clean(nowRaw), live[i].eventTs)
  {
  }
}

=== FILE: scopes.dfy ===
/** The close-on-exit discipline of the two context managers of webwork.py,
    `event_context` and `event_page`, and of the request listener of
    `process_event`. Each browser call either completes or raises; a run of
    a manager is the trace of resources it opens and closes. */
module Scopes {

  /** A browser-side resource: the first and the second context
      `event_context` may create, a page, or the request listener. */
  datatype Res = FirstContext | SecondContext | PageRes | Listener

  datatype Act = Open(res: Res) | Close(res: Res)

  /** The outcome of one step: it completed, or it raised. */
  datatype Step = Done | Threw

  /** Every resource opened is closed exactly once, after it was opened, and
      nothing is closed that was not opened. */
  predicate Tidy(t: seq<Act>) {
    && (forall i :: 0 <= i < |t| && t[i].Open? ==>
          exists j :: i < j < |t| && t[j] == Close(t[i].res))
    && (forall i, j :: 0 <= i < j < |t| && t[i].Close? ==> t[j] != t[i])
    && (forall j :: 0 <= j < |t| && t[j].Close? ==>
          exists i :: 0 <= i < j && t[i] == Open(t[j].res))
  }

  /** The trace of a run of a manager and whether an exception left it. */
  datatype Run = Run(trace: seq<Act>, raised: bool)

  /** `event_context` as written. `create` is the first `new_context`,
      `setup` the init script (stealth) or the second `new_context` (not
      stealth), `body` the with-block. The `finally` closes whatever the
      variable `context` holds at exit. */
  function EventContextAsWritten(stealth: bool, create: Step, setup: Step, body: Step): (r: Run)
    ensures r.raised <==> create == Threw || setup == Threw || body == Threw
    ensures create == Threw ==> r.trace == []
  {
    if create == Threw then Run([], true)
    else if stealth then
      Run([Open(FirstContext), Close(FirstContext)], setup == Threw || body == Threw)
    else if setup == Threw then
      Run([Open(FirstContext), Close(FirstContext)], true)
    else
      Run([Open(FirstContext), Open(SecondContext), Close(SecondContext)], body == Threw)
  }

  /** Without stealth, the first context is replaced before the `finally`
      sees it and is never closed. */
  lemma ContextLeaksWithoutStealth(body: Step)
    ensures !Tidy(EventContextAsWritten(false, Done, Done, body).trace)
  {
    var t := EventContextAsWritten(false, Done, Done, body).trace;
    assert t[0] == Open(FirstContext);
    assert forall j :: 0 < j < |t| ==> t[j] != Close(FirstContext);
  }

  /** `event_context` as evidently intended: the first `new_context` already
      takes its options from `stealth`, so it is the one context, and the
      `finally` closes it on every path that created it. */
  function EventContext(stealth: bool, create: Step, script: Step, body: Step): (r: Run)
    ensures r.raised <==> create == Threw || (stealth && script == Threw) || body == Threw
    ensures Tidy(r.trace)
    ensures create == Done <==> Open(FirstContext) in r.trace
  {
    if create == Threw then Run([], true)
    else
      var t := [Open(FirstContext), Close(FirstContext)];
      assert t[0] == Open(FirstContext) && t[1] == Close(FirstContext);
      Run(t, (stealth && script == Threw) || body == Threw)
  }

  /** A manager that opens `res` and closes it in a `finally`: `event_page`
      with its page, and `process_event` with its listener (`page.on` does
      not raise, so the listener is always acquired). */
  function Guarded(res: Res, acquire: Step, body: Step): (r: Run)
    ensures Tidy(r.trace)
    ensures acquire == Done <==> Open(res) in r.trace
    ensures r.raised <==> acquire == Threw || body == Threw
  {
    if acquire == Threw then Run([], true)
    else
      var t := [Open(res), Close(res)];
      assert t[0] == Open(res) && t[1] == Close(res);
      Run(t, body == Threw)
  }

  /** `event_page`: the page is closed on every exit once it was created. */
  function EventPage(create: Step, body: Step): (r: Run)
    ensures Tidy(r.trace)
    ensures create == Done ==> r.trace == [Open(PageRes), Close(PageRes)]
  {
    Guarded(PageRes, create, body)
  }

  /** The listener of `process_event` is removed on every exit path, whatever
      the body did. */
  function ListenerScope(body: Step): (r: Run)
    ensures Tidy(r.trace) && Open(Listener) in r.trace
  {
    Guarded(Listener, Done, body)
  }
}

=== FILE: strings.dfy ===
/** Text operations the scrapers use on Python `str` values, with `string`
    standing for a sequence of Unicode code points. */
module Strings {

  /** The characters for which Python's `str.isspace` holds; `\s` in a `str`
      pattern and the argument-less `str.strip` use the same set. */
  predicate IsSpace(c: char) {
    || '\t' <= c <= '\r'
    || '\U{1C}' <= c <= '\U{1F}'
    || c == ' ' || c == '\U{85}' || c == '\U{A0}' || c == '\U{1680}'
    || '\U{2000}' <= c <= '\U{200A}'
    || c == '\U{2028}' || c == '\U{2029}' || c == '\U{202F}' || c == '\U{205F}' || c == '\U{3000}'
  }

  /** Number of leading whitespace characters. */
  function Lead(s: string): (n: nat)
    ensures n <= |s| && forall j :: 0 <= j < n ==> IsSpace(s[j])
    ensures n < |s| ==> !IsSpace(s[n])
  {
    if |s| > 0 && IsSpace(s[0]) then 1 + Lead(s[1..]) else 0
  }

  /** Number of trailing whitespace characters. */
  function Trail(s: string): (n: nat)
    ensures n <= |s| && forall j :: |s| - n <= j < |s| ==> IsSpace(s[j])
    ensures n < |s| ==> !IsSpace(s[|s| - n - 1])
  {
    if |s| > 0 && IsSpace(s[|s| - 1]) then 1 + Trail(s[..|s| - 1]) else 0
  }

  /** Python's `s.strip()`: what remains once the leading and the trailing
      whitespace are removed; the empty string when `s` is all whitespace. */
  function Strip(s: string): (r: string)
    ensures |r| == 0 ==> forall j :: 0 <= j < |s| ==> IsSpace(s[j])
    ensures |r| > 0 ==> Lead(s) + Trail(s) < |s| && r == s[Lead(s)..|s| - Trail(s)]
    ensures |r| > 0 ==> !IsSpace(r[0]) && !IsSpace(r[|r| - 1])
  {
    var i := Lead(s);
    if i == |s| then "" else s[i..|s| - Trail(s)]
  }

  // ASCII case mapping; the Unicode-wide mappings of `str.lower` and
  // `str.upper` are not part of this model.
  function LowerChar(c: char): char {
    if 'A' <= c <= 'Z' then (c as int + 32) as char else c
  }

  function UpperChar(c: char): char {
    if 'a' <= c <= 'z' then (c as int - 32) as char else c
  }

  predicate IsCapital(c: char) {
    'A' <= c <= 'Z'
  }

  predicate IsSmall(c: char) {
    'a' <= c <= 'z'
  }

  /** `str.lower()`: no capital is left, a capital becomes the small letter
      that `upper` turns back into it, and every other character stays. */
  function Lower(s: string): (r: string)
    ensures |r| == |s| && forall i :: 0 <= i < |s| ==> r[i] == LowerChar(s[i])
    ensures forall i :: 0 <= i < |r| ==> !IsCapital(r[i])
    ensures forall i :: 0 <= i < |s| && IsCapital(s[i]) ==> IsSmall(r[i]) && UpperChar(r[i]) == s[i]
    ensures forall i :: 0 <= i < |s| && !IsCapital(s[i]) ==> r[i] == s[i]
  {
    seq(|s|, i requires 0 <= i < |s| => LowerChar(s[i]))
  }

  /** `str.upper()`: no small letter is left, a small letter becomes the
      capital that `lower` turns back into it, and every other character
      stays. */
  function Upper(s: string): (r: string)
    ensures |r| == |s| && forall i :: 0 <= i < |s| ==> r[i] == UpperChar(s[i])
    ensures forall i :: 0 <= i < |r| ==> !IsSmall(r[i])
    ensures forall i :: 0 <= i < |s| && IsSmall(s[i]) ==> IsCapital(r[i]) && LowerChar(r[i]) == s[i]
    ensures forall i :: 0 <= i < |s| && !IsSmall(s[i]) ==> r[i] == s[i]
  {
    seq(|s|, i requires 0 <= i < |s| => UpperChar(s[i]))
  }

  /** Lower-casing twice is lower-casing once, and lower-casing the
      upper-cased text is lower-casing the text. */
  lemma LowerIdempotent(s: string)
    ensures Lower(Lower(s)) == Lower(s)
    ensures Lower(Upper(s)) == Lower(s)
  {
    var a, b := Lower(Upper(s)), Lower(s);
    assert |a| == |b|;
    forall i | 0 <= i < |s| ensures a[i] == b[i] {
      assert Upper(s)[i] == UpperChar(s[i]);
    }
  }

  /** The form in which a case-insensitive Python regular expression compares
      a character with a lower-case ASCII pattern letter: ASCII case, plus the
      four non-ASCII characters the `re` module equates with such a letter
      (LATIN SMALL LETTER LONG S with `s`, KELVIN SIGN with `k`, LATIN CAPITAL
      LETTER I WITH DOT ABOVE and LATIN SMALL LETTER DOTLESS I with `i`). */
  function FoldChar(c: char): char {
    if c == '\U{17F}' then 's'
    else if c == '\U{212A}' then 'k'
    else if c == '\U{130}' || c == '\U{131}' then 'i'
    else LowerChar(c)
  }

  /** The text as a case-insensitive pattern sees it: no capital is left,
      and it agrees with `Lower` except on the four characters above. */
  function Fold(s: string): (r: string)
    ensures |r| == |s| && forall i :: 0 <= i < |s| ==> r[i] == FoldChar(s[i])
    ensures forall i :: 0 <= i < |r| ==> !IsCapital(r[i])
    ensures forall i :: 0 <= i < |s| && s[i] !in {'\U{17F}', '\U{212A}', '\U{130}', '\U{131}'} ==> r[i] == Lower(s)[i]
  {
    seq(|s|, i requires 0 <= i < |s| => FoldChar(s[i]))
  }

  /** A case-insensitive pattern cannot tell a text from its upper-case or
      lower-case form. */
  lemma FoldCaseBlind(s: string)
    ensures Fold(Upper(s)) == Fold(s)
    ensures Fold(Lower(s)) == Fold(s)
  {
    var u, l := Fold(Upper(s)), Fold(Lower(s));
    forall i | 0 <= i < |s| ensures u[i] == Fold(s)[i] && l[i] == Fold(s)[i] {
      assert Upper(s)[i] == UpperChar(s[i]);
      assert Lower(s)[i] == LowerChar(s[i]);
    }
  }

  /** `p` occurs in `s` starting at index `i`. */
  predicate OccursAt(s: string, p: string, i: int) {
    0 <= i <= |s| - |p| && s[i..i + |p|] == p
  }

  /** Python's `p in s`. */
  predicate Contains(s: string, p: string) {
    exists i | 0 <= i <= |s| - |p| :: OccursAt(s, p, i)
  }

  /** Index of the first occurrence of `c`, or `|s|` when `c` does not occur. */
  function IndexOf(s: string, c: char): (i: nat)
    ensures i <= |s| && forall j :: 0 <= j < i ==> s[j] != c
    ensures i < |s| <==> c in s
    ensures i < |s| ==> s[i] == c
  {
    if |s| == 0 then 0
    else if s[0] == c then 0
    else IndexOf(s[1..], c) + 1
  }

  /** Index of the last occurrence of `c`, or -1 when `c` does not occur. */
  function LastIndexOf(s: string, c: char): (i: int)
    ensures -1 <= i < |s|
    ensures i >= 0 <==> c in s
    ensures i >= 0 ==> s[i] == c
    ensures forall j :: i < j < |s| ==> s[j] != c
  {
    if |s| == 0 then -1
    else if s[|s| - 1] == c then |s| - 1
    else LastIndexOf(s[..|s| - 1], c)
  }

  /** `s.split(c, 1)[0]`: the text before the first `c`, or all of `s`. */
  function BeforeFirst(s: string, c: char): (r: string)
    ensures r <= s && forall j :: 0 <= j < |r| ==> r[j] != c
    ensures c in s ==> |r| < |s| && s[|r|] == c
    ensures c !in s ==> r == s
  {
    s[..IndexOf(s, c)]
  }

  /** `s.split(c, 1)[-1]`: the text after the first `c`, or all of `s`. */
  function AfterFirst(s: string, c: char): (r: string)
    ensures c in s ==> s == BeforeFirst(s, c) + [c] + r
    ensures c !in s ==> r == s
    ensures forall x :: x in r ==> x in s
  {
    var i := IndexOf(s, c);
    if i < |s| then
      assert s == s[..i] + [c] + s[i + 1..];
      s[i + 1..]
    else s
  }

  /** `s.rsplit(c, 1)[0]`: the text before the last `c`, or all of `s`. */
  function BeforeLast(s: string, c: char): (r: string)
    ensures r <= s
    ensures c in s ==> |r| < |s| && s[|r|] == c && c !in s[|r| + 1..]
    ensures c !in s ==> r == s
  {
    var i := LastIndexOf(s, c);
    if i >= 0 then s[..i] else s
  }

  /** Python's `s.replace(p, q)`: occurrences of `p` replaced from left to
      right, the scan resuming after each replaced occurrence. */
  function ReplaceAll(s: string, p: string, q: string): string
    requires |p| > 0
    decreases |s|
  {
    if |s| < |p| then s
    else if s[..|p|] == p then q + ReplaceAll(s[|p|..], p, q)
    else [s[0]] + ReplaceAll(s[1..], p, q)
  }

  /** Replacing a text that does not occur leaves the string unchanged. */
  lemma {:induction false} ReplaceAbsent(s: string, p: string, q: string)
    requires |p| > 0 && !Contains(s, p)
    ensures ReplaceAll(s, p, q) == s
    decreases |s|
  {
    if |s| >= |p| {
      assert !OccursAt(s, p, 0);
      assert s[..|p|] != p;
      forall i | 0 <= i <= |s| - 1 - |p|
        ensures !OccursAt(s[1..], p, i)
      {
        assert s[1..][i..i + |p|] == s[i + 1..i + 1 + |p|];
        assert !OccursAt(s, p, i + 1);
      }
      ReplaceAbsent(s[1..], p, q);
      assert [s[0]] + s[1..] == s;
    }
  }

  /** Python's `sep.join(xs)`. */
  function Join(sep: string, xs: seq<string>): string {
    if |xs| == 0 then ""
    else if |xs| == 1 then xs[0]
    else xs[0] + sep + Join(sep, xs[1..])
  }

  lemma {:induction false} JoinAppend(sep: string, xs: seq<string>, ys: seq<string>)
    requires |xs| > 0 && |ys| > 0
    ensures Join(sep, xs + ys) == Join(sep, xs) + sep + Join(sep, ys)
  {
    if |xs| == 1 {
      assert (xs + ys)[1..] == ys;
    } else {
      assert (xs + ys)[1..] == xs[1..] + ys;
      JoinAppend(sep, xs[1..], ys);
    }
  }

  /** Python's `s.split(c)`: the pieces between the occurrences of `c`. */
  function SplitOn(s: string, c: char): (parts: seq<string>)
    ensures |parts| >= 1
    ensures forall i :: 0 <= i < |parts| ==> c !in parts[i]
    decreases |s|
  {
    var i := IndexOf(s, c);
    if i == |s| then [s] else [s[..i]] + SplitOn(s[i + 1..], c)
  }

  /** Joining the pieces with the separator gives the string back. */
  lemma {:induction false} JoinSplitOn(s: string, c: char)
    ensures Join([c], SplitOn(s, c)) == s
    decreases |s|
  {
    var i := IndexOf(s, c);
    if i < |s| {
      var rest := SplitOn(s[i + 1..], c);
      assert SplitOn(s, c) == [s[..i]] + rest;
      JoinSplitOn(s[i + 1..], c);
      JoinCons([c], s[..i], rest);
      assert Join([c], rest) == s[i + 1..];
      Around(s, i);
    } else {
      assert SplitOn(s, c) == [s];
    }
  }

  /** A text is what comes before, at and after one of its positions. */
  lemma Around(s: string, i: nat)
    requires i < |s|
    ensures s == s[..i] + [s[i]] + s[i + 1..]
  {
  }

  lemma JoinCons(sep: string, x: string, xs: seq<string>)
    requires |xs| > 0
    ensures Join(sep, [x] + xs) == x + sep + Join(sep, xs)
  {
    assert ([x] + xs)[1..] == xs;
  }

  // Decimal numerals, as written by `str(n)` for a non-negative `int` and
  // read back by `int(...)` from ASCII digits.

  predicate IsDigit(c: char) {
    '0' <= c <= '9'
  }

  predicate AllDigits(s: string) {
    forall i :: 0 <= i < |s| ==> IsDigit(s[i])
  }

  function DigitChar(d: nat): (c: char)
    requires d < 10
    ensures IsDigit(c) && c as int - '0' as int == d
  {
    ('0' as int + d) as char
  }

  function DigitsValue(s: string): nat
    requires AllDigits(s)
  {
    if |s| == 0 then 0
    else DigitsValue(s[..|s| - 1]) * 10 + (s[|s| - 1] as int - '0' as int)
  }

  function NatStr(n: nat): (r: string)
    ensures |r| > 0 && AllDigits(r)
  {
    if n < 10 then [DigitChar(n)] else NatStr(n / 10) + [DigitChar(n % 10)]
  }

  /** Reading back the numeral of `n` gives `n`. */
  lemma {:induction false} NatStrRoundTrip(n: nat)
    ensures DigitsValue(NatStr(n)) == n
  {
    if n >= 10 {
      var s := NatStr(n);
      assert s[..|s| - 1] == NatStr(n / 10);
      NatStrRoundTrip(n / 10);
    }
  }
}

=== FILE: tvapp.dfy ===
/** tvapp.py: the channel list of thetvapp.to, one browser visit per listed
    event, and the rewrite of each captured stream URL to its origin server.
    The whole map is cached for a day; while any of it is fresh, its fresh
    entries are reused. */
module TvApp {
  import opened Wrappers
  import opened Strings
  import opened Dicts
  import opened Urls
  import Clock
  import Caching
  import Records
  import Leagues
  import Harvest

  const Tag: string := "TVAPP"

  const CacheFile: Caching.Cache := Caching.Cache(Tag, 86400)

  const BaseUrl: string := "https://thetvapp.to"

  // ---------------------------------------------------------------------
  // fix_url

  /** The origin host of a stream host: "origin." followed by the host
      without its first label (the whole host when it has no '.'). */
  function OriginHost(netloc: string): (host: string)
    ensures '/' !in netloc && '?' !in netloc && '#' !in netloc ==>
      '/' !in host && '?' !in host && '#' !in host
  {
    "origin." + AfterFirst(netloc, '.')
  }

  /** `fix_url(s)`: the path of `s`, with every "tracks-v1a1/" removed,
      joined onto the plain-HTTP origin host; query and fragment are
      dropped. A URL left with no path gives the bare origin. */
  function FixUrl(s: string): (r: string)
    ensures var p := UrlParse(s, "");
      ReplaceAll(p.path, "tracks-v1a1/", "") == "" ==> r == "http://" + OriginHost(p.netloc)
  {
    var p := UrlParse(s, "");
    HttpText(OriginHost(p.netloc));
    UrlJoin("http" + "://" + OriginHost(p.netloc), ReplaceAll(p.path, "tracks-v1a1/", ""))
  }

  /** For a stream URL `scheme://host/path` whose rewritten path is plain,
      the fixed URL is that path on `http://origin.<host without its first
      label>`. */
  lemma FixUrlOfStream(scheme: string, host: string, path: string)
    requires IsOrigin(scheme, host) && PlainPath(path)
    requires PlainPath(ReplaceAll(path, "tracks-v1a1/", ""))
    requires NoDots(SplitOn(ReplaceAll(path, "tracks-v1a1/", ""), '/'))
    ensures FixUrl(scheme + "://" + host + path)
      == "http://" + OriginHost(host) + ReplaceAll(path, "tracks-v1a1/", "")
  {
    ParseOriginPath(scheme, host, path, "");
    var origin := OriginHost(host);
    WebOrigin("http", origin);
    var q := ReplaceAll(path, "tracks-v1a1/", "");
    JoinOriginPath("http", origin, q);
    HttpText(origin);
  }

  lemma HttpText(host: string)
    ensures "http" + "://" + host == "http://" + host
  {
    assert "http" + "://" == "http://";
  }

  // ---------------------------------------------------------------------
  // get_events

  /** A channel link of the front page: its text (stripped) and its `href`
      attribute, which may carry no value. */
  datatype Anchor = Anchor(text: string, href: Option<string>)

  /** A `.row` block: the text of its `h3` heading, when it has one, and its
      channel links. */
  datatype Row = Row(heading: Option<string>, anchors: seq<Anchor>)

  datatype Event = Event(sport: string, event: string, link: string)

  /** A row whose links are read: it has a heading other than "Live TV
      Channels" in any ASCII case. */
  predicate Listed(row: Row) {
    row.heading.Some? && Lower(row.heading.value) != "live tv channels"
  }

  /** The event of one link under a heading: the title up to its first ':',
      and the `href` resolved against the site. */
  function AnchorEvent(sport: string, a: Anchor): Event
    requires a.href.Some?
  {
    Event(sport, BeforeFirst(a.text, ':'), UrlJoin(BaseUrl, a.href.value))
  }

  /** A link that is followed: its `href` is present and non-empty. */
  predicate Followed(a: Anchor) {
    Records.Truthy(a.href)
  }

  /** `e` is the event of the followed link `a` under heading `sport`. */
  predicate From(sport: string, a: Anchor, e: Event) {
    Followed(a) && e == AnchorEvent(sport, a)
  }

  /** The event of one link, when it is followed. */
  function AnchorEvents(sport: string, a: Anchor): seq<Event> {
    if Followed(a) then [AnchorEvent(sport, a)] else []
  }

  function RowEvents(sport: string, anchors: seq<Anchor>): (r: seq<Event>)
    ensures |r| <= |anchors|
  {
    if |anchors| == 0 then []
    else AnchorEvents(sport, anchors[0]) + RowEvents(sport, anchors[1..])
  }

  lemma {:induction false} RowEventsFrom(sport: string, anchors: seq<Anchor>, e: Event)
    ensures e in RowEvents(sport, anchors) <==> exists a :: a in anchors && From(sport, a, e)
  {
    if |anchors| > 0 {
      var rest := RowEvents(sport, anchors[1..]);
      RowEventsFrom(sport, anchors[1..], e);
      if e in RowEvents(sport, anchors) {
        if !From(sport, anchors[0], e) {
          assert e in rest;
          var a :| a in anchors[1..] && From(sport, a, e);
          assert a in anchors;
        }
      }
      if exists a :: a in anchors && From(sport, a, e) {
        var a :| a in anchors && From(sport, a, e);
        if a != anchors[0] {
          assert a in anchors[1..];
        }
      }
    }
  }

  /** The links of a row are read in their order: the events of two runs of
      links, one after the other, are the events of the first run followed
      by those of the second. */
  lemma {:induction false} RowEventsAppend(sport: string, x: seq<Anchor>, y: seq<Anchor>)
    ensures RowEvents(sport, x + y) == RowEvents(sport, x) + RowEvents(sport, y)
  {
    if |x| == 0 {
      assert x + y == y;
    } else {
      assert (x + y)[0] == x[0];
      assert (x + y)[1..] == x[1..] + y;
      RowEventsAppend(sport, x[1..], y);
      EventsAssoc(AnchorEvents(sport, x[0]), RowEvents(sport, x[1..]), RowEvents(sport, y));
    }
  }

  lemma EventsAssoc(a: seq<Event>, b: seq<Event>, c: seq<Event>)
    ensures a + (b + c) == (a + b) + c
  {
  }

  /** One link gives its event when it is followed, and nothing otherwise. */
  lemma RowEventsOne(sport: string, a: Anchor)
    ensures RowEvents(sport, [a]) == if Followed(a) then [AnchorEvent(sport, a)] else []
  {
    assert [a][1..] == [];
    assert AnchorEvents(sport, a) + [] == AnchorEvents(sport, a);
  }

  /** `e` comes from a followed link of the listed row `row`. */
  predicate Yields(row: Row, e: Event) {
    Listed(row) && exists a :: a in row.anchors && From(row.heading.value, a, e)
  }

  /** The events of one row: those of its links when it is listed. */
  function RowHere(row: Row): seq<Event> {
    if Listed(row) then RowEvents(row.heading.value, row.anchors) else []
  }

  function PageEvents(rows: seq<Row>): seq<Event> {
    if |rows| == 0 then []
    else RowHere(rows[0]) + PageEvents(rows[1..])
  }

  lemma {:induction false} PageEventsYield(rows: seq<Row>, e: Event)
    ensures e in PageEvents(rows) <==> exists row :: row in rows && Yields(row, e)
  {
    if |rows| > 0 {
      var here := RowHere(rows[0]);
      var rest := PageEvents(rows[1..]);
      assert PageEvents(rows) == here + rest;
      PageEventsYield(rows[1..], e);
      assert e in here <==> Yields(rows[0], e) by {
        if Listed(rows[0]) {
          RowEventsFrom(rows[0].heading.value, rows[0].anchors, e);
        }
      }
      if e in rest {
        var row :| row in rows[1..] && Yields(row, e);
        assert row in rows;
      }
      if exists row :: row in rows && Yields(row, e) {
        var row :| row in rows && Yields(row, e);
        if row != rows[0] {
          assert row in rows[1..];
        }
      }
    }
  }

  /** The rows are read in page order: the events of two runs of rows are
      those of the first run followed by those of the second. */
  lemma {:induction false} PageEventsAppend(a: seq<Row>, b: seq<Row>)
    ensures PageEvents(a + b) == PageEvents(a) + PageEvents(b)
  {
    if |a| == 0 {
      assert a + b == b;
    } else {
      assert (a + b)[0] == a[0];
      assert (a + b)[1..] == a[1..] + b;
      PageEventsAppend(a[1..], b);
      EventsAssoc(RowHere(a[0]), PageEvents(a[1..]), PageEvents(b));
    }
  }

  /** One row gives the events of its links when it is listed, and nothing
      otherwise. */
  lemma PageEventsOne(row: Row)
    ensures PageEvents([row]) == if Listed(row) then RowEvents(row.heading.value, row.anchors) else []
  {
    assert [row][1..] == [];
    assert RowHere(row) + [] == RowHere(row);
  }

  /** `get_events()`: nothing when the front page could not be fetched;
      otherwise the events of every followed link of every listed row. */
  function GetEvents(page: Option<seq<Row>>): (r: seq<Event>)
    ensures page.None? ==> r == []
    ensures page.Some? ==> forall e :: e in r <==> exists row :: row in page.value && Yields(row, e)
  {
    match page
    case None => []
    case Some(rows) =>
      assert forall e :: e in PageEvents(rows) <==> exists row :: row in rows && Yields(row, e) by {
        forall e ensures e in PageEvents(rows) <==> exists row :: row in rows && Yields(row, e) {
          PageEventsYield(rows, e);
        }
      }
      PageEvents(rows)
  }

  /** The events of a page keep the order of its rows, and within a row the
      order of its links; a title met twice is listed twice. */
  lemma GetEventsOrder(a: seq<Row>, b: seq<Row>, row: Row, x: seq<Anchor>, y: seq<Anchor>)
    ensures GetEvents(Some(a + b)) == GetEvents(Some(a)) + GetEvents(Some(b))
    ensures Listed(row) ==>
      (GetEvents(Some([Row(row.heading, x + y)])) == RowEvents(row.heading.value, x) + RowEvents(row.heading.value, y))
  {
    PageEventsAppend(a, b);
    if Listed(row) {
      PageEventsOne(Row(row.heading, x + y));
      RowEventsAppend(row.heading.value, x, y);
    }
  }

  // ---------------------------------------------------------------------
  // scrape

  /** The `urls` map of the module after a run and the cache file left
      behind. */
  datatype Run = Run(urls: Dict<Records.Entry>, file: Caching.Disk<Dict<Records.Entry>>)

  function Key(ev: Event): string {
    "[" + ev.sport + "] " + ev.event + " (" + Tag + ")"
  }

  /** The key of an event whose visit gave a URL; None for the others. */
  function KeyWhen(capture: Event -> Option<string>): Event -> Option<string> {
    (ev: Event) => if Records.Truthy(capture(ev)) then Some(Key(ev)) else None
  }

  /** `get_tvg_info` raises on the title of `ev`. */
  predicate TitleRaises(t: Leagues.Table, ev: Event) {
    Leagues.GetTvgInfoAsWritten(t, ev.sport, ev.event).Raise?
  }

  /** The entry of an event: the fixed stream URL, the event's channel id
      and logo, this site, the run's cleaned time and the event page. The id
      and logo come from the intended lookup. */
  function EntryWith(t: Leagues.Table, stamp: int, capture: Event -> Option<string>): Event -> Records.Entry {
    (ev: Event) =>
      var tvg := Leagues.GetTvgInfo(t, ev.sport, ev.event);
      Records.Entry(Some(FixUrl(capture(ev).GetOr(""))), tvg.logo, BaseUrl, stamp, Records.IdOr(tvg.id), Some(ev.link))
  }

  /** Wherever the lookup as written returns, the entry carries the channel
      id and logo it returns. */
  lemma EntryAgrees(t: Leagues.Table, stamp: int, capture: Event -> Option<string>, ev: Event)
    requires !TitleRaises(t, ev)
    ensures var tvg := Leagues.GetTvgInfoAsWritten(t, ev.sport, ev.event).value;
      EntryWith(t, stamp, capture)(ev).logo == tvg.logo && EntryWith(t, stamp, capture)(ev).id == Records.IdOr(tvg.id)
  {
    Leagues.GetTvgInfoAgrees(t, ev.sport, ev.event);
  }

  /** The loop of `scrape()` over the events: an entry for every event whose
      visit gave a URL, under its key, the last such event winning. */
  function Harvested(t: Leagues.Table, stamp: int, events: seq<Event>, capture: Event -> Option<string>): (urls: Dict<Records.Entry>)
    ensures forall k :: k in urls.vals <==>
      exists ev :: ev in events && Records.Truthy(capture(ev)) && Key(ev) == k
    ensures forall k :: k in urls.vals ==>
      urls.vals[k] == EntryWith(t, stamp, capture)(events[Harvest.LastFor(events, KeyWhen(capture), k)])
    ensures forall k :: k in urls.vals ==> urls.vals[k].timestamp == stamp
  {
    var urls := Harvest.Collect(Empty(), events, KeyWhen(capture), EntryWith(t, stamp, capture));
    assert forall k :: Harvest.LastFor(events, KeyWhen(capture), k) >= 0 <==>
      exists ev :: ev in events && Records.Truthy(capture(ev)) && Key(ev) == k by {
      forall k ensures Harvest.LastFor(events, KeyWhen(capture), k) >= 0 <==>
        exists ev :: ev in events && Records.Truthy(capture(ev)) && Key(ev) == k {
        Harvest.LastForFound(events, KeyWhen(capture), k);
      }
    }
    urls
  }

  /** An event whose visit gave a URL and on whose title `get_tvg_info`
      raises. */
  predicate CaptureRaises(t: Leagues.Table, events: seq<Event>, capture: Event -> Option<string>) {
    exists i :: 0 <= i < |events| && Records.Truthy(capture(events[i])) && TitleRaises(t, events[i])
  }

  /** `scrape()`, starting from an empty `urls`. `file` is the cache file,
      `nowRaw` the clock reading of the scrape, `page` the parsed front page
      (None when the request failed) and `capture` what the guarded browser
      visit of an event gave. While any cached entry is fresh, the fresh
      entries are the result and nothing is written. Otherwise the events
      are harvested, stamped with the cleaned clock reading, and the map is
      written. The channel lookup of an event whose visit gave a URL runs
      outside the guard: a title on which it raises ends the scrape with
      that error, and nothing is written. */
  function Scrape(file: Caching.Disk<Dict<Records.Entry>>, clock: Caching.RunClock, nowRaw: int,
                  t: Leagues.Table, page: Option<seq<Row>>, capture: Event -> Option<string>): (r: Result<Run>)
    ensures !IsEmpty(Caching.Load(CacheFile, clock, file, Records.Stamp)) ==>
      r == Ok(Run(Caching.Load(CacheFile, clock, file, Records.Stamp), file))
    ensures IsEmpty(Caching.Load(CacheFile, clock, file, Records.Stamp)) ==>
      && (r.Raise? <==> CaptureRaises(t, GetEvents(page), capture))
      && (r.Ok? ==> r.value.file == Caching.Write(r.value.urls))
      && (r.Ok? ==> r.value.urls == Harvested(t, Clock.Clean(nowRaw), GetEvents(page), capture))
  {
    var cached := Caching.Load(CacheFile, clock, file, Records.Stamp);
    if !IsEmpty(cached) then Ok(Run(cached, file))
    else if CaptureRaises(t, GetEvents(page), capture) then Raise("ValueError")
    else
      var urls := Harvested(t, Clock.Clean(nowRaw), GetEvents(page), capture);
      Ok(Run(urls, Caching.Write(urls)))
  }

  /** Every entry a run leaves in `urls` is found fresh by a reload in the
      same run, so the cache file holds the map back: when the scrape's
      clock reading is not earlier than the run's, loading the file gives
      `urls` again. */
  lemma ScrapeReloads(file: Caching.Disk<Dict<Records.Entry>>, clock: Caching.RunClock, nowRaw: int,
                      t: Leagues.Table, page: Option<seq<Row>>, capture: Event -> Option<string>)
    requires nowRaw >= clock.nowTs
    requires Scrape(file, clock, nowRaw, t, page, capture).Ok?
    ensures var r := Scrape(file, clock, nowRaw, t, page, capture).value;
      Caching.Load(CacheFile, clock, r.file, Records.Stamp) == r.urls
  {
    var r := Scrape(file, clock, nowRaw, t, page, capture).value;
    if IsEmpty(Caching.Load(CacheFile, clock, file, Records.Stamp)) {
      forall k | k in r.urls.vals
        ensures Caching.IsFresh(CacheFile, clock, Records.Stamp(r.urls.vals[k]))
      {
        Caching.FreshWithinRun(CacheFile, clock, nowRaw);
        Clock.CleanIdempotent(nowRaw);
      }
      Caching.LoadAfterWrite(CacheFile, clock, r.urls, Records.Stamp);
    }
  }

  /** When a run succeeds, every entry it harvested carries the channel id
      and logo that the lookup as written gives for its event. */
  lemma ScrapeAgrees(file: Caching.Disk<Dict<Records.Entry>>, clock: Caching.RunClock, nowRaw: int,
                     t: Leagues.Table, page: Option<seq<Row>>, capture: Event -> Option<string>, k: string)
    requires IsEmpty(Caching.Load(CacheFile, clock, file, Records.Stamp))
    requires Scrape(file, clock, nowRaw, t, page, capture).Ok?
    requires k in Scrape(file, clock, nowRaw, t, page, capture).value.urls.vals
    ensures var events := GetEvents(page);
      var ev := events[Harvest.LastFor(events, KeyWhen(capture), k)];
      var e := Scrape(file, clock, nowRaw, t, page, capture).value.urls.vals[k];
      !TitleRaises(t, ev) && e.logo == Leagues.GetTvgInfoAsWritten(t, ev.sport, ev.event).value.logo
  {
    HarvestedAgrees(t, Clock.Clean(nowRaw), GetEvents(page), capture, k);
  }

  lemma HarvestedAgrees(t: Leagues.Table, stamp: int, events: seq<Event>, capture: Event -> Option<string>, k: string)
    requires !CaptureRaises(t, events, capture)
    requires k in Harvested(t, stamp, events, capture).vals
    ensures var ev := events[Harvest.LastFor(events, KeyWhen(capture), k)];
      !TitleRaises(t, ev) && Harvested(t, stamp, events, capture).vals[k].logo == Leagues.GetTvgInfoAsWritten(t, ev.sport, ev.event).value.logo
  {
    var i := Harvest.LastFor(events, KeyWhen(capture), k);
    assert KeyWhen(capture)(events[i]) == Some(k);
    EntryAgrees(t, stamp, capture, events[i]);
  }
}

=== FILE: urls.dfy ===
/** The parts of Python's `urllib.parse` the scrapers rely on: `urlsplit`,
    `urlparse`, `urlunsplit`, `urlunparse` and `urljoin`, for URLs free of the
    characters the library strips before parsing. */
module Urls {
  import opened Strings

  datatype SplitUrl = SplitUrl(scheme: string, netloc: string, path: string, query: string, fragment: string)

  datatype ParsedUrl = ParsedUrl(scheme: string, netloc: string, path: string, params: string, query: string, fragment: string)

  /** The scheme lists of `urllib.parse`. */
  const UsesRelative: set<string> := {"", "ftp", "http", "gopher", "nntp", "imap", "wais", "file", "https", "shttp", "mms", "prospero", "rtsp", "rtsps", "rtspu", "sftp", "svn", "svn+ssh", "ws", "wss"}
  const UsesNetloc: set<string> := {"", "ftp", "http", "gopher", "nntp", "telnet", "imap", "wais", "file", "mms", "https", "shttp", "snews", "prospero", "rtsp", "rtsps", "rtspu", "rsync", "svn", "svn+ssh", "sftp", "nfs", "git", "git+ssh", "ws", "wss", "itms-services"}
  const UsesParams: set<string> := {"", "ftp", "hdl", "prospero", "http", "imap", "https", "shttp", "rtsp", "rtsps", "rtspu", "sip", "sips", "mms", "sftp", "tel"}

  predicate AsciiLetter(c: char) {
    'a' <= c <= 'z' || 'A' <= c <= 'Z'
  }

  predicate SchemeChar(c: char) {
    AsciiLetter(c) || IsDigit(c) || c == '+' || c == '-' || c == '.'
  }

  /** The text before the first ':' is a scheme: non-empty, starting with a
      letter, made of scheme characters. */
  predicate HasScheme(url: string) {
    var i := IndexOf(url, ':');
    0 < i < |url| && AsciiLetter(url[0]) && forall j :: 0 <= j < i ==> SchemeChar(url[j])
  }

  /** The end of the network location that starts at `start`: the first '/',
      '?' or '#' from there on, or the end. */
  function NetlocEnd(s: string, start: nat): (e: nat)
    requires start <= |s|
    ensures start <= e <= |s|
    ensures forall j :: start <= j < e ==> s[j] != '/' && s[j] != '?' && s[j] != '#'
    ensures e < |s| ==> s[e] == '/' || s[e] == '?' || s[e] == '#'
    decreases |s| - start
  {
    if start == |s| || s[start] == '/' || s[start] == '?' || s[start] == '#' then start
    else NetlocEnd(s, start + 1)
  }

  /** The scheme `urlsplit` reads off the front of `url` (lower-cased), or
      the default, and what follows it. */
  function SchemePart(url: string, scheme: string): (r: (string, string))
    ensures HasScheme(url) ==> r.0 == Lower(url[..IndexOf(url, ':')]) && url == url[..IndexOf(url, ':')] + ":" + r.1
    ensures !HasScheme(url) ==> r == (scheme, url)
  {
    if HasScheme(url) then
      var i := IndexOf(url, ':');
      assert url == url[..i] + ":" + url[i + 1..];
      (Lower(url[..i]), url[i + 1..])
    else (scheme, url)
  }

  /** The network location after a leading "//" and what follows it. */
  function NetlocPart(rest: string): (r: (string, string))
    ensures '/' !in r.0 && '?' !in r.0 && '#' !in r.0
    ensures |rest| >= 2 && rest[..2] == "//" ==> rest == "//" + r.0 + r.1
    ensures |rest| >= 2 && rest[..2] == "//" ==> |r.1| == 0 || r.1[0] == '/' || r.1[0] == '?' || r.1[0] == '#'
    ensures !(|rest| >= 2 && rest[..2] == "//") ==> r == ("", rest)
  {
    if |rest| >= 2 && rest[..2] == "//" then
      var e := NetlocEnd(rest, 2);
      assert rest == rest[..2] + rest[2..e] + rest[e..];
      (rest[2..e], rest[e..])
    else ("", rest)
  }

  /** The path, the query after the first '?' and the fragment after the
      first '#'. */
  function PathPart(tail: string): (r: (string, string, string))
    ensures '?' !in r.0 && '#' !in r.0 && '#' !in r.1
    ensures '?' !in tail && '#' !in tail ==> r == (tail, "", "")
  {
    var beforeHash := BeforeFirst(tail, '#');
    var fragment := if '#' in tail then AfterFirst(tail, '#') else "";
    var path := BeforeFirst(beforeHash, '?');
    var query := if '?' in beforeHash then AfterFirst(beforeHash, '?') else "";
    assert forall c :: c in query ==> c in beforeHash;
    (path, query, fragment)
  }

  /** `urlsplit(url, scheme)`. */
  function UrlSplit(url: string, scheme: string): (r: SplitUrl)
    ensures '/' !in r.netloc && '?' !in r.netloc && '#' !in r.netloc
    ensures '?' !in r.path && '#' !in r.path && '#' !in r.query
    ensures !HasScheme(url) ==> r.scheme == scheme
  {
    var (sch, rest) := SchemePart(url, scheme);
    var (netloc, tail) := NetlocPart(rest);
    var (path, query, fragment) := PathPart(tail);
    SplitUrl(sch, netloc, path, query, fragment)
  }

  /** `_splitparams`: the parameters after the first ';' of the last path
      segment (of the whole path when it has no '/'). */
  function SplitParams(path: string): (r: (string, string))
    ensures r.0 == path || path == r.0 + ";" + r.1
    ensures ';' !in path ==> r == (path, "")
  {
    var last := LastIndexOf(path, '/');
    var from := if last >= 0 then last else 0;
    var i := IndexOf(path[from..], ';');
    if i == |path[from..]| then (path, "")
    else
      assert path == path[..from + i] + ";" + path[from + i + 1..];
      (path[..from + i], path[from + i + 1..])
  }

  /** `urlparse(url, scheme)`: `urlsplit` and, for schemes that use them, the
      parameters split off the path. */
  function UrlParse(url: string, scheme: string): (r: ParsedUrl)
    ensures '/' !in r.netloc && '?' !in r.netloc && '#' !in r.netloc
    ensures ';' !in UrlSplit(url, scheme).path ==> r.params == ""
    ensures r.netloc == UrlSplit(url, scheme).netloc && r.scheme == UrlSplit(url, scheme).scheme
  {
    var s := UrlSplit(url, scheme);
    if s.scheme in UsesParams && ';' in s.path then
      var pp := SplitParams(s.path);
      ParsedUrl(s.scheme, s.netloc, pp.0, pp.1, s.query, s.fragment)
    else ParsedUrl(s.scheme, s.netloc, s.path, "", s.query, s.fragment)
  }

  /** `urlunsplit`. */
  function UrlUnsplit(s: SplitUrl): string {
    var url :=
      if |s.netloc| > 0 then "//" + s.netloc + (if |s.path| > 0 && s.path[0] != '/' then "/" + s.path else s.path)
      else if |s.path| >= 2 && s.path[..2] == "//" then "//" + s.path
      else if |s.scheme| > 0 && s.scheme in UsesNetloc && (|s.path| == 0 || s.path[0] == '/') then "//" + s.path
      else s.path;
    (if |s.scheme| > 0 then s.scheme + ":" else "")
      + url
      + (if |s.query| > 0 then "?" + s.query else "")
      + (if |s.fragment| > 0 then "#" + s.fragment else "")
  }

  /** `urlunparse`. */
  function UrlUnparse(p: ParsedUrl): string {
    var path := if |p.params| > 0 then p.path + ";" + p.params else p.path;
    UrlUnsplit(SplitUrl(p.scheme, p.netloc, path, p.query, p.fragment))
  }

  /** The `scheme://netloc` origins the scrapers use as bases. */
  predicate IsOrigin(scheme: string, netloc: string) {
    && |scheme| > 0 && AsciiLetter(scheme[0]) && Lower(scheme) == scheme
    && (forall j :: 0 <= j < |scheme| ==> SchemeChar(scheme[j]))
    && |netloc| > 0 && '/' !in netloc && '?' !in netloc && '#' !in netloc
  }

  /** An absolute path as `urlsplit` leaves it: a '/' not followed by
      another, and no '?', '#' or ';'. */
  predicate PlainPath(path: string) {
    && |path| > 0 && path[0] == '/' && (|path| == 1 || path[1] != '/')
    && '?' !in path && '#' !in path && ';' !in path
  }

  lemma SchemeOfOrigin(scheme: string, rest: string)
    requires IsOrigin(scheme, "x") && |rest| > 0 && rest[0] == ':'
    ensures IndexOf(scheme + rest, ':') == |scheme|
    ensures HasScheme(scheme + rest)
  {
    var u := scheme + rest;
    assert forall j :: 0 <= j < |scheme| ==> u[j] == scheme[j] && SchemeChar(scheme[j]) && scheme[j] != ':';
    assert u[|scheme|] == ':';
  }

  /** Splitting a URL built from an origin and a plain path gives the parts
      back. */
  lemma SplitOriginPath(scheme: string, netloc: string, path: string, default: string)
    requires IsOrigin(scheme, netloc) && (path == "" || PlainPath(path))
    ensures UrlSplit(scheme + "://" + netloc + path, default) == SplitUrl(scheme, netloc, path, "", "")
  {
    SchemePartOfOrigin(scheme, netloc, path, default);
    NetlocOfOrigin(netloc, path);
    assert PathPart(path) == (path, "", "");
    UrlSplitParts(scheme + "://" + netloc + path, default);
  }

  lemma SchemePartOfOrigin(scheme: string, netloc: string, path: string, default: string)
    requires IsOrigin(scheme, netloc)
    ensures SchemePart(scheme + "://" + netloc + path, default) == (scheme, "//" + netloc + path)
  {
    var url := scheme + "://" + netloc + path;
    var rest := "//" + netloc + path;
    var tail := "://" + netloc + path;
    SchemeOfOrigin(scheme, tail);
    OriginTail(scheme, netloc, path);
    assert url[..|scheme|] == scheme;
    assert url[|scheme| + 1..] == rest;
    assert SchemePart(url, default) == (Lower(url[..|scheme|]), url[|scheme| + 1..]);
  }

  lemma OriginTail(scheme: string, netloc: string, path: string)
    ensures scheme + "://" + netloc + path == scheme + ("://" + netloc + path)
    ensures "://" + netloc + path == [':'] + ("//" + netloc + path)
  {
  }

  /** `urlsplit` reads the scheme, then the network location, then path,
      query and fragment. */
  lemma UrlSplitParts(url: string, default: string)
    ensures var (sch, rest) := SchemePart(url, default);
      var (netloc, tail) := NetlocPart(rest);
      var (path, query, fragment) := PathPart(tail);
      UrlSplit(url, default) == SplitUrl(sch, netloc, path, query, fragment)
  {
  }

  lemma NetlocOfOrigin(netloc: string, path: string)
    requires |netloc| > 0 && '/' !in netloc && '?' !in netloc && '#' !in netloc
    requires path == "" || path[0] == '/'
    ensures NetlocPart("//" + netloc + path) == (netloc, path)
  {
    var rest := "//" + netloc + path;
    assert rest[..2] == "//";
    var e := NetlocEnd(rest, 2);
    assert forall j :: 2 <= j < 2 + |netloc| ==> rest[j] == netloc[j - 2] && netloc[j - 2] in netloc;
    if path != "" {
      assert rest[2 + |netloc|] == '/';
    }
    assert e == 2 + |netloc|;
    assert rest[2..e] == netloc;
    assert rest[e..] == path;
  }

  /** `urlparse` of such a URL has no parameters. */
  lemma ParseOriginPath(scheme: string, netloc: string, path: string, default: string)
    requires IsOrigin(scheme, netloc) && (path == "" || PlainPath(path))
    ensures UrlParse(scheme + "://" + netloc + path, default) == ParsedUrl(scheme, netloc, path, "", "", "")
  {
    SplitOriginPath(scheme, netloc, path, default);
  }

  // ---------------------------------------------------------------------
  // urljoin

  /** The path segments `urljoin` resolves: `..` drops the last kept segment,
      `.` is skipped, anything else is kept. */
  function Resolve(kept: seq<string>, segs: seq<string>): seq<string>
    decreases |segs|
  {
    if |segs| == 0 then kept
    else if segs[0] == ".." then Resolve(if |kept| > 0 then kept[..|kept| - 1] else kept, segs[1..])
    else if segs[0] == "." then Resolve(kept, segs[1..])
    else Resolve(kept + [segs[0]], segs[1..])
  }

  predicate NoDots(segs: seq<string>) {
    forall i :: 0 <= i < |segs| ==> segs[i] != "." && segs[i] != ".."
  }

  /** Without dot segments, resolving keeps every segment. */
  lemma {:induction false} ResolveNoDots(kept: seq<string>, segs: seq<string>)
    requires NoDots(segs)
    ensures Resolve(kept, segs) == kept + segs
    decreases |segs|
  {
    if |segs| > 0 {
      ResolveNoDots(kept + [segs[0]], segs[1..]);
      assert kept + [segs[0]] + segs[1..] == kept + segs;
    }
  }

  /** The non-empty strings of `xs`, in order. */
  function NonEmpty(xs: seq<string>): (r: seq<string>)
    ensures forall i :: 0 <= i < |r| ==> |r[i]| > 0
  {
    if |xs| == 0 then []
    else if |xs[0]| == 0 then NonEmpty(xs[1..])
    else [xs[0]] + NonEmpty(xs[1..])
  }

  /** The segments of the merged path: an absolute reference path alone;
      otherwise the base path without its last segment followed by the
      reference path, empty inner segments dropped. */
  function MergeSegments(bpath: string, path: string): (segs: seq<string>)
    ensures |segs| >= 1
  {
    if |path| > 0 && path[0] == '/' then SplitOn(path, '/')
    else
      var bparts := SplitOn(bpath, '/');
      var dir := if bparts[|bparts| - 1] != "" then bparts[..|bparts| - 1] else bparts;
      var all := dir + SplitOn(path, '/');
      if |all| >= 2 then [all[0]] + NonEmpty(all[1..|all| - 1]) + [all[|all| - 1]] else all
  }

  /** The path `urljoin` builds for a non-empty reference path: merged
      segments, dot segments resolved (a trailing one leaving a trailing
      '/'), joined with '/', and "/" in place of an empty result. */
  function ResolvedPath(bpath: string, path: string): string {
    var segs := MergeSegments(bpath, path);
    var resolved := Resolve([], segs) + (if segs[|segs| - 1] in {".", ".."} then [""] else []);
    var joined := Join("/", resolved);
    if |joined| > 0 then joined else "/"
  }

  /** A plain absolute path without dot segments resolves to itself. */
  lemma ResolvedPlainPath(bpath: string, path: string)
    requires PlainPath(path) && NoDots(SplitOn(path, '/'))
    ensures ResolvedPath(bpath, path) == path
  {
    var segs := SplitOn(path, '/');
    assert MergeSegments(bpath, path) == segs;
    ResolvedSegments(segs);
    JoinSplitOn(path, '/');
    assert "/" == ['/'];
  }

  /** Segments without dots resolve to themselves, with no trailing '/'
      added. */
  lemma ResolvedSegments(segs: seq<string>)
    requires |segs| >= 1 && NoDots(segs)
    ensures Resolve([], segs) + (if segs[|segs| - 1] in {".", ".."} then [""] else []) == segs
  {
    ResolveNoDots([], segs);
    assert [] + segs == segs;
    assert segs[|segs| - 1] !in {".", ".."};
  }

  /** `urljoin` once both sides are parsed and the schemes agree. */
  function JoinParsed(b: ParsedUrl, u: ParsedUrl): string {
    if u.scheme in UsesNetloc && |u.netloc| > 0 then UrlUnparse(u)
    else
      var netloc := if u.scheme in UsesNetloc then b.netloc else u.netloc;
      if |u.path| == 0 && |u.params| == 0 then
        UrlUnparse(ParsedUrl(u.scheme, netloc, b.path, b.params, if |u.query| > 0 then u.query else b.query, u.fragment))
      else
        UrlUnparse(ParsedUrl(u.scheme, netloc, ResolvedPath(b.path, u.path), u.params, u.query, u.fragment))
  }

  /** `urljoin(base, url)`. */
  function UrlJoin(base: string, url: string): string {
    if |base| == 0 then url
    else if |url| == 0 then base
    else
      var b := UrlParse(base, "");
      var u := UrlParse(url, b.scheme);
      if u.scheme != b.scheme || u.scheme !in UsesRelative then url
      else JoinParsed(b, u)
  }

  /** A URL with a scheme of its own other than the base's is returned as it
      is. */
  lemma JoinForeignScheme(base: string, url: string)
    requires |base| > 0 && |url| > 0 && HasScheme(url)
    requires Lower(url[..IndexOf(url, ':')]) != UrlParse(base, "").scheme
    ensures UrlJoin(base, url) == url
  {
  }

  /** A plain path read as a reference: no scheme, no network location. */
  lemma ParsePlainPath(path: string, scheme: string)
    requires PlainPath(path)
    ensures UrlParse(path, scheme) == ParsedUrl(scheme, "", path, "", "", "")
  {
    assert !HasScheme(path) by {
      assert !AsciiLetter(path[0]);
    }
    assert SchemePart(path, scheme) == (scheme, path);
    assert !(|path| >= 2 && path[..2] == "//") by {
      if |path| >= 2 {
        assert path[..2][1] == path[1] != '/';
      }
    }
    assert NetlocPart(path) == ("", path);
    assert PathPart(path) == (path, "", "");
  }

  /** Joining a plain absolute path onto an origin appends it to the origin. */
  lemma JoinOriginPath(scheme: string, netloc: string, path: string)
    requires IsOrigin(scheme, netloc) && scheme in UsesRelative && scheme in UsesNetloc
    requires PlainPath(path) && NoDots(SplitOn(path, '/'))
    ensures UrlJoin(scheme + "://" + netloc, path) == scheme + "://" + netloc + path
  {
    ParsePlainPath(path, scheme);
    ResolvedPlainPath("", path);
    JoinRelative(scheme, netloc, path, path);
    UnparseOrigin(scheme, netloc, path);
  }

  /** Joining a reference that parses to a bare path onto an origin keeps
      the origin and takes the resolved path. */
  lemma JoinRelative(scheme: string, netloc: string, url: string, upath: string)
    requires IsOrigin(scheme, netloc) && scheme in UsesRelative && scheme in UsesNetloc
    requires |url| > 0 && |upath| > 0
    requires UrlParse(url, scheme) == ParsedUrl(scheme, "", upath, "", "", "")
    ensures UrlJoin(scheme + "://" + netloc, url)
      == UrlUnparse(ParsedUrl(scheme, netloc, ResolvedPath("", upath), "", "", ""))
  {
    var base := scheme + "://" + netloc;
    ParseOriginPath(scheme, netloc, "", "");
    assert base + "" == base;
    var b := UrlParse(base, "");
    assert b == ParsedUrl(scheme, netloc, "", "", "", "");
    assert UrlJoin(base, url) == JoinParsed(b, UrlParse(url, scheme));
  }

  /** An origin and an absolute path unparse to their concatenation. */
  lemma UnparseOrigin(scheme: string, netloc: string, path: string)
    requires |scheme| > 0 && |netloc| > 0 && |path| > 0 && path[0] == '/'
    ensures UrlUnparse(ParsedUrl(scheme, netloc, path, "", "", "")) == scheme + "://" + netloc + path
  {
    assert UrlUnsplit(SplitUrl(scheme, netloc, path, "", "")) == scheme + ":" + ("//" + netloc + path) + "" + "";
    OriginText(scheme, netloc, path);
  }

  lemma OriginText(scheme: string, netloc: string, path: string)
    ensures scheme + ":" + ("//" + netloc + path) + "" + "" == scheme + "://" + netloc + path
  {
    assert ":" + "//" == "://";
  }

  /** A bare path segment: non-empty, not a dot segment, and free of the
      characters that end a scheme or a path. */
  predicate Segment(seg: string) {
    && |seg| > 0 && seg != "." && seg != ".."
    && ':' !in seg && '/' !in seg && '?' !in seg && '#' !in seg && ';' !in seg
  }

  lemma ParseSegment(seg: string, scheme: string)
    requires Segment(seg)
    ensures UrlParse(seg, scheme) == ParsedUrl(scheme, "", seg, "", "", "")
  {
    assert !HasScheme(seg);
    assert SchemePart(seg, scheme) == (scheme, seg);
    assert !(|seg| >= 2 && seg[..2] == "//") by {
      if |seg| >= 2 {
        assert seg[..2][0] == seg[0] && seg[0] in seg;
      }
    }
    assert NetlocPart(seg) == ("", seg);
    assert PathPart(seg) == (seg, "", "");
    UrlSplitParts(seg, scheme);
  }

  lemma ResolvedSegment(seg: string)
    requires Segment(seg)
    ensures ResolvedPath("", seg) == "/" + seg
  {
    assert SplitOn("", '/') == [""];
    assert SplitOn(seg, '/') == [seg];
    var all := [""] + [seg];
    assert all[1..|all| - 1] == [];
    assert MergeSegments("", seg) == ["", seg];
    assert Resolve([], ["", seg]) == ["", seg] by {
      var segs := ["", seg];
      assert segs[0] == "" && segs[1..] == [seg];
      assert Resolve([], segs) == Resolve([] + [""], [seg]);
      assert [] + [""] == [""];
      assert [seg][1..] == [];
      assert Resolve([""], [seg]) == Resolve([""] + [seg], []);
      assert [""] + [seg] == segs;
      assert Resolve(segs, []) == segs;
    }
    var segs := ["", seg];
    assert segs[|segs| - 1] !in {".", ".."};
    assert Resolve([], segs) + [] == segs;
    assert segs[1..] == [seg];
    assert Join("/", segs) == "" + "/" + Join("/", [seg]);
    assert "" + "/" + seg == "/" + seg;
  }

  /** Joining a bare segment onto an origin puts it after a '/'. */
  lemma JoinOriginSegment(scheme: string, netloc: string, seg: string)
    requires IsOrigin(scheme, netloc) && scheme in UsesRelative && scheme in UsesNetloc
    requires Segment(seg)
    ensures UrlJoin(scheme + "://" + netloc, seg) == scheme + "://" + netloc + "/" + seg
  {
    ParseSegment(seg, scheme);
    ResolvedSegment(seg);
    JoinRelative(scheme, netloc, seg, seg);
    UnparseOrigin(scheme, netloc, "/" + seg);
    Assoc(scheme + "://" + netloc, "/", seg);
  }

  lemma Assoc(a: string, b: string, c: string)
    ensures a + (b + c) == a + b + c
  {
  }

  /** The two web schemes are relative, use a network location, and make
      an origin with any host free of '/', '?' and '#'. */
  lemma WebOrigin(scheme: string, host: string)
    requires scheme == "http" || scheme == "https"
    requires |host| > 0 && '/' !in host && '?' !in host && '#' !in host
    ensures IsOrigin(scheme, host) && scheme in UsesRelative && scheme in UsesNetloc
  {
    assert Lower(scheme) == scheme by {
      assert forall i :: 0 <= i < |scheme| ==> LowerChar(scheme[i]) == scheme[i];
    }
    assert forall j :: 0 <= j < |scheme| ==> SchemeChar(scheme[j]);
  }
}

=== FILE: webwork.dfy ===
/** The decision logic of `Network` in webwork.py: which browser requests are
    taken as the stream URL, what a visit of an event page yields, the choice
    of a working mirror, and how a task's outcome becomes a value. Browser,
    HTTP client and event loop are replaced by the observations they produce. */
module Webwork {
  import opened Wrappers
  import opened Strings

  /** `Network.UA`, the user agent of the HTTP client and of stealth contexts. */
  const UA: string := "Mozilla/5.0 (Windows NT 10.0; Win64; x64) AppleWebKit/537.36 (KHTML, like Gecko) Chrome/134.0.0.0 Safari/537.36 Edg/134.0.0.0"

  // ---------------------------------------------------------------------
  // capture_req: `^(?!.*(amazonaws|knitcdn|jwpltx)).*\.m3u8`, ignoring case

  /** The part of a URL the pattern looks at: `^` anchors it at the start and
      `.` does not cross a newline. */
  function FirstLine(url: string): (line: string)
    ensures line <= url && '\n' !in line
    ensures '\n' !in url ==> line == url
  {
    BeforeFirst(url, '\n')
  }

  /** A request URL the capture handler keeps: its first line contains
      ".m3u8" and none of the three blocked host names, all ignoring case. */
  predicate Wanted(url: string) {
    var f := Fold(FirstLine(url));
    && Contains(f, ".m3u8")
    && !Contains(f, "amazonaws")
    && !Contains(f, "knitcdn")
    && !Contains(f, "jwpltx")
  }

  predicate BlockedAt(f: string, j: int) {
    OccursAt(f, "amazonaws", j) || OccursAt(f, "knitcdn", j) || OccursAt(f, "jwpltx", j)
  }

  /** `p` occurs at some index of `f` below `i`. */
  predicate SeenBefore(f: string, p: string, i: int) {
    exists j | 0 <= j < i :: OccursAt(f, p, j)
  }

  /** A blocked name starts at some index of `f` below `i`. */
  predicate BlockedBefore(f: string, i: int) {
    exists j | 0 <= j < i :: BlockedAt(f, j)
  }

  /** The pattern search itself, one left-to-right pass over the first line
      that looks for the suffix and for the blocked names at every position. */
  method SearchPattern(url: string) returns (hit: bool)
    ensures hit <==> Wanted(url)
  {
    var f := Fold(FirstLine(url));
    var suffix := false;
    var blocked := false;
    var i := 0;
    while i < |f|
      invariant 0 <= i <= |f|
      invariant suffix <==> SeenBefore(f, ".m3u8", i)
      invariant blocked <==> BlockedBefore(f, i)
    {
      SeenStep(f, ".m3u8", i);
      BlockedStep(f, i);
      if OccursAt(f, ".m3u8", i) {
        suffix := true;
      }
      if BlockedAt(f, i) {
        blocked := true;
      }
      i := i + 1;
    }
    ScanFinds(f, ".m3u8");
    BlockedFound(f);
    hit := suffix && !blocked;
  }

  lemma SeenStep(f: string, p: string, i: int)
    requires 0 <= i
    ensures SeenBefore(f, p, i + 1) <==> SeenBefore(f, p, i) || OccursAt(f, p, i)
  {
    if SeenBefore(f, p, i + 1) && !OccursAt(f, p, i) {
      var j :| 0 <= j < i + 1 && OccursAt(f, p, j);
      assert j < i;
    }
  }

  lemma BlockedStep(f: string, i: int)
    requires 0 <= i
    ensures BlockedBefore(f, i + 1) <==> BlockedBefore(f, i) || BlockedAt(f, i)
  {
    if BlockedBefore(f, i + 1) && !BlockedAt(f, i) {
      var j :| 0 <= j < i + 1 && BlockedAt(f, j);
      assert j < i;
    }
  }

  /** A non-empty name occurs in `f` exactly when it occurs at some index
      of `f`, so a pass over the indices of `f` finds it. */
  lemma ScanFinds(f: string, p: string)
    requires |p| > 0
    ensures Contains(f, p) <==> SeenBefore(f, p, |f|)
  {
  }

  /** Some index of `f` starts a blocked name exactly when `f` contains one. */
  lemma BlockedFound(f: string)
    ensures BlockedBefore(f, |f|) <==>
      Contains(f, "amazonaws") || Contains(f, "knitcdn") || Contains(f, "jwpltx")
  {
    ScanFinds(f, "amazonaws");
    ScanFinds(f, "knitcdn");
    ScanFinds(f, "jwpltx");
    if BlockedBefore(f, |f|) {
      var j :| 0 <= j < |f| && BlockedAt(f, j);
      assert OccursAt(f, "amazonaws", j) || OccursAt(f, "knitcdn", j) || OccursAt(f, "jwpltx", j);
    }
    if Contains(f, "amazonaws") {
      var j :| 0 <= j < |f| && OccursAt(f, "amazonaws", j);
      assert BlockedAt(f, j);
    }
    if Contains(f, "knitcdn") {
      var j :| 0 <= j < |f| && OccursAt(f, "knitcdn", j);
      assert BlockedAt(f, j);
    }
    if Contains(f, "jwpltx") {
      var j :| 0 <= j < |f| && OccursAt(f, "jwpltx", j);
      assert BlockedAt(f, j);
    }
  }

  /** The state the request handler of one visit shares with it: the list of
      captured URLs and the `got_one` event. */
  datatype Capture = Capture(captured: seq<string>, gotOne: bool)

  /** `capture_req`: a wanted URL is appended and the event set; any other
      request changes nothing. */
  function CaptureReq(st: Capture, url: string): (r: Capture)
    ensures Wanted(url) ==> r.captured == st.captured + [url] && r.gotOne
    ensures !Wanted(url) ==> r == st
  {
    if Wanted(url) then Capture(st.captured + [url], true) else st
  }

  /** The handler applied to the requests of a visit, in the order they are
      made. */
  function Observe(st: Capture, reqs: seq<string>): Capture
    decreases |reqs|
  {
    if |reqs| == 0 then st else Observe(CaptureReq(st, reqs[0]), reqs[1..])
  }

  /** The wanted URLs among `reqs`, in order. */
  function WantedOf(reqs: seq<string>): (r: seq<string>)
    ensures forall u :: u in r ==> u in reqs && Wanted(u)
    ensures forall u :: u in reqs && Wanted(u) ==> u in r
  {
    if |reqs| == 0 then []
    else if Wanted(reqs[0]) then [reqs[0]] + WantedOf(reqs[1..])
    else WantedOf(reqs[1..])
  }

  /** The first wanted URL of `reqs`. */
  function FirstWanted(reqs: seq<string>): (r: Option<string>)
    ensures r.None? <==> forall j :: 0 <= j < |reqs| ==> !Wanted(reqs[j])
    ensures r.Some? ==> exists j :: (0 <= j < |reqs| && reqs[j] == r.value && Wanted(r.value)
      && forall i :: 0 <= i < j ==> !Wanted(reqs[i]))
  {
    if |reqs| == 0 then None
    else if Wanted(reqs[0]) then Some(reqs[0])
    else
      var r := FirstWanted(reqs[1..]);
      FirstWantedShift(reqs, r);
      r
  }

  lemma FirstWantedShift(reqs: seq<string>, r: Option<string>)
    requires |reqs| > 0 && !Wanted(reqs[0])
    requires r.Some? ==> exists j :: (0 <= j < |reqs| - 1 && reqs[1..][j] == r.value && Wanted(r.value)
      && forall i :: 0 <= i < j ==> !Wanted(reqs[1..][i]))
    ensures r.Some? ==> exists j :: (0 <= j < |reqs| && reqs[j] == r.value && Wanted(r.value)
      && forall i :: 0 <= i < j ==> !Wanted(reqs[i]))
  {
    if r.Some? {
      var j :| 0 <= j < |reqs| - 1 && reqs[1..][j] == r.value && Wanted(r.value)
        && forall i :: 0 <= i < j ==> !Wanted(reqs[1..][i]);
      assert reqs[j + 1] == r.value;
      assert forall i :: 0 <= i < j + 1 ==> !Wanted(reqs[i]) by {
        forall i | 0 < i < j + 1 ensures !Wanted(reqs[i]) {
          assert reqs[i] == reqs[1..][i - 1];
        }
      }
    }
  }

  /** Feeding requests to the handler appends exactly the wanted ones, and
      sets the event exactly when one of them is wanted. */
  lemma {:induction false} ObserveCollects(st: Capture, reqs: seq<string>)
    ensures Observe(st, reqs).captured == st.captured + WantedOf(reqs)
    ensures Observe(st, reqs).gotOne == (st.gotOne || FirstWanted(reqs).Some?)
    decreases |reqs|
  {
    if |reqs| > 0 {
      ObserveCollects(CaptureReq(st, reqs[0]), reqs[1..]);
      if !Wanted(reqs[0]) {
        assert FirstWanted(reqs) == FirstWanted(reqs[1..]);
      }
    }
  }

  /** The first of the collected URLs is the first wanted request. */
  lemma {:induction false} WantedOfHead(reqs: seq<string>)
    requires FirstWanted(reqs).Some?
    ensures |WantedOf(reqs)| > 0 && WantedOf(reqs)[0] == FirstWanted(reqs).value
  {
    if !Wanted(reqs[0]) {
      WantedOfHead(reqs[1..]);
    }
  }

  // ---------------------------------------------------------------------
  // process_event

  /** What one visit of an event page looks like from outside: whether
      `goto` completed without raising, and the requests the page made
      before the wait for a capture gave up (during the navigation and
      within the wait's timeout after it). */
  datatype Visit = Visit(loaded: bool, requests: seq<string>)

  /** `process_event`: None when the navigation raises or when no wanted
      request arrives before the wait times out; otherwise the first wanted
      request, later ones being ignored. */
  function ProcessEvent(v: Visit): (r: Option<string>)
    ensures !v.loaded ==> r.None?
    ensures v.loaded ==> r == FirstWanted(v.requests)
    ensures r.Some? ==> Wanted(r.value) && r.value in v.requests
  {
    if !v.loaded then None
    else
      var st := Observe(Capture([], false), v.requests);
      ObserveCollects(Capture([], false), v.requests);
      if !st.gotOne then None
      else
        WantedOfHead(v.requests);
        if |st.captured| > 0 then Some(st.captured[0]) else None
  }

  // ---------------------------------------------------------------------
  // request and get_base

  /** What the HTTP client gets for one URL: a transport error or timeout,
      or a final response with its status code. */
  datatype Reply = Unreachable | Status(code: int)

  /** `request`: the response, unless the client failed or
      `raise_for_status` rejected a status outside 2xx; then the falsy "". */
  function Request(reply: Reply): (r: Option<int>)
    ensures r.Some? <==> reply.Status? && 200 <= reply.code < 300
    ensures r.Some? ==> r.value == reply.code
  {
    match reply
    case Status(code) => if 200 <= code < 300 then Some(code) else None
    case Unreachable => None
  }

  /** A mirror `get_base` accepts: its request gave a response with status 200. */
  predicate Serves(reply: Reply) {
    Request(reply) == Some(200)
  }

  /** `get_base`, for the order the shuffle produced: the first mirror that
      serves, or None when none does. */
  method GetBase(mirrors: seq<string>, reply: string -> Reply) returns (base: Option<string>)
    ensures base.None? <==> forall j :: 0 <= j < |mirrors| ==> !Serves(reply(mirrors[j]))
    ensures base.Some? ==> exists j :: (0 <= j < |mirrors| && mirrors[j] == base.value
      && Serves(reply(base.value)) && forall i :: 0 <= i < j ==> !Serves(reply(mirrors[i])))
  {
    var k := 0;
    while k < |mirrors|
      invariant 0 <= k <= |mirrors|
      invariant forall i :: 0 <= i < k ==> !Serves(reply(mirrors[i]))
    {
      var r := Request(reply(mirrors[k]));
      if r.None? {
        k := k + 1;
        continue;
      } else if r.value != 200 {
        k := k + 1;
        continue;
      }
      return Some(mirrors[k]);
    }
    return None;
  }

  // ---------------------------------------------------------------------
  // safe_process

  /** How the awaited task ended: with a value, by running past the timeout,
      or by raising; `isException` tells an `Exception` from other
      `BaseException`s. */
  datatype TaskOutcome<T> = Returned(value: T) | TimedOut | Failed(isException: bool)

  /** `safe_process`: the task's value, or None after a timeout or an
      `Exception`; only a `BaseException` that is not an `Exception` reaches
      the caller. */
  function SafeProcess<T>(o: TaskOutcome<T>): (r: Result<Option<T>>)
    ensures r.Raise? <==> o.Failed? && !o.isException
    ensures r.Ok? && r.value.Some? <==> o.Returned?
    ensures o.Returned? ==> r.value.value == o.value
  {
    match o
    case Returned(v) => Ok(Some(v))
    case TimedOut => Ok(None)
    case Failed(isException) => if isException then Ok(None) else Raise("BaseException")
  }

  /** `T | None` where `T` itself may be None: the URL a `process_event`
      task left behind, None when there is none. */
  function UrlOf(r: Option<Option<string>>): (url: Option<string>)
    ensures url.Some? <==> r.Some? && r.value.Some?
    ensures url.Some? ==> url.value == r.value.value
  {
    if r.Some? then r.value else None
  }

  /** A URL that survives `safe_process` is one the capture rule wanted. */
  lemma SafeVisitWanted(v: Visit, o: TaskOutcome<Option<string>>)
    requires o.Returned? ==> o.value == ProcessEvent(v)
    requires SafeProcess(o).Ok? && UrlOf(SafeProcess(o).value).Some?
    ensures Wanted(UrlOf(SafeProcess(o).value).value)
  {
  }
}

=== FILE: wrappers.dfy ===
/** Failure-carrying values shared by every module: `Option` stands for Python's
    `T | None`, `Result` for a computation that may raise an exception which the
    surrounding code does not catch. */
module Wrappers {

  datatype Option<+T> = None | Some(value: T) {
    function GetOr(default: T): T {
      match this
      case Some(v) => v
      case None => default
    }
  }

  /** `Raise(why)` is an exception that propagates to the caller. */
  datatype Result<+T> = Ok(value: T) | Raise(why: string)
}
